=== FILE: README.md ===
# minidb, modelled in Dafny

minidb is a flat-file record store. Each table is one text file:

- twelve header lines, from `start` to `end`, with the column names on line 4, types on line 5, sort numbers on line 6 and memos on line 7;
- then one data line per record, cells separated by the delimiter `" \xFF "`.

Queries are built on an `Action`. `Where` parses `key op value` clauses joined by `" and "`. `Cols` projects, `Limit` pages. `Find`, `Count`, `Get`, `Update`, `Delete` and `Insert` then run against the file. They use a line engine that reads, appends and atomically rewrites files.

The model is a set of immutable datatypes and pure functions, plus a few methods for the loops. The modules follow the repository:

| module | file | what it models |
|---|---|---|
| `Base` | base.dfy | bytes, `Option`, `Result`, the error kinds |
| `Seqs` | seqs.dfy | the `bytes.Index`, `bytes.Split`, `bytes.Join` and `bytes.ReplaceAll` the code relies on |
| `Numbers` | numbers.dfy | decimal text, read as `conv.Int` / `conv.Float64` read a column |
| `Scanner` | scanner.dfy | core/scanner.go: the delimiter split function, `Range`, `Limit`, `LimitBytes` |
| `LineFile` | file.dfy | core/file.go: escaping, `Range`, `Limit`, the hooked `Update` and `Del`, `DelBy`, `Insert`, `AppendWith`, `Append` |
| `Curd` | curd.dfy | core/curd.go: the older file variant (no hook, bufio line scanner, callbacks that cannot fail) |
| `Schema` | db.dfy | db.go: `DecodeTable`, the header `Sync` writes, `DecodeData2`, `EncodeData`, `Fields.Map`/`MapIndex`, `Field.compare`, `getID` |
| `Query` | action.dfy | action.go: `Where`/`And`, `Cols`, `Limit`, `find`, `count`, `Get`, `FindAndCount`, `Update`, `Delete`, `Insert` and the 12-line open hook |

Modelling choices:

- A file is its contents, a byte string. Its lines are the tokens the `'\n'` scanner cuts from it.
- A rewrite returns the new contents, or an error. The deferred rename happens only on success (`LineFile.Commit`).
- A Go closure that captures and mutates state, such as Update's limit counter, becomes an explicit state threaded through the rewrite.
- The clock `getID` reads is a parameter `now: nat -> int`, giving the reading at each call.
- A file that may not exist is an `Option<Bytes>` for `Find`, `Count`, `FindAndCount` and `GetCorrected`. `UpdateWith`, `Delete` and `Insert` take the contents of an existing file. So the error that Go's `Delete` and `Insert` return for a missing table file is not modelled (see "## Left out").
- `And` is `Where` itself (action.go:71-73), so it has no member of its own.
- core/curd.go's `escape`, `unescape`, `Range` and `Limit` are the same code as core/file.go's. They are modelled once, by `LineFile.Escape`, `LineFile.Unescape`, `LineFile.FileRange` and `LineFile.FileLimit`.

Where the documented behaviour and the code differ, the model follows the code:

- `Cols` with no names deletes every column. It is not a no-op (`Query.ColsKeepsListed`).
- `DecodeTable` keeps whatever type name line 5 gives. Only columns that line does not reach default to `string`.
- `Count` counts every data line. It does not apply the conditions (`Query.Count`).
- `Get` never reads the file, and `Update` with a limit rewrites the wrong lines. Both are under "Findings".
- `find` and `Update` read data lines differently.
  - `find` reads through `bufio.NewScanner` (action.go:338-341). That drops one trailing '\r' from each line and never unescapes.
  - `Update` reads raw '\n' lines and unescapes them (core/file.go:183-200).
  - So a value holding a newline, which `Insert` writes escaped, comes back from `Find` still escaped.
  - On files whose lines have no trailing '\r' and no escaped newline, the two readers agree (`Query.PlainReadsAgree`).

## Model

| member | source | states |
|---|---|---|
| Seqs.JoinSplit | db.go:401-419 | Joining the pieces bytes.Split cuts, with the same separator, restores the input. |
| Seqs.SplitJoin | db.go:445-455 | Splitting a joined list gives back the list when every piece but the last is separable from the separator and the last does not contain it. |
| Seqs.ReplaceAllIsJoinSplit | core/file.go:39-45 | bytes.ReplaceAll replaces the non-overlapping occurrences of the pattern, left to right, exactly as splitting at the pattern and joining with the replacement does. |
| Scanner.SplitFunc | core/scanner.go:13-24 | Empty input at end of stream gives no token. Otherwise the token is the bytes before the first delimiter and the delimiter is consumed with it. With no delimiter, at end of stream the token is everything left; before the end the function asks for more. No token contains the delimiter. |
| Scanner.Tokens | core/scanner.go:13-24 | A complete stream yields no tokens exactly when it is empty, and no token contains the delimiter. |
| Scanner.TokensOfFrame | core/scanner.go:13-24 | Framing round trip: scanning lines that are each followed by the delimiter yields exactly those lines, provided each line is separable from the delimiter. For a one-byte delimiter that means not containing it. |
| Scanner.RangeFrom | core/scanner.go:33-44 | The callback sees the tokens in order with their indices. Every token before the last one visited answered "go on" without error. The pass ends early only right after a callback that fails or answers false, and the error returned is that callback's error. |
| Scanner.RangeStopsAtFirst | core/scanner.go:33-44 | When token k is the first whose callback fails or answers false, Range visits exactly k+1 tokens and returns that callback's error. |
| Scanner.Limit | core/scanner.go:55-91 | The result is the page of all matches: those past the offset, all of them when size < 0, otherwise at most size. With size < 0 the whole stream is consumed. Otherwise the pass stops right after the match that reaches offset + max(size, 1) matches, and not earlier. |
| Scanner.Accept | core/scanner.go:69-86 | One match of Limit's closure moves the page from that of the earlier matches to that of the matches including it. The closure answers "stop" exactly when size >= 0 and this match is number offset + max(size, 1). |
| Scanner.LimitAll | core/scanner.go:57-61 | A nil search makes every token a match. With no offset, Limit(n > 0) returns the first min(n, count) tokens, and Limit(0) returns nothing. |
| Scanner.LimitBytes | core/scanner.go:46-53 | LimitBytes returns exactly the tokens the pass consumed, and the rest of the stream starts right after them. With a negative size that is every token; otherwise it is the first offset + max(size, 1). |
| LineFile.Escape | core/file.go:39-41 | Escaped text never contains the line separator '\n'. |
| LineFile.UnescapeEscape | core/file.go:39-45 | unescape(escape(bs)) == bs whenever bs does not contain the escape sequence `\\n`. |
| LineFile.EscapeUnescape | core/file.go:39-45 | A line read from a file, which holds no '\n', comes back byte for byte when unescaped and escaped again. |
| LineFile.EscapeKeepsPlainLine | core/file.go:39-41 | Escaping leaves a line without '\n' unchanged. |
| LineFile.LinesOf | core/file.go:183-196 | The lines the custom scanner cuts from a file never contain '\n'. |
| LineFile.ReadBack | core/file.go:242-257 | Lines written each followed by '\n' read back as exactly those lines when none contains '\n'. |
| LineFile.View | core/file.go:88-95 | Range shows one line per scanner line: the line with one trailing '\r' dropped, then unescaped. |
| LineFile.FileRange | core/file.go:77-98 | The callback sees the lines in order, and the pass stops right after the first callback that answers false. |
| LineFile.FileLimit | core/file.go:47-75 | File.Limit returns the same page as Scanner.Limit over the lines Range shows. |
| LineFile.Update | core/file.go:153-218 | On success the new file is the hook's header lines followed by each line's replacement list, in order, each escaped and newline-terminated. A hook error is returned as it is. |
| LineFile.Replaced | core/file.go:196-210 | The reference rewrite with a stateless callback succeeds exactly when the callback succeeds on every line. |
| LineFile.ReplacedFirstError | core/file.go:200-203 | A failing rewrite fails with the error of the first line whose callback fails. |
| LineFile.RewriteLift | core/file.go:196-210 | The Update loop run with a stateless callback gives the reference rewrite. |
| LineFile.UpdateFailsOnFirstError | core/file.go:161-203 | Update fails with the hook's error, or else with the first failing callback's error. A failed rewrite leaves the file as it was, because the rename runs only when err == nil. |
| LineFile.DelRemovesLine | core/file.go:220-227 | Del(k) succeeds and removes exactly line k, keeping every other line in order and byte for byte. An index outside the file changes nothing. |
| LineFile.InsertPlacesLine | core/file.go:144-151 | Insert(k, d) succeeds and places the escaped d immediately before line k. An index outside the file changes nothing. |
| LineFile.DelByKeepsUnselected | core/file.go:229-240 | When the predicate does not fail, DelBy keeps exactly the lines for which it answers false, in order and byte for byte. |
| LineFile.DelByFailsOnFirstError | core/file.go:229-234 | A predicate error aborts DelBy with the first such error, and nothing is committed. |
| LineFile.DelByOpened | core/file.go:186-194 | Behind a hook that hands back raw lines of the file, DelBy writes that header unchanged and then the remaining lines the predicate rejects. |
| LineFile.UpdateOpened | core/file.go:186-210 | Behind a hook that hands back raw lines, a successful rewrite writes the header unchanged followed by the escaped replacement lines. |
| LineFile.WriteBack | core/file.go:191-209 | The written header and escaped replacements read back as the header followed by the escaped replacements. |
| LineFile.AppendWith | core/file.go:106-141 | On success the old contents are a prefix of the new ones. A hook error fails the append. |
| LineFile.AppendAddsLines | core/file.go:106-141 | On a well-formed file, AppendWith succeeds exactly when both the hook and the builder do. On success the old lines stay intact and the builder's lines follow them, escaped. |
| Curd.Stripped | core/curd.go:146-151 | The bufio line scanner gives one line per '\n'-terminated line of the file, with no '\n' and one trailing '\r' dropped. |
| Curd.Append | core/curd.go:90-104 | The old contents are kept and the escaped line plus '\n' follows them. |
| Curd.AppendAgrees | core/curd.go:90-104 | The old Append gives the same file as core/file.go's Append without a hook. |
| Curd.AppendAddsLine | core/curd.go:90-104 | Appending to a well-formed file keeps its lines and adds the escaped line after them. |
| Curd.RewriteReplaced | core/curd.go:147-170 | The old Update loop is core/file.go's stateless rewrite with a callback that never fails. |
| Curd.UpdateIdentityDropsCR | core/curd.go:146-170 | Rewriting every line to itself keeps the lines except for one trailing '\r' per line, which the bufio scanner drops. |
| Curd.DelRemovesLine | core/curd.go:180-187 | Del(k) removes exactly line k of the stripped lines. An index outside the file removes nothing. |
| Curd.InsertPlacesLine | core/curd.go:106-113 | Insert(k, d) puts the escaped d immediately before line k, and is a no-op apart from stripping when k is not a line index. |
| Curd.DelByKeepsUnselected | core/curd.go:189-196 | DelBy keeps exactly the stripped lines the predicate rejects, in order. |
| Schema.DecodeTable | db.go:324-377 | The header fails on any line count other than 12, then on a first line other than "start", then on a last line other than "end", and succeeds otherwise. Each part of line 4 is one column at its own position. Lines 5, 6 and 7 give type, sort and memo to the columns they reach. Other columns keep type "string", sort 0 and an empty memo. |
| Schema.SyncHeader | db.go:120-132 | Sync writes twelve lines from "start" to "end". |
| Schema.SyncColumns | db.go:59-89 | Sync's columns start with the int key column and its memo, and no later column carries the key's name. |
| Schema.HeaderRoundTrip | db.go:120-132 | The header Sync writes decodes to the same columns in order: same names, types and memos, sort 0. This needs at least one column and each list to survive Split after Join. |
| Schema.SyncHeaderLines | db.go:121-132 | No header line contains '\n' when no name, type or memo does, so the header reads back line for line. |
| Schema.BorderNameDoesNotRoundTrip | db.go:124-124 | Under the default delimiter, the column names [" \xFF", "x"] read back as ["", "\xFF x"]. |
| Schema.NameMap | db.go:308-314 | Fields.Map has exactly the column names as keys, and each maps to the last column with that name. |
| Schema.IndexMap | db.go:316-322 | Fields.MapIndex has exactly the columns' indices as keys, and each key maps to a field carrying that index. |
| Schema.IndexMapLast | db.go:316-322 | The column each index maps to is a column of the table: the last one carrying that index. |
| Schema.IndexMapPositional | db.go:316-322 | In a decoded table, position i maps to column i, and no other position is mapped. |
| Schema.DecodeData2Columns | db.go:401-419 | Cells beyond the last column are dropped. A decoded row has exactly the names of the columns that received a cell, each holding its cell; when a name repeats, the later cell wins. |
| Schema.DecodedKeysNamed | db.go:401-419 | Every key of a decoded row names a column. |
| Schema.EncodeDataAsWritten | db.go:445-455 | The code as written panics (None) exactly when some value's column index lies at or past the number of distinct names. |
| Schema.DuplicateNamePanics | db.go:445-455 | Two columns named "a" make the written EncodeData panic. The corrected one writes the value in the later column's cell. |
| Schema.EncodeDataAgrees | db.go:445-455 | With distinct column names, the written EncodeData does not panic and gives the corrected one's line. |
| Schema.EncodeThenDecode | db.go:445-455 | Decoding a written row gives every column, and each name the row has reads back its value, provided the cells survive Split after Join. |
| Schema.DecodeThenEncode | db.go:445-455 | With distinct names, a line with exactly one cell per column is written back unchanged from its decoded row. |
| Schema.SetColumnReadsBack | action.go:300-302 | A row written with one column set reads back with that value in that column and the row's own values in the others. |
| Schema.Order | db.go:243-287 | int columns order by the integers the texts spell, float columns by the decimals, and every other type by bytewise string order. |
| Schema.Compare | db.go:236-291 | A missing column matches nothing. "like" and " like " are case-sensitive substring tests. Any operator other than like, =, >, >=, < and <= matches nothing. |
| Schema.CompareComplements | db.go:243-287 | For any present column, > is the negation of <=, < is the negation of >=, and = holds exactly when neither < nor > does. |
| Schema.IntColumnsCompareNumerically | db.go:243-273 | On an int column, < and = compare the parsed integers. |
| Schema.TextColumnsCompareLex | db.go:243-287 | On a column of any type other than int and float, <, =, >, <= and >= compare the texts in Go's string order: bytewise, with a proper prefix first. |
| Schema.StringColumnsCompareBytewise | db.go:270-277 | "10" < "9" holds on a string column but not on an int column. |
| Schema.GetId | db.go:215-225 | The issued key is strictly greater than the last one issued. It is the first clock reading past it, and every earlier reading in the call was not past it. |
| Numbers.ParseIntText | action.go:300-302 | The decimal text of an issued key reads back, through conv.Int's reading, as the same integer. |
| Query.Restrict | action.go:82-89 | A projected row keeps exactly the listed columns that it had, with their values. |
| Query.RunEveryAgrees | action.go:245-253 | Delete's loop runs every handler, yet selects exactly the rows that find's stop-at-first-rejection loop selects. |
| Query.RunAllRestricts | action.go:59-89 | Handlers never add a column or change a value. The row left after the handlers is a restriction of the decoded row. |
| Query.ConditionsConjoin | action.go:59-62 | With conditions only, a row is selected exactly when every condition holds on it (AND), and it is left unchanged. |
| Query.TrimSpace | action.go:48-49 | The result has no white space at either end. It is the input with only white space removed before and after it. |
| Query.TrimSpaceKeepsTrimmed | action.go:48-49 | Trimming leaves trimmed text alone. |
| Query.FirstOp | action.go:45-47 | The operator picked is the first in the list " like ", ">=", ">", "<=", "<", "=" that the clause contains. None is picked exactly when the clause contains no operator. |
| Query.ParseClause | action.go:45-63 | A clause with no operator adds nothing. Otherwise it becomes a condition whose operator is in the list and whose key and value are trimmed. |
| Query.WhereFrom | action.go:50-66 | The loop only ever adds conditions after those already present. |
| Query.Where | action.go:42-69 | Where keeps the conditions already added and the paging. |
| Query.WhereFromCounts | action.go:50-57 | The loop fails exactly when the clauses ask for more "?" arguments than remain. Otherwise it adds one condition per clause that holds an operator. |
| Query.WhereCounts | action.go:42-69 | Where records a missing argument exactly when its text asks for more arguments than it is given. Otherwise it adds one condition per clause with an operator. |
| Query.WhereFromBinds | action.go:50-63 | With enough arguments, the loop places the condition of each clause after those of the earlier clauses. A "?" value receives the argument whose position is the number of earlier clauses that asked for one. |
| Query.WhereBinds | action.go:42-69 | When Where records no error, its k-th operator clause becomes the condition after the existing handlers and the earlier clauses' conditions. A "?" in it is replaced by the arguments in order, one per asking clause. |
| Query.EarlierOpAbsent | action.go:45-47 | No operator listed before a written condition's own occurs in its text, so ">=" is not read as ">" and "<=" is not read as "<". |
| Query.OwnOpFirst | action.go:45-47 | In a written condition's text, the first operator found is the condition's own, and its first occurrence is right after the key. |
| Query.ClauseRoundTrip | action.go:44-63 | A condition written as key, operator and value parses back to itself when key and value are plain and trimmed. |
| Query.WhereRoundTrip | action.go:42-69 | Conditions written as text and joined with " and " are read back by Where as exactly those conditions, with no error. |
| Query.ColNames | action.go:76-81 | The listed names are exactly the comma-separated parts of the arguments. |
| Query.Cols | action.go:75-91 | Cols appends one projection handler and changes nothing else. |
| Query.ColsKeepsListed | action.go:82-89 | The projection always passes the row and keeps exactly the listed columns. With no names it deletes every column. |
| Query.Limit | action.go:93-102 | Limit records the paging and changes nothing else. |
| Query.HeaderLines | action.go:324-331 | withData reads twelve header lines: the file's first twelve, with empty lines standing in for those a short file lacks. |
| Query.PageOf | action.go:94-99 | A page is a prefix of the records: all of them without a limit, otherwise as many as the size allows, at least one. |
| Query.CollectPages | action.go:342-365 | find's scan, which stops as soon as the page is full, collects exactly the first page of the selected records at or past the offset. |
| Query.Find | action.go:339-371 | A sticky error is returned before any file work. A missing file reports the table as not found. A header that does not decode returns its error. |
| Query.FindPages | action.go:339-371 | On a readable table, Find returns, in file order, the first page of the records of the data lines that every handler accepts. Only lines at or past the offset count; the offset counts raw data lines, not selected records. |
| Query.Count | action.go:373-384 | Count returns the sticky error or table-not-found as Find does. Otherwise it is the number of data lines. |
| Query.CountBoundsFind | action.go:373-384 | Count fails exactly when Find does, with the same error. It is never below the number of records Find returns, and conditions and paging do not change it. |
| Query.FindAndCount | action.go:133-150 | FindAndCount succeeds exactly when Count does and returns Count's number with Find's records, never more records than the count. |
| Query.Get | action.go:104-114 | As written, Get never reports a record. It fails exactly on a sticky error, and otherwise leaves a limit of one behind. |
| Query.GetCorrectedFinds | action.go:104-114 | The corrected Get reports true exactly when the conditions select some data line, and fails exactly as Find does. |
| Query.GetMissesRecords | action.go:104-114 | Whenever the corrected Get reports a record, the written one reports none. |
| Query.HeaderHookOpens | action.go:286-293 | The open hook accepts a file exactly when its first twelve raw lines decode as a header. It then keeps those lines as the header and hands on the lines after them; otherwise it returns the decode error. |
| Query.Patched | action.go:213-224 | The new record keeps every old value. The patch overwrites only columns the handlers left in the row, and never the key column. |
| Query.Change | action.go:194-228 | A line is re-encoded exactly when the handlers select its row. |
| Query.ChangeReadsBack | action.go:213-226 | The rewritten line decodes with every old column present. Columns the patch names and the handlers kept, other than the key, hold the patch's values; the rest hold their old ones. |
| Query.UpdateRewrites | action.go:192-229 | The rewrite callback, threading the count of selected records, produces exactly the reference outcome of every line. |
| Query.UpdateWith | action.go:175-232 | Update returns the sticky error first, then the missing-condition error when there is neither a handler nor a limit. Otherwise it reports success even when the rewrite fails; a header that does not decode leaves the file unchanged. |
| Query.UpdateWithCommits | action.go:175-232 | With a decodable header and a condition or limit, Update commits the file rewrite its open hook and its per-line step produce. |
| Query.UpdateLines | action.go:175-232 | After Update the header lines are unchanged. Each data line is replaced, escaped, by its outcome. |
| Query.UpdatedLine | action.go:199-228 | A line the handlers reject, or that paging does not admit, is written back byte for byte. An admitted selected line becomes the escaped re-encoding of its patched record. |
| Query.ChangerMarksHits | action.go:199-204 | Over Update's own reading of a line (raw, then unescaped), the rewrite changes the line exactly when the handlers select that reading. |
| Query.IntendedGatePages | action.go:206-211 | With the corrected limit decision, a selected line past the offset is rewritten exactly when its record is on the first page of the selected records, at its rank. The records are taken from the lines as Update reads them. |
| Query.UpdateLineAt | action.go:199-228 | Data line k after the corrected Update: it becomes the escaped re-encoding of its patched record when Update's reading of it is selected and the decision admits it. Otherwise it is written back byte for byte. The header and the line count are unchanged. |
| Query.PlainReadsAgree | action.go:324-341 | On a file with no line ending in '\r' and none holding an escaped newline, find's header read and Update's header hook accept the same files and decode the same table. find's records are then the records of Update's reading of the data lines. |
| Query.CarriageReturnSplitsReaders | action.go:338-341 | The data line "x\r" under `a = x` is selected by find, which drops the '\r', and rejected over Update's reading, which keeps it. |
| Query.UpdateMatchesFind | action.go:175-232 | On a file with no line ending in '\r' and none holding an escaped newline, the corrected Update rewrites data line k exactly when its record is on the page Find returns, at its rank, into the escaped re-encoding of its patched record. Every other data line is written back byte for byte. |
| Query.IntendedGateSkips | action.go:206-211 | With the corrected decision, lines before the offset are never rewritten. |
| Query.AsWrittenGateMisses | action.go:206-211 | The limit decision as written leaves the last record of each page unchanged, and with Limit(1) every record. It rewrites selected lines before the offset. |
| Query.Delete | action.go:234-255 | Delete returns the sticky error first, then the missing-condition error when there is neither a handler nor a limit. Every error leaves the file unchanged. |
| Query.DeleteRemovesSelected | action.go:234-255 | Delete succeeds, keeps the header, and keeps exactly the data lines whose rows the conditions do not select, in order and byte for byte. The limit is not consulted. |
| Query.DeleteCommits | action.go:234-255 | With a decodable header and a condition or limit, Delete reports success and commits exactly the file DelBy writes. |
| Query.DeleteKeeps | action.go:245-254 | Delete keeps the header and the data lines its own predicate rejects. |
| Query.DeleteIfSelects | action.go:245-254 | Over Delete's own reading of each line (unescaped, '\r' kept), its predicate, which runs every handler, removes the same lines that the stop-at-first loop of find selects. |
| Query.Unselected | action.go:245-254 | Reference for what Delete keeps: the lines without a record, in order. None are dropped when no line has a record; all are dropped when every line has one. |
| Query.KeptUnselected | core/file.go:229-240 | DelBy under the stop-at-first selection keeps exactly the lines whose unescaped reading gives no record, in order. |
| Query.DeleteMatchesFind | action.go:234-255 | On a file with no line ending in '\r' and none holding an escaped newline, and whose header find can read, Delete succeeds, keeps the header and keeps exactly the data lines for which find returns no record. |
| Query.LimitAloneDeletesAll | action.go:240-254 | A limit with no condition passes Delete's guard, and every data line is then deleted. |
| Query.Insert | action.go:153-173 | A sticky error, no rows or a header that does not decode leave the file unchanged; only the first and last are errors. Otherwise one strictly increasing key per row, each past the last issued, is issued, and the rows encoded with their keys are appended escaped at the end of the file. |
| Query.IssueKeys | action.go:297-306 | The builder issues one key per row in strictly increasing order, the first past the last issued key, and encodes each row with its own key. |
| Query.InsertedKeyReadsBack | action.go:300-302 | An inserted line reads back with the issued key in the key column, which conv.Int reads as that number, and with the row's own values in the other columns. |

## Left out

- File system and I/O are not modelled. This covers opening, creating, seeking, renaming and closing files, bufio buffering, the writeCacheSize flush policy and the mutexes. A file is its contents, and the rename is the atomic switch to the new contents.
- Read errors of the scanners are not modelled (scanner.Err(), Range's final Err). Neither is bufio's maximum token size.
- core/file.go calls NewScanner with one argument. It is modelled with the '\n' delimiter File.split gives.
- File open modes are not modelled. AppendWith opens the file write-only yet its hook reads it, and curd.go's Append opens it with only O_APPEND. The model treats reads and writes as succeeding.
- Reflection and marshalling are left out: Sync's field discovery, typeString, tableName, db.unmarshal, conv.Interfaces, filename and New. Rows are given as maps from column names to text. Sync appears only through the columns and header lines it writes.
- Sync's early return for an existing table file (the schema migration left as a todo) is left out.
- The persistent state of an Action across calls is left out. Every query starts with an empty Result. find installing a LimitHandler that a later Update or Delete on the same Action would see is not modelled.
- Query.Change, Query.Keyed (and through them Query.UpdateWith, Query.Update, Query.UpdateAsWritten, Query.Insert and Query.IssueKeys): they write lines with the corrected Schema.EncodeData. On a table with two columns of the same name, the Go callbacks at action.go:226 and action.go:302 instead panic inside Table.EncodeData. When the column names are distinct, Schema.EncodeDataAgrees shows the two encodings coincide.
- Query.UpdateMatchesFind, Query.IntendedGatePages, Query.DeleteIfSelects, Query.DeleteMatchesFind: the corrected Update is shown to rewrite exactly Find's page, and Delete to remove exactly find's selected lines, only on files whose lines have no trailing '\r' and no escaped newline. Query.DeleteIfSelects compares the two selections over Delete's own reading only. On other files find reads lines differently from Update and Delete, as written in the Go code, and Query.CarriageReturnSplitsReaders shows a line they select differently. The model keeps both readers as the code has them.
- Query.UpdateWith, Query.Delete, Query.Insert: they take the contents of an existing table file. A missing file is not modelled for them. In Go, Delete and Insert return the open error (core/file.go:169-172 and core/file.go:110-113). Update drops it and reports success.
- Query.Get: it assumes the Action's Result is empty, as it is on a fresh Action. A Result left by an earlier Find on the same Action would make the Go Get report true.
- Query.TrimSpace: it removes ASCII white space only. Unicode white space, such as U+0085, U+00A0 and multi-byte spaces, is not trimmed.
- Numbers.ToInt: it reads only an optional sign followed by decimal digits, with 0 for anything else. conv.Int's other notations and 64-bit overflow are not modelled.
- Schema.Order: float columns compare the exact decimal value of plain decimal text. float64 rounding and other notations are not modelled.
- Schema.GetId: the clock is a parameter. Query.Insert requires that the clock eventually passes every value; with a clock that never does, getID spins forever, which is not modelled.
- Log output for an unknown operator (db.go:289) is left out.
- Operators the code does not implement (!=, <>, or, ordering) are left out.
- database/testlinux/main.go is demo wiring and is not part of this model.

## Findings

| source | as written | input that shows it | evidently intended | confidence | as-written member | corrected member |
|---|---|---|---|---|---|---|
| db.go:445-455 | EncodeData allocates one cell per distinct name (len(Fields.Map())) but stores each value at its column's Index. | Two columns both named "a" and the row {"a": "v"}: one cell is allocated and the value is stored at index 1, which panics. | One cell per column (len(Fields)), the value written in the cell of the column Fields.Map picks. | not executed; high | Schema.EncodeDataAsWritten, Schema.DuplicateNamePanics | Schema.EncodeData, Schema.EncodeThenDecode |
| action.go:104-114 | Get sets Limit(1) but never runs find, then tests the still-empty Result. | A table whose only data line matches the conditions: Get reports false. | Find with a limit of one record, reporting whether one was found. | not executed; high | Query.Get, Query.GetMissesRecords | Query.GetCorrected, Query.GetCorrectedFinds |
| action.go:206-211 | Update rewrites a selected line when the limit handler answers false. The handler answers true once the page is full, and false for lines before the offset. | Limit(1) on a table with one matching line: the handler answers true at once, so the line is not updated. | Rewrite exactly the lines whose records make up the page Find returns. | not executed; high | Query.UpdateAsWritten, Query.AsWrittenGateMisses | Query.Update, Query.IntendedGatePages, Query.UpdateMatchesFind |

=== FILE: action.dfy ===
/** The query builder of action.go: Where and Cols add row handlers, Limit
    sets paging, and Find, Count, Get, Update, Delete and Insert run them
    against a table file. */
module Query {
  import opened Base
  import opened Seqs
  import opened Scanner
  import opened Numbers
  import opened Schema
  import LineFile
  import Curd

  /** A decoded data line, keyed by column name. */
  type Row = map<Bytes, Field>

  /** A row handler: a condition from Where, or the projection Cols adds. */
  datatype Handler =
    | Cond(key: Bytes, op: Bytes, arg: Bytes)
    | Project(cols: set<Bytes>)

  /** The paging Limit sets: how many records, and an optional offset. */
  datatype Paging = Paging(size: int, offset: Option<int>)

  /** The builder state: handlers in order, the paging, and the first error. */
  datatype Action = Action(handlers: seq<Handler>, limit: Option<Paging>, err: Option<Error>)

  const NewAction: Action := Action([], None, None)

  /** The columns of a row whose names are listed. */
  function Restrict(row: Row, cols: set<Bytes>): (r: Row)
    ensures r.Keys == row.Keys * cols
    ensures forall k :: k in r ==> r[k] == row[k]
  {
    map k | k in row && k in cols :: row[k]
  }

  /** One handler on a row: whether the row passes, and the row as the next
      handler sees it (a projection deletes the unlisted columns). */
  function Apply(h: Handler, row: Row): (bool, Row) {
    match h
    case Cond(key, op, arg) => (key in row && Compare(Some(row[key]), op, arg), row)
    case Project(cols) => (true, Restrict(row, cols))
  }

  /** The handler loop of Find and Update: stop at the first handler that
      rejects the row. */
  function RunAll(hs: seq<Handler>, i: nat, row: Row): (bool, Row)
    requires i <= |hs|
    decreases |hs| - i
  {
    if i == |hs| then (true, row)
    else
      var step := Apply(hs[i], row);
      if !step.0 then (false, step.1) else RunAll(hs, i + 1, step.1)
  }

  /** The handler loop of Delete: every handler runs, and the row is
      selected when none rejects it. */
  function RunEvery(hs: seq<Handler>, i: nat, row: Row): (bool, Row)
    requires i <= |hs|
    decreases |hs| - i
  {
    if i == |hs| then (true, row)
    else
      var step := Apply(hs[i], row);
      var rest := RunEvery(hs, i + 1, step.1);
      (step.0 && rest.0, rest.1)
  }

  /** Whether the handlers select a row. */
  function Selects(hs: seq<Handler>, row: Row): bool {
    RunAll(hs, 0, row).0
  }

  /** Delete's loop, which does not stop early, selects the same rows as the
      loop of Find and Update. */
  lemma {:induction false} RunEveryAgrees(hs: seq<Handler>, i: nat, row: Row)
    requires i <= |hs|
    ensures RunEvery(hs, i, row).0 == RunAll(hs, i, row).0
    decreases |hs| - i
  {
    if i < |hs| {
      RunEveryAgrees(hs, i + 1, Apply(hs[i], row).1);
    }
  }

  /** Handlers never add a column or change a value: the row a handler
      loop ends with is a restriction of the row it started with. */
  lemma {:induction false} RunAllRestricts(hs: seq<Handler>, i: nat, row: Row)
    requires i <= |hs|
    ensures RunAll(hs, i, row).1.Keys <= row.Keys
    ensures forall k :: k in RunAll(hs, i, row).1 ==> RunAll(hs, i, row).1[k] == row[k]
    decreases |hs| - i
  {
    if i < |hs| {
      RunAllRestricts(hs, i + 1, Apply(hs[i], row).1);
    }
  }

  predicate AllConds(hs: seq<Handler>) {
    forall i :: 0 <= i < |hs| ==> hs[i].Cond?
  }

  /** Conditions alone are a conjunction: a row is selected exactly when
      every condition holds on it, and it is left as it was. */
  lemma {:induction false} ConditionsConjoin(hs: seq<Handler>, i: nat, row: Row)
    requires i <= |hs| && AllConds(hs)
    ensures RunAll(hs, i, row).1 == row
    ensures RunAll(hs, i, row).0 <==> forall j :: i <= j < |hs| ==> Apply(hs[j], row).0
    decreases |hs| - i
  {
    if i < |hs| {
      ConditionsConjoin(hs, i + 1, row);
    }
  }

  /** ASCII white space, as strings.TrimSpace removes it. */
  predicate IsSpace(c: byte) {
    c == ' ' || c == '\t' || c == '\n' || c == '\r' || c == 0x0B as char || c == 0x0C as char
  }

  predicate AllSpace(s: Bytes) {
    forall i :: 0 <= i < |s| ==> IsSpace(s[i])
  }

  /** Text with no white space at either end. */
  predicate Trimmed(s: Bytes) {
    |s| == 0 || (!IsSpace(s[0]) && !IsSpace(s[|s| - 1]))
  }

  /** The length of the white space `s` starts with. */
  function Lead(s: Bytes): (n: nat)
    ensures n <= |s| && AllSpace(s[..n]) && (n == |s| || !IsSpace(s[n]))
    decreases |s|
  {
    if |s| > 0 && IsSpace(s[0]) then
      var n := 1 + Lead(s[1..]);
      assert s[..n] == [s[0]] + s[1..][..n - 1];
      n
    else 0
  }

  /** The length of the white space `s` ends with. */
  function Trail(s: Bytes): (n: nat)
    ensures n <= |s| && AllSpace(s[|s| - n..]) && (n == |s| || !IsSpace(s[|s| - n - 1]))
    decreases |s|
  {
    if |s| > 0 && IsSpace(s[|s| - 1]) then
      var m := Trail(s[..|s| - 1]);
      SpaceTail(s, m);
      1 + m
    else 0
  }

  /** White space that ends `s` without its last byte, followed by a last
      byte that is white space, is white space that ends `s`. */
  lemma SpaceTail(s: Bytes, m: nat)
    requires 0 < |s| && IsSpace(s[|s| - 1]) && m < |s|
    requires AllSpace(s[..|s| - 1][|s| - 1 - m..])
    ensures AllSpace(s[|s| - (m + 1)..])
  {
    var init := s[..|s| - 1];
    assert s[|s| - (m + 1)..] == init[|init| - m..] + [s[|s| - 1]];
  }

  /** strings.TrimSpace on ASCII white space: the text between the leading
      and the trailing white space. */
  function TrimSpace(s: Bytes): (r: Bytes)
    ensures Trimmed(r)
    ensures Lead(s) + |r| <= |s| && r == s[Lead(s)..Lead(s) + |r|]
    ensures AllSpace(s[..Lead(s)]) && AllSpace(s[Lead(s) + |r|..])
  {
    var a := Lead(s);
    var rest := s[a..];
    var b := Trail(rest);
    assert rest[|rest| - b..] == s[|s| - b..];
    s[a..|s| - b]
  }

  /** Trimming leaves trimmed text alone. */
  lemma TrimSpaceKeepsTrimmed(s: Bytes)
    requires Trimmed(s)
    ensures TrimSpace(s) == s
  {
  }

  const AndSep: Bytes := " and "
  const Placeholder: Bytes := "?"

  /** The operators Where looks for, in the order it tries them. */
  const Ops: seq<Bytes> := [SpacedLike, Ge, Gt, Le, Lt, Eq]

  /** The position in Ops of the first operator from `k` on that the clause
      contains. */
  function FirstOp(v: Bytes, k: nat): (r: Option<nat>)
    requires k <= |Ops|
    ensures r.Some? ==> k <= r.value < |Ops| && Contains(v, Ops[r.value])
                        && forall l :: k <= l < r.value ==> !Contains(v, Ops[l])
    ensures r.None? ==> forall l :: k <= l < |Ops| ==> !Contains(v, Ops[l])
    decreases |Ops| - k
  {
    if k == |Ops| then None
    else if Contains(v, Ops[k]) then Some(k)
    else FirstOp(v, k + 1)
  }

  /** One clause of Where: the first operator of the list that occurs in
      it, cut at its first occurrence into a trimmed key and value. A clause
      with no operator gives nothing. */
  function ParseClause(v: Bytes): (r: Option<Handler>)
    ensures r.None? <==> forall l :: 0 <= l < |Ops| ==> !Contains(v, Ops[l])
    ensures r.Some? ==> r.value.Cond? && r.value.op in Ops && Trimmed(r.value.key) && Trimmed(r.value.arg)
  {
    match FirstOp(v, 0)
    case None => None
    case Some(j) =>
      var op := Ops[j];
      var p := IndexOf(v, op).value;
      Some(Cond(TrimSpace(v[..p]), op, TrimSpace(v[p + |op|..])))
  }

  /** A condition whose value is the placeholder for the next argument. */
  predicate Asks(h: Handler) {
    h.Cond? && h.arg == Placeholder
  }

  /** Every clause of a Where text, parsed. */
  function ParseAll(clauses: seq<Bytes>): (r: seq<Option<Handler>>)
    ensures |r| == |clauses| && forall k :: 0 <= k < |clauses| ==> r[k] == ParseClause(clauses[k])
  {
    seq(|clauses|, k requires 0 <= k < |clauses| => ParseClause(clauses[k]))
  }

  /** The loop of Where from clause `i` on, `used` arguments consumed: a "?"
      value takes the next argument, and a "?" with none left stops with a
      missing-argument error, keeping the conditions added before it. */
  function WhereFrom(clauses: seq<Bytes>, parsed: seq<Option<Handler>>, i: nat, args: seq<Bytes>, used: nat,
                     hs: seq<Handler>): (r: (seq<Handler>, Option<Error>))
    requires i <= |clauses| == |parsed|
    ensures hs <= r.0
    decreases |clauses| - i
  {
    if i == |clauses| then (hs, None)
    else match parsed[i]
      case None => WhereFrom(clauses, parsed, i + 1, args, used, hs)
      case Some(c) =>
        if Asks(c) then
          if used < |args| then WhereFrom(clauses, parsed, i + 1, args, used + 1, hs + [c.(arg := args[used])])
          else (hs, Some(MissingArgument(clauses[i])))
        else WhereFrom(clauses, parsed, i + 1, args, used, hs + [c])
  }

  /** Action.Where: the clauses are the text between " and "s. */
  function Where(a: Action, s: Bytes, args: seq<Bytes>): (r: Action)
    ensures a.handlers <= r.handlers && r.limit == a.limit
  {
    var clauses := Split(s, AndSep);
    var res := WhereFrom(clauses, ParseAll(clauses), 0, args, 0, a.handlers);
    Action(res.0, a.limit, if res.1.Some? then res.1 else a.err)
  }

  /** How many of the parsed clauses from `i` on ask for an argument. */
  function Wanted(parsed: seq<Option<Handler>>, i: nat): nat
    requires i <= |parsed|
    decreases |parsed| - i
  {
    if i == |parsed| then 0
    else (if parsed[i].Some? && Asks(parsed[i].value) then 1 else 0) + Wanted(parsed, i + 1)
  }

  /** How many of the parsed clauses from `i` on hold an operator. */
  function Conditions(parsed: seq<Option<Handler>>, i: nat): nat
    requires i <= |parsed|
    decreases |parsed| - i
  {
    if i == |parsed| then 0
    else (if parsed[i].Some? then 1 else 0) + Conditions(parsed, i + 1)
  }

  /** Where's loop fails exactly when the clauses ask for more arguments
      than were given; otherwise it adds one condition per clause with an
      operator. */
  lemma {:induction false} WhereFromCounts(clauses: seq<Bytes>, parsed: seq<Option<Handler>>, i: nat,
                                           args: seq<Bytes>, used: nat, hs: seq<Handler>)
    requires i <= |clauses| == |parsed| && used <= |args|
    ensures WhereFrom(clauses, parsed, i, args, used, hs).1.None? <==> used + Wanted(parsed, i) <= |args|
    ensures WhereFrom(clauses, parsed, i, args, used, hs).1.None? ==>
              |WhereFrom(clauses, parsed, i, args, used, hs).0| == |hs| + Conditions(parsed, i)
    decreases |clauses| - i
  {
    if i < |clauses| {
      match parsed[i]
      case None => WhereFromCounts(clauses, parsed, i + 1, args, used, hs);
      case Some(c) =>
        if Asks(c) {
          if used < |args| {
            WhereFromCounts(clauses, parsed, i + 1, args, used + 1, hs + [c.(arg := args[used])]);
          }
        } else {
          WhereFromCounts(clauses, parsed, i + 1, args, used, hs + [c]);
        }
    }
  }

  /** Where records a missing argument exactly when its text asks for more
      arguments than it is given; otherwise it adds one condition per
      clause holding an operator. */
  lemma WhereCounts(a: Action, s: Bytes, args: seq<Bytes>)
    requires a.err.None?
    ensures var parsed := ParseAll(Split(s, AndSep));
            && (Where(a, s, args).err.None? <==> Wanted(parsed, 0) <= |args|)
            && (Where(a, s, args).err.None? ==> |Where(a, s, args).handlers| == |a.handlers| + Conditions(parsed, 0))
  {
    var clauses := Split(s, AndSep);
    WhereFromCounts(clauses, ParseAll(clauses), 0, args, 0, a.handlers);
  }

  /** How many of the parsed clauses in [i, k) ask for an argument. */
  function AskedBetween(parsed: seq<Option<Handler>>, i: nat, k: nat): nat
    requires i <= k <= |parsed|
    decreases k - i
  {
    if i == k then 0
    else (if parsed[i].Some? && Asks(parsed[i].value) then 1 else 0) + AskedBetween(parsed, i + 1, k)
  }

  /** How many of the parsed clauses in [i, k) hold an operator. */
  function CondsBetween(parsed: seq<Option<Handler>>, i: nat, k: nat): nat
    requires i <= k <= |parsed|
    decreases k - i
  {
    if i == k then 0
    else (if parsed[i].Some? then 1 else 0) + CondsBetween(parsed, i + 1, k)
  }

  /** Condition `c` sits at position `at` of `r`, with the argument at
      position `n` in place of a "?" value. */
  predicate Placed(c: Handler, at: nat, n: nat, args: seq<Bytes>, r: seq<Handler>) {
    && at < |r|
    && (Asks(c) ==> n < |args| && r[at] == c.(arg := args[n]))
    && (!Asks(c) ==> r[at] == c)
  }

  /** Every parsed condition from clause `i` on is placed after `hs` and
      the conditions of the clauses before it, and takes the argument
      counted by the clauses before it that asked for one. */
  predicate BindsFrom(parsed: seq<Option<Handler>>, i: nat, args: seq<Bytes>, used: nat, hs: seq<Handler>,
                      r: seq<Handler>)
    requires i <= |parsed|
  {
    forall k :: i <= k < |parsed| && parsed[k].Some? ==>
      Placed(parsed[k].value, |hs| + CondsBetween(parsed, i, k), used + AskedBetween(parsed, i, k), args, r)
  }

  /** Where's loop binds the arguments in order, when there are enough. */
  lemma {:induction false} WhereFromBinds(clauses: seq<Bytes>, parsed: seq<Option<Handler>>, i: nat,
                                          args: seq<Bytes>, used: nat, hs: seq<Handler>)
    requires i <= |clauses| == |parsed| && used + Wanted(parsed, i) <= |args|
    ensures BindsFrom(parsed, i, args, used, hs, WhereFrom(clauses, parsed, i, args, used, hs).0)
    decreases |clauses| - i
  {
    if i < |clauses| {
      var r := WhereFrom(clauses, parsed, i, args, used, hs).0;
      match parsed[i]
      case None =>
        WhereFromBinds(clauses, parsed, i + 1, args, used, hs);
        BindsShift(parsed, i, args, used, hs, 0, hs, r);
      case Some(c) =>
        if Asks(c) {
          var next := hs + [c.(arg := args[used])];
          WhereFromBinds(clauses, parsed, i + 1, args, used + 1, next);
          assert Placed(c, |hs|, used, args, r) by {
            assert next <= r && next[|hs|] == r[|hs|];
          }
          BindsShift(parsed, i, args, used, hs, 1, next, r);
        } else {
          var next := hs + [c];
          WhereFromBinds(clauses, parsed, i + 1, args, used, next);
          assert Placed(c, |hs|, used, args, r) by {
            assert next <= r && next[|hs|] == r[|hs|];
          }
          BindsShift(parsed, i, args, used, hs, 0, next, r);
        }
    }
  }

  /** The placement from clause i + 1 on, after clause i added `next` and
      consumed `step` arguments, is the placement from clause i on. */
  lemma BindsShift(parsed: seq<Option<Handler>>, i: nat, args: seq<Bytes>, used: nat, hs: seq<Handler>,
                   step: nat, next: seq<Handler>, r: seq<Handler>)
    requires i < |parsed|
    requires step == if parsed[i].Some? && Asks(parsed[i].value) then 1 else 0
    requires |next| == |hs| + if parsed[i].Some? then 1 else 0
    requires BindsFrom(parsed, i + 1, args, used + step, next, r)
    requires parsed[i].Some? ==> Placed(parsed[i].value, |hs|, used, args, r)
    ensures BindsFrom(parsed, i, args, used, hs, r)
  {
    forall k | i < k < |parsed| && parsed[k].Some?
      ensures Placed(parsed[k].value, |hs| + CondsBetween(parsed, i, k), used + AskedBetween(parsed, i, k), args, r)
    {
      assert |hs| + CondsBetween(parsed, i, k) == |next| + CondsBetween(parsed, i + 1, k);
      assert used + AskedBetween(parsed, i, k) == used + step + AskedBetween(parsed, i + 1, k);
    }
  }

  /** Where binds its arguments to the "?" conditions in order: when it
      records no error, the condition of clause k follows the handlers
      already present and those of the earlier clauses, and a "?" value is
      replaced by the argument counted by the earlier clauses that asked. */
  lemma WhereBinds(a: Action, s: Bytes, args: seq<Bytes>)
    requires a.err.None?
    ensures var parsed := ParseAll(Split(s, AndSep));
            Where(a, s, args).err.None? ==> BindsFrom(parsed, 0, args, 0, a.handlers, Where(a, s, args).handlers)
  {
    var clauses := Split(s, AndSep);
    WhereCounts(a, s, args);
    if Where(a, s, args).err.None? {
      WhereFromBinds(clauses, ParseAll(clauses), 0, args, 0, a.handlers);
    }
  }

  /** The text of a condition as a caller writes it in a Where clause. */
  function Render(c: Handler): Bytes
    requires c.Cond?
  {
    c.key + c.op + c.arg
  }

  /** Text that cannot be mistaken for an operator: no '<', '>' or '=',
      no " like ", and no white space at either end. */
  predicate Plain(x: Bytes) {
    '<' !in x && '>' !in x && '=' !in x && !Contains(x, SpacedLike) && Trimmed(x)
  }

  /** A condition Where reads back from its own text. */
  predicate Writable(c: Handler) {
    c.Cond? && c.op in Ops && Plain(c.key) && Plain(c.arg) && c.arg != Placeholder && Separable(c.key, c.op)
  }

  /** An element absent from `s` rules out every pattern containing it. */
  lemma AbsentRulesOut(s: Bytes, pat: Bytes, x: byte)
    requires x in pat && x !in s
    ensures !Contains(s, pat)
  {
  }

  /** A match that cannot overlap the middle part lies in the first or the last part. */
  lemma MiddleSeparates(a: Bytes, m: Bytes, b: Bytes, pat: Bytes)
    requires |pat| > 0 && |m| > 0
    requires forall x :: x in m ==> x !in pat
    requires !Contains(a, pat) && !Contains(b, pat)
    ensures !Contains(a + m + b, pat)
  {
    var s := a + m + b;
    forall k | 0 <= k <= |s|
      ensures !MatchAt(s, pat, k)
    {
      if k + |pat| <= |s| {
        var w := s[k..k + |pat|];
        if k + |pat| <= |a| {
          assert w == a[k..k + |pat|];
          assert !MatchAt(a, pat, k);
        } else if k >= |a| + |m| {
          assert w == b[k - |a| - |m|..k - |a| - |m| + |pat|];
          assert !MatchAt(b, pat, k - |a| - |m|);
        } else if k < |a| {
          assert w[|a| - k] == m[0];
          assert m[0] in m;
        } else {
          assert w[0] == m[k - |a|];
          assert m[k - |a|] in m;
        }
      }
    }
  }

  /** With `c` only in the middle and no '=' after it, `c` followed by '='
      does not occur. */
  lemma NoFollowingEq(key: Bytes, c: byte, value: Bytes, pat: Bytes)
    requires c != '=' && c !in key && c !in value && '=' !in value
    requires |pat| == 2 && pat[0] == c && pat[1] == '='
    ensures !Contains(key + [c] + value, pat)
  {
    var s := key + [c] + value;
    forall k | 0 <= k <= |s|
      ensures !MatchAt(s, pat, k)
    {
      if k + 2 <= |s| {
        var w := s[k..k + 2];
        if k < |key| {
          assert w[0] == key[k];
        } else if k > |key| {
          assert w[0] == value[k - |key| - 1];
        } else {
          assert w[1] == value[0];
        }
      }
    }
  }

  /** " like " cannot occur around a symbolic operator. */
  lemma LikeAbsent(key: Bytes, op: Bytes, arg: Bytes)
    requires op in Ops[1..] && Plain(key) && Plain(arg)
    ensures !Contains(key + op + arg, SpacedLike)
  {
    MiddleSeparates(key, op, arg, SpacedLike);
  }

  /** A byte found in none of the three parts rules out any pattern holding it. */
  lemma PartsLack(key: Bytes, op: Bytes, arg: Bytes, pat: Bytes, x: byte)
    requires x in pat && x !in key && x !in op && x !in arg
    ensures !Contains(key + op + arg, pat)
  {
    AbsentRulesOut(key + op + arg, pat, x);
  }

  /** A lone comparison sign is not mistaken for the two-byte operator that
      starts with it. */
  lemma SignAlone(key: Bytes, x: byte, arg: Bytes, pat: Bytes)
    requires x != '=' && x !in key && x !in arg && '=' !in arg
    requires |pat| == 2 && pat[0] == x && pat[1] == '='
    ensures !Contains(key + [x] + arg, pat)
  {
    NoFollowingEq(key, x, arg, pat);
  }

  /** No operator listed before a writable condition's own occurs in its text. */
  lemma EarlierOpAbsent(c: Handler, j: nat, l: nat)
    requires Writable(c) && l < j < |Ops| && Ops[j] == c.op
    ensures !Contains(Render(c), Ops[l])
  {
    if l == 0 {
      assert c.op == Ops[1..][j - 1];
      LikeAbsent(c.key, c.op, c.arg);
    } else if l <= 2 && j >= 3 {
      PartsLack(c.key, c.op, c.arg, Ops[l], '>');
    } else if l >= 3 && j == 5 {
      PartsLack(c.key, c.op, c.arg, Ops[l], '<');
    } else if l == 1 {
      SignAlone(c.key, '>', c.arg, Ops[l]);
    } else {
      SignAlone(c.key, '<', c.arg, Ops[l]);
    }
  }

  /** In a writable condition's text the first operator of the list found
      is the condition's own, and it first occurs right after the key. */
  lemma OwnOpFirst(c: Handler) returns (j: nat)
    requires Writable(c)
    ensures j < |Ops| && Ops[j] == c.op
    ensures FirstOp(Render(c), 0) == Some(j)
    ensures IndexOf(Render(c), c.op) == Some(|c.key|)
  {
    var v := Render(c);
    j :| 0 <= j < |Ops| && Ops[j] == c.op;
    FirstMatchExtends(c.key, c.op, c.arg);
    forall l | 0 <= l < j
      ensures !Contains(v, Ops[l])
    {
      EarlierOpAbsent(c, j, l);
    }
    FirstOpIs(v, 0, j);
  }

  /** Cutting the text of key, operator and value around the operator gives
      back the key and the value. */
  lemma CutAround(key: Bytes, op: Bytes, arg: Bytes)
    ensures (key + op + arg)[..|key|] == key
    ensures (key + op + arg)[|key| + |op|..] == arg
  {
  }

  /** A writable condition's text parses back to the condition. */
  lemma ClauseRoundTrip(c: Handler)
    requires Writable(c)
    ensures ParseClause(Render(c)) == Some(c)
  {
    var j := OwnOpFirst(c);
    CutAround(c.key, c.op, c.arg);
    TrimSpaceKeepsTrimmed(c.key);
    TrimSpaceKeepsTrimmed(c.arg);
  }

  lemma {:induction false} FirstOpIs(v: Bytes, k: nat, j: nat)
    requires k <= j < |Ops| && Contains(v, Ops[j])
    requires forall l :: k <= l < j ==> !Contains(v, Ops[l])
    ensures FirstOp(v, k) == Some(j)
    decreases j - k
  {
    if k < j {
      FirstOpIs(v, k + 1, j);
    }
  }

  /** The clauses of a Where text written from conditions. */
  function RenderAll(cs: seq<Handler>): (r: seq<Bytes>)
    requires AllConds(cs)
    ensures |r| == |cs| && forall i :: 0 <= i < |cs| ==> r[i] == Render(cs[i])
  {
    seq(|cs|, i requires 0 <= i < |cs| => Render(cs[i]))
  }

  /** Clauses that each parse to the matching condition, with literal
      values, give exactly those conditions. */
  lemma {:induction false} WhereFromParsed(clauses: seq<Bytes>, parsed: seq<Option<Handler>>, cs: seq<Handler>, i: nat)
    requires i <= |cs| == |clauses| == |parsed|
    requires forall k :: i <= k < |cs| ==> parsed[k] == Some(cs[k]) && !Asks(cs[k])
    ensures WhereFrom(clauses, parsed, i, [], 0, cs[..i]) == (cs, None)
    decreases |cs| - i
  {
    if i == |cs| {
      assert cs[..i] == cs;
    } else {
      assert cs[..i] + [cs[i]] == cs[..i + 1];
      WhereFromParsed(clauses, parsed, cs, i + 1);
    }
  }

  /** Where reads back the conditions it is given as text: each written
      as key, operator and value, joined with " and ". */
  lemma WhereRoundTrip(cs: seq<Handler>)
    requires AllConds(cs) && forall k :: 0 <= k < |cs| ==> Writable(cs[k])
    requires SplitSafe(RenderAll(cs), AndSep)
    ensures Where(NewAction, Join(RenderAll(cs), AndSep), []) == Action(cs, None, None)
  {
    var clauses := RenderAll(cs);
    var parsed := ParseAll(clauses);
    SplitSafeJoin(clauses, AndSep);
    forall k | 0 <= k < |cs|
      ensures parsed[k] == Some(cs[k]) && !Asks(cs[k])
    {
      ClauseRoundTrip(cs[k]);
    }
    assert cs[..0] == [];
    WhereFromParsed(clauses, parsed, cs, 0);
  }

  /** The names a Cols call lists, each argument split at commas. */
  function ColNames(cols: seq<Bytes>): (r: set<Bytes>)
    ensures forall x :: x in r <==> exists i :: 0 <= i < |cols| && x in Split(cols[i], ",")
  {
    set i, x | 0 <= i < |cols| && x in Split(cols[i], ",") :: x
  }

  /** Action.Cols: adds a projection onto the listed names. */
  function Cols(a: Action, cols: seq<Bytes>): (r: Action)
    ensures r.handlers == a.handlers + [Project(ColNames(cols))] && r.limit == a.limit && r.err == a.err
  {
    a.(handlers := a.handlers + [Project(ColNames(cols))])
  }

  /** The projection keeps exactly the listed columns; listing none deletes
      every column. */
  lemma ColsKeepsListed(a: Action, cols: seq<Bytes>, row: Row)
    ensures var h := Cols(a, cols).handlers[|a.handlers|];
            Apply(h, row).0
            && forall k :: k in Apply(h, row).1 <==> k in row && exists i :: 0 <= i < |cols| && k in Split(cols[i], ",")
    ensures |cols| == 0 ==> Apply(Cols(a, cols).handlers[|a.handlers|], row).1 == map[]
  {
  }

  /** Action.Limit: records the paging for the next query. */
  function Limit(a: Action, size: int, offset: Option<int>): (r: Action)
    ensures r.limit == Some(Paging(size, offset)) && r.handlers == a.handlers && r.err == a.err
  {
    a.(limit := Some(Paging(size, offset)))
  }

  /** The twelve header lines withData reads: the first twelve lines, with
      empty lines standing in for those a short file lacks. */
  function HeaderLines(lines: seq<Bytes>): (r: seq<Bytes>)
    ensures |r| == HeaderSize
    ensures forall i :: 0 <= i < HeaderSize ==> r[i] == if i < |lines| then lines[i] else []
  {
    seq(HeaderSize, i requires 0 <= i < HeaderSize => if i < |lines| then lines[i] else [])
  }

  /** The data lines: everything after the header. */
  function DataLines(lines: seq<Bytes>): seq<Bytes> {
    if |lines| <= HeaderSize then [] else lines[HeaderSize..]
  }

  /** Paging skips the data line at index `i`: it lies before the offset. */
  predicate Skipped(limit: Option<Paging>, i: nat) {
    limit.Some? && limit.value.offset.Some? && i < limit.value.offset.value
  }

  /** How many records a page holds: the size Limit was given, at least one. */
  function PageSize(p: Paging): nat {
    if p.size < 1 then 1 else p.size
  }

  /** The first page of `s`: all of it without a limit. */
  function PageOf<V>(limit: Option<Paging>, s: seq<V>): (r: seq<V>)
    ensures r <= s
    ensures limit.None? ==> r == s
    ensures limit.Some? ==> |r| == if |s| < PageSize(limit.value) then |s| else PageSize(limit.value)
  {
    match limit
    case None => s
    case Some(p) => if |s| < PageSize(p) then s else s[..PageSize(p)]
  }

  /** A record as find and Update hand it on: column name to value. */
  type Record = map<Bytes, Bytes>

  /** The record find keeps for a data line: the values of the row the
      handlers leave, when they select it. */
  function Hit(t: Table, hs: seq<Handler>, split: Bytes, line: Bytes): (r: Option<Record>)
    requires |split| > 0
  {
    var run := RunAll(hs, 0, DecodeData2(t, line, split));
    if run.0 then Some(Values(run.1)) else None
  }

  /** The record of every data line, if the handlers select it. */
  function Hits(t: Table, hs: seq<Handler>, split: Bytes, data: seq<Bytes>): (r: seq<Option<Record>>)
    requires |split| > 0
    ensures |r| == |data| && forall i :: 0 <= i < |data| ==> r[i] == Hit(t, hs, split, data[i])
  {
    seq(|data|, i requires 0 <= i < |data| => Hit(t, hs, split, data[i]))
  }

  /** Reference meaning of a query: the records of the selected lines that
      paging does not skip, in file order. */
  function Selected<V>(limit: Option<Paging>, hits: seq<Option<V>>): (r: seq<V>)
    ensures |r| <= |hits|
    decreases |hits|
  {
    if |hits| == 0 then []
    else
      var i := |hits| - 1;
      Selected(limit, hits[..i]) + if hits[i].Some? && !Skipped(limit, i) then [hits[i].value] else []
  }

  /** The records of a prefix of the lines start the records of all of them. */
  lemma {:induction false} SelectedPrefix<V>(limit: Option<Paging>, hits: seq<Option<V>>, n: nat)
    requires n <= |hits|
    ensures Selected(limit, hits[..n]) <= Selected(limit, hits)
    decreases |hits|
  {
    if n < |hits| {
      var i := |hits| - 1;
      assert hits[..i][..n] == hits[..n];
      SelectedPrefix(limit, hits[..i], n);
    } else {
      assert hits[..n] == hits;
    }
  }

  /** One more line adds its record, if any, at the end. */
  lemma SelectedStep<V>(limit: Option<Paging>, hits: seq<Option<V>>, i: nat)
    requires i < |hits|
    ensures Selected(limit, hits[..i + 1])
              == Selected(limit, hits[..i]) + if hits[i].Some? && !Skipped(limit, i) then [hits[i].value] else []
  {
    assert hits[..i + 1][..i] == hits[..i];
    assert hits[..i + 1][i] == hits[i];
  }

  /** The scan of find from line `i` on, `acc` collected so far: each
      selected record not before the offset is collected, and the scan ends
      once `size` records are collected. */
  function Collect<V>(limit: Option<Paging>, hits: seq<Option<V>>, i: nat, acc: seq<V>): seq<V>
    requires i <= |hits|
    decreases |hits| - i
  {
    if i == |hits| then acc
    else match hits[i]
      case None => Collect(limit, hits, i + 1, acc)
      case Some(v) =>
        match limit
        case None => Collect(limit, hits, i + 1, acc + [v])
        case Some(p) =>
          if p.offset.Some? && i < p.offset.value then Collect(limit, hits, i + 1, acc)
          else if |acc| + 1 >= p.size then acc + [v]
          else Collect(limit, hits, i + 1, acc + [v])
  }

  lemma {:induction false} CollectPages<V>(limit: Option<Paging>, hits: seq<Option<V>>, i: nat, acc: seq<V>)
    requires i <= |hits|
    requires acc == Selected(limit, hits[..i])
    requires limit.Some? ==> |acc| < PageSize(limit.value)
    ensures Collect(limit, hits, i, acc) == PageOf(limit, Selected(limit, hits))
    decreases |hits| - i
  {
    if i == |hits| {
      assert hits[..i] == hits;
    } else {
      SelectedStep(limit, hits, i);
      match hits[i]
      case None =>
        CollectPages(limit, hits, i + 1, acc);
      case Some(v) =>
        if limit.None? {
          CollectPages(limit, hits, i + 1, acc + [v]);
        } else if Skipped(limit, i) {
          CollectPages(limit, hits, i + 1, acc);
        } else if |acc| + 1 >= limit.value.size {
          var next := Selected(limit, hits[..i + 1]);
          var all := Selected(limit, hits);
          SelectedPrefix(limit, hits, i + 1);
          assert next == acc + [v] && |next| == PageSize(limit.value);
          assert all[..|next|] == next;
        } else {
          CollectPages(limit, hits, i + 1, acc + [v]);
        }
    }
  }

  /** The header of a table file as withData decodes it. */
  function ReadTable(content: Bytes, split: Bytes): Result<Table>
    requires |split| > 0
  {
    DecodeTable(HeaderLines(Curd.Stripped(content)), split)
  }

  /** The records of the data lines of a table file, as find reads them. */
  function FileHits(t: Table, hs: seq<Handler>, split: Bytes, content: Bytes): (r: seq<Option<Record>>)
    requires |split| > 0
    ensures |r| == |DataLines(Curd.Stripped(content))|
  {
    Hits(t, hs, split, DataLines(Curd.Stripped(content)))
  }

  /** Action.find on the contents of the table file, or None when the
      file does not exist: the header must decode, then every data line is
      read through the default line scanner, with one trailing '\r'
      dropped, and not unescaped. */
  function Find(a: Action, file: Option<Bytes>, split: Bytes): (r: Result<seq<Record>>)
    requires |split| > 0
    ensures a.err.Some? ==> r == Err(a.err.value)
    ensures a.err.None? && file.None? ==> r == Err(TableNotFound)
    ensures a.err.None? && file.Some? && ReadTable(file.value, split).Err? ==>
              r == Err(ReadTable(file.value, split).error)
  {
    if a.err.Some? then Err(a.err.value)
    else if file.None? then Err(TableNotFound)
    else
      match ReadTable(file.value, split)
      case Err(e) => Err(e)
      case Ok(t) => Ok(Collect(a.limit, FileHits(t, a.handlers, split, file.value), 0, []))
  }

  /** Find returns the first page of the selected records: all of them
      without a limit, otherwise the first `size` (at least one) of those at
      or past the offset, the offset counting raw data lines. */
  lemma FindPages(a: Action, content: Bytes, split: Bytes)
    requires |split| > 0 && a.err.None? && ReadTable(content, split).Ok?
    ensures var hits := FileHits(ReadTable(content, split).value, a.handlers, split, content);
            Find(a, Some(content), split) == Ok(PageOf(a.limit, Selected(a.limit, hits)))
  {
    var hits := FileHits(ReadTable(content, split).value, a.handlers, split, content);
    assert hits[..0] == [];
    CollectPages(a.limit, hits, 0, []);
  }

  /** Action.count: the number of data lines, whatever the conditions and
      the paging. */
  function Count(a: Action, file: Option<Bytes>, split: Bytes): (r: Result<nat>)
    requires |split| > 0
    ensures a.err.Some? ==> r == Err(a.err.value)
    ensures a.err.None? && file.None? ==> r == Err(TableNotFound)
    ensures r.Ok? ==> file.Some? && r.value == |DataLines(Curd.Stripped(file.value))|
  {
    if a.err.Some? then Err(a.err.value)
    else if file.None? then Err(TableNotFound)
    else
      match ReadTable(file.value, split)
      case Err(e) => Err(e)
      case Ok(_) => Ok(|DataLines(Curd.Stripped(file.value))|)
  }

  /** Count fails exactly when Find does, with the same error, and never
      counts fewer lines than Find returns; conditions and paging do not
      change it. */
  lemma CountBoundsFind(a: Action, b: Action, file: Option<Bytes>, split: Bytes)
    requires |split| > 0 && b.err == a.err
    ensures Count(a, file, split).Err? <==> Find(a, file, split).Err?
    ensures Count(a, file, split).Err? ==> Count(a, file, split).error == Find(a, file, split).error
    ensures Count(a, file, split).Ok? ==> |Find(a, file, split).value| <= Count(a, file, split).value
    ensures Count(b, file, split) == Count(a, file, split)
  {
    if a.err.None? && file.Some? && ReadTable(file.value, split).Ok? {
      FindPages(a, file.value, split);
    }
  }

  /** Action.FindAndCount: count first, then find. */
  function FindAndCount(a: Action, file: Option<Bytes>, split: Bytes): (r: Result<(nat, seq<Record>)>)
    requires |split| > 0
    ensures r.Ok? <==> Count(a, file, split).Ok?
    ensures r.Ok? ==> r.value == (Count(a, file, split).value, Find(a, file, split).value)
                      && |r.value.1| <= r.value.0
    ensures r.Err? ==> r.error == Count(a, file, split).error
  {
    CountBoundsFind(a, a, file, split);
    match Count(a, file, split)
    case Err(e) => Err(e)
    case Ok(n) =>
      match Find(a, file, split)
      case Err(e) => Err(e)
      case Ok(rs) => Ok((n, rs))
  }

  /** Action.Get as written: after the table check it sets a limit of one
      record and reports whether the collected results, still empty, hold
      anything, so it reports false without reading the file. */
  function Get(a: Action): (r: (Result<bool>, Action))
    ensures r.0 != Ok(true)
    ensures r.0.Err? <==> a.err.Some?
    ensures a.err.None? ==> r.1 == Limit(a, 1, None)
  {
    if a.err.Some? then (Err(a.err.value), a) else (Ok(false), Limit(a, 1, None))
  }

  /** Action.Get as evidently intended: find with a limit of one record,
      and report whether there was one. */
  function GetCorrected(a: Action, file: Option<Bytes>, split: Bytes): (r: Result<bool>)
    requires |split| > 0
  {
    match Find(Limit(a, 1, None), file, split)
    case Err(e) => Err(e)
    case Ok(rs) => Ok(|rs| > 0)
  }

  /** The corrected Get reports a record exactly when the conditions select
      some data line, and fails exactly as Find does. */
  lemma GetCorrectedFinds(a: Action, content: Bytes, split: Bytes)
    requires |split| > 0 && a.err.None?
    ensures ReadTable(content, split).Err? ==> GetCorrected(a, Some(content), split) == Err(ReadTable(content, split).error)
    ensures ReadTable(content, split).Ok? ==>
              var hits := FileHits(ReadTable(content, split).value, a.handlers, split, content);
              GetCorrected(a, Some(content), split) == Ok(|Selected(None, hits)| > 0)
  {
    if ReadTable(content, split).Ok? {
      var hits := FileHits(ReadTable(content, split).value, a.handlers, split, content);
      var b := Limit(a, 1, None);
      FindPages(b, content, split);
      SelectedNoOffset(b.limit, hits);
    }
  }

  /** Paging without an offset skips nothing. */
  lemma {:induction false} SelectedNoOffset<V>(limit: Option<Paging>, hits: seq<Option<V>>)
    requires limit.None? || limit.value.offset.None?
    ensures Selected(limit, hits) == Selected(None, hits)
    decreases |hits|
  {
    if |hits| > 0 {
      SelectedNoOffset(limit, hits[..|hits| - 1]);
    }
  }

  /** Whenever the intended Get would report a record, the written one
      reports none. */
  lemma GetMissesRecords(a: Action, file: Option<Bytes>, split: Bytes)
    requires |split| > 0
    requires GetCorrected(a, file, split) == Ok(true)
    ensures Get(a).0 == Ok(false)
  {
  }

  /** The open hook setTable installs: Scanner.LimitBytes(12) hands it the
      first twelve lines (all, when fewer), which must decode as a header;
      they are kept as the header and the scan goes on after them. */
  function HeaderHook(split: Bytes): LineFile.Hook
    requires |split| > 0
  {
    (lines: seq<Bytes>) =>
      var n := if |lines| < HeaderSize then |lines| else HeaderSize;
      match DecodeTable(lines[..n], split)
      case Err(e) => Err(e)
      case Ok(_) => Ok(LineFile.Opened(lines[..n], lines[n..]))
  }

  /** The table the hook decodes from the raw lines of a file. */
  function HookTable(content: Bytes, split: Bytes): Result<Table>
    requires |split| > 0
  {
    var lines := LineFile.LinesOf(content);
    DecodeTable(lines[..if |lines| < HeaderSize then |lines| else HeaderSize], split)
  }

  /** The hook accepts a file exactly when its first twelve raw lines decode
      as a header, and hands on the lines after them. */
  lemma HeaderHookOpens(content: Bytes, split: Bytes)
    requires |split| > 0
    ensures var lines := LineFile.LinesOf(content);
            var o := LineFile.Open(Some(HeaderHook(split)), lines);
            && (o.Ok? <==> HookTable(content, split).Ok?)
            && (o.Err? ==> o.error == HookTable(content, split).error)
            && (o.Ok? ==> |lines| >= HeaderSize && o.value == LineFile.Opened(lines[..HeaderSize], lines[HeaderSize..]))
  {
  }

  /** The record Update writes for a selected line: the line's values before
      the handlers ran, with the patch applied to every column the handlers
      left in the row, except the key column. */
  function Patched(before: Record, kept: Row, patch: Record, id: Bytes): (m: Record)
    ensures m.Keys == before.Keys + (patch.Keys * kept.Keys - {id})
    ensures id in before ==> m[id] == before[id]
    ensures forall k :: k in patch && k in kept && k != id ==> m[k] == patch[k]
    ensures forall k :: k in before && !(k in patch && k in kept) ==> m[k] == before[k]
  {
    map k | k in before.Keys + (patch.Keys * kept.Keys - {id}) ::
      if k in patch && k in kept && k != id then patch[k] else before[k]
  }

  /** What Update writes in place of a line the handlers select, or None
      for a line they reject. */
  function Change(t: Table, hs: seq<Handler>, patch: Record, id: Bytes, split: Bytes, u: Bytes): (r: Option<Bytes>)
    requires |split| > 0 && Positional(t.fields)
    ensures r.Some? <==> Hit(t, hs, split, u).Some?
  {
    var row := DecodeData2(t, u, split);
    var run := RunAll(hs, 0, row);
    if run.0 then Some(EncodeData(t, Patched(Values(row), run.1, patch, id), split)) else None
  }

  /** Reading back the line Update writes for a selected line: every column
      of the old row is still there; those the patch names and the handlers
      left, other than the key, hold the patch's value; the others hold their
      old value. */
  lemma ChangeReadsBack(t: Table, hs: seq<Handler>, patch: Record, id: Bytes, split: Bytes, u: Bytes)
    requires |split| > 0 && Positional(t.fields) && |t.fields| >= 1
    requires Hit(t, hs, split, u).Some?
    requires var row := DecodeData2(t, u, split);
             SplitSafe(Slots(t.fields, Patched(Values(row), RunAll(hs, 0, row).1, patch, id)), split)
    ensures var row := DecodeData2(t, u, split);
            var kept := RunAll(hs, 0, row).1;
            var back := DecodeData2(t, Change(t, hs, patch, id, split, u).value, split);
            && row.Keys <= back.Keys
            && (forall k :: k in back && k in patch && k in kept && k != id ==> back[k].value == patch[k])
            && (forall k :: k in back && k in row && !(k in patch && k in kept && k != id) ==> back[k].value == row[k].value)
  {
    var row := DecodeData2(t, u, split);
    var kept := RunAll(hs, 0, row).1;
    var m := Patched(Values(row), kept, patch, id);
    assert Change(t, hs, patch, id, split, u) == Some(EncodeData(t, m, split));
    var back := DecodeData2(t, EncodeData(t, m, split), split);
    EncodeThenDecode(t, m, split);
    DecodedKeysNamed(t, u, split);
    RunAllRestricts(hs, 0, row);
    assert row.Keys <= back.Keys;
    forall k | k in back && k in patch && k in kept && k != id
      ensures back[k].value == patch[k]
    {
      assert k in m;
    }
    forall k | k in back && k in row && !(k in patch && k in kept && k != id)
      ensures back[k].value == row[k].value
    {
      assert k in m && m[k] == row[k].value;
    }
  }

  /** Change as a function of the line alone. */
  function Changer(t: Table, hs: seq<Handler>, patch: Record, id: Bytes, split: Bytes): Bytes -> Option<Bytes>
    requires |split| > 0 && Positional(t.fields)
  {
    (u: Bytes) => Change(t, hs, patch, id, split, u)
  }

  /** Whether a selected line is rewritten, from the paging, the line's index
      and the number of earlier selected lines at or past the offset. */
  type Gate = (Option<Paging>, nat, nat) -> bool

  /** The decision Update makes as written: it asks the limit handler of
      Limit, which collects the row and answers whether the page is now
      full, and rewrites the line when the answer is no. A line before the
      offset is therefore rewritten, and of the lines past it only the
      first size - 1 are. */
  function AsWrittenGate(limit: Option<Paging>, i: nat, seen: nat): bool {
    limit.None? || Skipped(limit, i) || seen + 1 < limit.value.size
  }

  /** The decision Update evidently intends: rewrite exactly the lines
      whose records make up the first page of the selected records. */
  function IntendedGate(limit: Option<Paging>, i: nat, seen: nat): bool {
    limit.None? || (!Skipped(limit, i) && seen < PageSize(limit.value))
  }

  /** The callback Update hands to File.Update, given what it writes for a
      selected line. Its state counts the selected lines at or past the
      offset seen so far. */
  function UpdateStep(limit: Option<Paging>, gate: Gate, change: Bytes -> Option<Bytes>)
    : (nat, nat, Bytes) -> Result<(nat, seq<Bytes>)>
  {
    (seen: nat, i: nat, u: Bytes) =>
      var c := change(u);
      if c.None? then Ok((seen, [u]))
      else
        var seen': nat := if Skipped(limit, i) then seen else seen + 1;
        if gate(limit, i, seen) then Ok((seen', [c.value])) else Ok((seen', [u]))
  }

  /** Reference meaning of one line of Update: its replacement when the
      handlers select it and the gate admits it, given the records selected
      before it; the unescaped line otherwise. */
  function Outcome(limit: Option<Paging>, gate: Gate, change: Bytes -> Option<Bytes>, hits: seq<Option<Record>>,
                   us: seq<Bytes>, i: nat): Bytes
    requires i < |us| == |hits|
  {
    var c := change(us[i]);
    if c.Some? && gate(limit, i, |Selected(limit, hits[..i])|) then c.value else us[i]
  }

  /** The unescaped lines the callback is shown. */
  function Unescaped(rest: seq<Bytes>): (us: seq<Bytes>)
    ensures |us| == |rest| && forall i :: 0 <= i < |rest| ==> us[i] == LineFile.Unescape(rest[i])
  {
    seq(|rest|, i requires 0 <= i < |rest| => LineFile.Unescape(rest[i]))
  }

  /** The outcomes of the lines from `i` on. */
  function Outcomes(limit: Option<Paging>, gate: Gate, change: Bytes -> Option<Bytes>, hits: seq<Option<Record>>,
                    us: seq<Bytes>, i: nat): (r: seq<Bytes>)
    requires i <= |us| == |hits|
    ensures |r| == |us| - i
    ensures forall k :: 0 <= k < |r| ==> r[k] == Outcome(limit, gate, change, hits, us, i + k)
    decreases |us| - i
  {
    if i == |us| then [] else [Outcome(limit, gate, change, hits, us, i)] + Outcomes(limit, gate, change, hits, us, i + 1)
  }

  /** The rewrite of the lines after the header produces, line by line,
      the reference outcome. */
  lemma {:induction false} UpdateRewrites(limit: Option<Paging>, gate: Gate, change: Bytes -> Option<Bytes>,
                                          hits: seq<Option<Record>>, rest: seq<Bytes>, i: nat, seen: nat)
    requires i <= |rest| == |hits|
    requires forall k :: 0 <= k < |rest| ==> (change(LineFile.Unescape(rest[k])).Some? <==> hits[k].Some?)
    requires seen == |Selected(limit, hits[..i])|
    ensures LineFile.Rewrite<nat>(rest, i, seen, UpdateStep(limit, gate, change))
              == Ok(Outcomes(limit, gate, change, hits, Unescaped(rest), i))
    decreases |rest| - i
  {
    if i < |rest| {
      var us := Unescaped(rest);
      SelectedStep(limit, hits, i);
      var next := |Selected(limit, hits[..i + 1])|;
      var o := Outcome(limit, gate, change, hits, us, i);
      assert UpdateStep(limit, gate, change)(seen, i, us[i]) == Ok((next, [o]));
      UpdateRewrites(limit, gate, change, hits, rest, i + 1, next);
    }
  }

  /** Action.Update with the given decision: the table check, the guard
      against an Update with neither condition nor limit, then the rewrite.
      The error File.Update returns is dropped: Update reports success
      whether or not the file was rewritten. */
  function UpdateWith(a: Action, content: Bytes, patch: Record, id: Bytes, split: Bytes, gate: Gate)
    : (r: (Result<()>, Bytes))
    requires |split| > 0
    ensures a.err.Some? ==> r == (Err(a.err.value), content)
    ensures a.err.None? && |a.handlers| == 0 && a.limit.None? ==> r == (Err(UpdateWithoutCondition), content)
    ensures a.err.None? && (|a.handlers| > 0 || a.limit.Some?) ==> r.0 == Ok(())
    ensures HookTable(content, split).Err? ==> r.1 == content
  {
    if a.err.Some? then (Err(a.err.value), content)
    else if |a.handlers| == 0 && a.limit.None? then (Err(UpdateWithoutCondition), content)
    else
      match HookTable(content, split)
      case Err(_) => (Ok(()), content)
      case Ok(t) =>
        var step := UpdateStep(a.limit, gate, Changer(t, a.handlers, patch, id, split));
        (Ok(()), LineFile.Commit(content, LineFile.Update(content, Some(HeaderHook(split)), 0, step)))
  }

  /** Action.Update as written. */
  function UpdateAsWritten(a: Action, content: Bytes, patch: Record, id: Bytes, split: Bytes): (Result<()>, Bytes)
    requires |split| > 0
  {
    UpdateWith(a, content, patch, id, split, AsWrittenGate)
  }

  /** Action.Update as evidently intended: with a limit, the lines rewritten
      are exactly those whose records make up the first page of the selected
      records. On a file of plain lines that page is the one Find returns
      (UpdateMatchesFind). */
  function Update(a: Action, content: Bytes, patch: Record, id: Bytes, split: Bytes): (Result<()>, Bytes)
    requires |split| > 0
  {
    UpdateWith(a, content, patch, id, split, IntendedGate)
  }

  /** The lines of the file after Update: the header as it was, then each
      data line either rewritten (escaped) or left byte for byte. */
  lemma UpdateLines(a: Action, content: Bytes, patch: Record, id: Bytes, split: Bytes, gate: Gate)
    requires |split| > 0 && a.err.None? && (|a.handlers| > 0 || a.limit.Some?)
    requires HookTable(content, split).Ok?
    ensures var lines := LineFile.LinesOf(content);
            var t := HookTable(content, split).value;
            var rest := lines[HeaderSize..];
            var us := Unescaped(rest);
            var change := Changer(t, a.handlers, patch, id, split);
            var hits := Hits(t, a.handlers, split, us);
            |lines| >= HeaderSize
            && LineFile.LinesOf(UpdateWith(a, content, patch, id, split, gate).1)
                 == lines[..HeaderSize] + LineFile.EscapeAll(Outcomes(a.limit, gate, change, hits, us, 0))
  {
    var lines := LineFile.LinesOf(content);
    var t := HookTable(content, split).value;
    HeaderHookOpens(content, split);
    var rest := lines[HeaderSize..];
    var us := Unescaped(rest);
    var change := Changer(t, a.handlers, patch, id, split);
    var hits := Hits(t, a.handlers, split, us);
    ChangerMarksHits(t, a.handlers, patch, id, split, rest);
    assert hits[..0] == [];
    UpdateRewrites(a.limit, gate, change, hits, rest, 0, 0);
    LineFile.UpdateHeader(content, HeaderHook(split), 0, UpdateStep(a.limit, gate, change),
                          HeaderSize, Outcomes(a.limit, gate, change, hits, us, 0));
    UpdateWithCommits(a, content, patch, id, split, gate);
  }

  /** Each data line Update writes (see UpdateLines): a line the gate does
      not let through, selected or not, is written back byte for byte; a
      selected line it admits becomes the escaped re-encoding of its
      patched record. */
  lemma UpdatedLine(limit: Option<Paging>, gate: Gate, change: Bytes -> Option<Bytes>, hits: seq<Option<Record>>,
                    rest: seq<Bytes>, k: nat)
    requires |rest| == |hits| && k < |rest| && '\n' !in rest[k]
    ensures var out := LineFile.EscapeAll(Outcomes(limit, gate, change, hits, Unescaped(rest), 0));
            var c := change(LineFile.Unescape(rest[k]));
            && |out| == |rest|
            && (c.Some? && gate(limit, k, |Selected(limit, hits[..k])|) ==> out[k] == LineFile.Escape(c.value))
            && (!(c.Some? && gate(limit, k, |Selected(limit, hits[..k])|)) ==> out[k] == rest[k])
  {
    var us := Unescaped(rest);
    var o := Outcomes(limit, gate, change, hits, us, 0);
    assert o[k] == Outcome(limit, gate, change, hits, us, k);
    LineFile.EscapeUnescape(rest[k]);
  }

  lemma UpdateWithCommits(a: Action, content: Bytes, patch: Record, id: Bytes, split: Bytes, gate: Gate)
    requires |split| > 0 && a.err.None? && (|a.handlers| > 0 || a.limit.Some?)
    requires HookTable(content, split).Ok?
    ensures var step := UpdateStep(a.limit, gate, Changer(HookTable(content, split).value, a.handlers, patch, id, split));
            UpdateWith(a, content, patch, id, split, gate).1
              == LineFile.Commit(content, LineFile.Update(content, Some(HeaderHook(split)), 0, step))
  {
  }

  /** A line is changed exactly when the row of Update's reading of it
      (raw, then unescaped) is selected. */
  lemma ChangerMarksHits(t: Table, hs: seq<Handler>, patch: Record, id: Bytes, split: Bytes, rest: seq<Bytes>)
    requires |split| > 0 && Positional(t.fields)
    ensures var hits := Hits(t, hs, split, Unescaped(rest));
            forall k :: 0 <= k < |rest| ==>
              (Changer(t, hs, patch, id, split)(LineFile.Unescape(rest[k])).Some? <==> hits[k].Some?)
  {
  }

  /** A selected line past the offset is rewritten by the intended Update
      exactly when its record is on the first page of the selected records,
      at the position of its rank among them. */
  lemma IntendedGatePages(limit: Option<Paging>, hits: seq<Option<Record>>, i: nat)
    requires i < |hits| && hits[i].Some? && !Skipped(limit, i)
    ensures var rank := |Selected(limit, hits[..i])|;
            var page := PageOf(limit, Selected(limit, hits));
            (IntendedGate(limit, i, rank) <==> rank < |page|)
            && (rank < |page| ==> page[rank] == hits[i].value)
  {
    SelectedStep(limit, hits, i);
    SelectedPrefix(limit, hits, i + 1);
    var all := Selected(limit, hits);
    var next := Selected(limit, hits[..i + 1]);
    assert all[|next| - 1] == next[|next| - 1];
  }

  /** The intended Update leaves every line before the offset alone. */
  lemma IntendedGateSkips(limit: Option<Paging>, i: nat, seen: nat)
    requires Skipped(limit, i)
    ensures !IntendedGate(limit, i, seen)
  {
  }

  /** As written, the last record of a page is never rewritten: with
      Limit(size) and size >= 1, the selected line whose rank is size - 1 is
      on the first page of the selected records but Update leaves it; a line before the
      offset is rewritten although it is on no page. With Limit(1) no line
      past the offset is rewritten at all. */
  lemma AsWrittenGateMisses(limit: Option<Paging>, i: nat, seen: nat)
    requires limit.Some?
    ensures !Skipped(limit, i) && seen + 1 == limit.value.size ==> !AsWrittenGate(limit, i, seen) && IntendedGate(limit, i, seen)
    ensures Skipped(limit, i) ==> AsWrittenGate(limit, i, seen) && !IntendedGate(limit, i, seen)
    ensures !Skipped(limit, i) && limit.value.size <= 1 ==> !AsWrittenGate(limit, i, seen)
  {
  }

  /** Line `i` of `out` is the escaped `c` when `rewrite` holds (and `c` is
      then present), and `line` byte for byte otherwise. */
  predicate Rewritten(out: seq<Bytes>, i: nat, rewrite: bool, c: Option<Bytes>, line: Bytes) {
    && i < |out|
    && (rewrite ==> c.Some? && out[i] == LineFile.Escape(c.value))
    && (!rewrite ==> out[i] == line)
  }

  /** A line that find and Update read alike: it has no trailing carriage
      return, which the default line scanner of find drops, and no escaped
      newline, which Update's scanner unescapes. */
  predicate PlainLine(l: Bytes) {
    !(|l| > 0 && l[|l| - 1] == '\r') && !Contains(l, LineFile.EscapedNL)
  }

  /** Every line of the file is plain. */
  predicate PlainFile(content: Bytes) {
    forall i :: 0 <= i < |LineFile.LinesOf(content)| ==> PlainLine(LineFile.LinesOf(content)[i])
  }

  /** Why plain lines are needed: a data line "x\r" under the condition
      `a = x`. Find drops the carriage return and selects the line, while
      Update sees "x\r" and does not. */
  lemma CarriageReturnSplitsReaders()
    ensures var t := Table([Field(0, "a", StringType, [], [], 0)]);
            var hs := [Cond("a", Eq, "x")];
            && !PlainLine("x\r")
            && Hit(t, hs, ",", LineFile.DropCR("x\r")).Some?
            && Hit(t, hs, ",", LineFile.Unescape("x\r")).None?
  {
    var raw: Bytes := "x\r";
    var x: Bytes := "x";
    assert LineFile.DropCR(raw) == x;
    assert !Contains(raw, LineFile.EscapedNL) by {
      assert forall k :: 0 <= k <= |raw| ==> !MatchAt(raw, LineFile.EscapedNL, k);
    }
    assert LineFile.Unescape(raw) == raw;
    OneColumnHit(x, x);
    OneColumnHit(raw, x);
  }

  /** A line without a comma, read under the one-column table of
      CarriageReturnSplitsReaders and the condition `a = arg`, is selected
      exactly when it equals `arg`. */
  lemma OneColumnHit(line: Bytes, arg: Bytes)
    requires ',' !in line
    ensures Hit(Table([Field(0, "a", StringType, [], [], 0)]), [Cond("a", Eq, arg)], ",", line).Some? <==> line == arg
  {
    var t := Table([Field(0, "a", StringType, [], [], 0)]);
    var comma: Bytes := ",";
    var row := DecodeData2(t, line, comma);
    ContainsSingle<byte>(line, ',');
    var cells := Split(line, comma);
    assert cells == [line];
    DecodeData2Columns(t, line, comma);
    assert Min(|cells|, |t.fields|) == 1;
    assert LastNamedWithin(t.fields, Min(|cells|, |t.fields|), 0);
    assert "a" in row && row["a"] == t.fields[0].(value := line);
    TextColumnsCompareLex(row["a"], arg);
    assert RunAll([Cond("a", Eq, arg)], 1, row) == (true, row);
  }

  /** On a file of plain lines, find and Update read the same lines. */
  lemma PlainLinesAgree(content: Bytes)
    requires PlainFile(content)
    ensures Curd.Stripped(content) == LineFile.LinesOf(content)
    ensures var lines := LineFile.LinesOf(content);
            |lines| >= HeaderSize ==> Unescaped(lines[HeaderSize..]) == lines[HeaderSize..]
  {
    var lines := LineFile.LinesOf(content);
    forall i | 0 <= i < |lines|
      ensures Curd.Stripped(content)[i] == lines[i]
    {
      assert PlainLine(lines[i]);
    }
    if |lines| >= HeaderSize {
      var rest := lines[HeaderSize..];
      forall i | 0 <= i < |rest|
        ensures Unescaped(rest)[i] == rest[i]
      {
        assert PlainLine(lines[HeaderSize + i]);
      }
    }
  }

  /** On a file of plain lines, find and Update's header hook accept the same
      files, decode the same table from them, and see the same records. */
  lemma PlainReadsAgree(hs: seq<Handler>, content: Bytes, split: Bytes)
    requires |split| > 0 && PlainFile(content)
    ensures ReadTable(content, split).Ok? <==> HookTable(content, split).Ok?
    ensures HookTable(content, split).Ok? ==>
              var lines := LineFile.LinesOf(content);
              var t := HookTable(content, split).value;
              && ReadTable(content, split) == HookTable(content, split)
              && |lines| >= HeaderSize
              && FileHits(t, hs, split, content) == Hits(t, hs, split, Unescaped(lines[HeaderSize..]))
  {
    var lines := LineFile.LinesOf(content);
    PlainLinesAgree(content);
    var head := HeaderLines(lines);
    if |lines| < HeaderSize {
      assert head[11] == [] != EndMark;
    } else {
      assert head == lines[..HeaderSize];
      assert DataLines(lines) == lines[HeaderSize..];
    }
  }

  /** On a file of plain lines, the intended Update rewrites exactly the data
      lines whose records are on the page Find returns: such a line becomes
      the escaped re-encoding of its patched record, at the place of its
      record on the page, and every other data line is written back byte for
      byte. */
  lemma UpdateMatchesFind(a: Action, content: Bytes, patch: Record, id: Bytes, split: Bytes, k: nat)
    requires |split| > 0 && a.err.None? && (|a.handlers| > 0 || a.limit.Some?)
    requires PlainFile(content) && ReadTable(content, split).Ok?
    requires HeaderSize + k < |LineFile.LinesOf(content)|
    ensures Find(a, Some(content), split).Ok?
    ensures var lines := LineFile.LinesOf(content);
            var t := ReadTable(content, split).value;
            var hits := FileHits(t, a.handlers, split, content);
            var page := Find(a, Some(content), split).value;
            var out := LineFile.LinesOf(Update(a, content, patch, id, split).1);
            var line := lines[HeaderSize + k];
            var rank := |Selected(a.limit, hits[..k])|;
            var onPage := hits[k].Some? && !Skipped(a.limit, k) && rank < |page|;
            && |out| == |lines| && out[..HeaderSize] == lines[..HeaderSize]
            && (onPage ==> page[rank] == hits[k].value)
            && Rewritten(out, HeaderSize + k, onPage, Change(t, a.handlers, patch, id, split, line), line)
  {
    var t := ReadTable(content, split).value;
    var hits := FileHits(t, a.handlers, split, content);
    UpdatePlainLineAt(a, content, patch, id, split, k);
    FindPages(a, content, split);
    IntendedGateIsPage(a.limit, hits, k);
  }

  /** UpdateLineAt on a file of plain lines, in find's terms: the table find
      reads, the records find reads and the raw line. */
  lemma UpdatePlainLineAt(a: Action, content: Bytes, patch: Record, id: Bytes, split: Bytes, k: nat)
    requires |split| > 0 && a.err.None? && (|a.handlers| > 0 || a.limit.Some?)
    requires PlainFile(content) && ReadTable(content, split).Ok?
    requires HeaderSize + k < |LineFile.LinesOf(content)|
    ensures var lines := LineFile.LinesOf(content);
            var t := ReadTable(content, split).value;
            var hits := FileHits(t, a.handlers, split, content);
            var out := LineFile.LinesOf(Update(a, content, patch, id, split).1);
            var c := Change(t, a.handlers, patch, id, split, lines[HeaderSize + k]);
            var admit := hits[k].Some? && IntendedGate(a.limit, k, |Selected(a.limit, hits[..k])|);
            && |out| == |lines| && out[..HeaderSize] == lines[..HeaderSize]
            && Rewritten(out, HeaderSize + k, admit, c, lines[HeaderSize + k])
  {
    var lines := LineFile.LinesOf(content);
    var rest := lines[HeaderSize..];
    PlainReadsAgree(a.handlers, content, split);
    PlainLinesAgree(content);
    var t := ReadTable(content, split).value;
    assert t == HookTable(content, split).value;
    var hits := FileHits(t, a.handlers, split, content);
    assert hits == Hits(t, a.handlers, split, Unescaped(rest));
    assert rest[k] == lines[HeaderSize + k];
    assert LineFile.Unescape(rest[k]) == rest[k];
    UpdateLineAt(a, content, patch, id, split, k);
  }

  /** The intended gate admits a selected line exactly when its record is on
      the first page of the selected records, at the place of its rank. */
  lemma IntendedGateIsPage<V>(limit: Option<Paging>, hits: seq<Option<V>>, k: nat)
    requires k < |hits|
    ensures var rank := |Selected(limit, hits[..k])|;
            var page := PageOf(limit, Selected(limit, hits));
            var onPage := hits[k].Some? && !Skipped(limit, k) && rank < |page|;
            && (hits[k].Some? && IntendedGate(limit, k, rank) <==> onPage)
            && (onPage ==> page[rank] == hits[k].value)
  {
    if hits[k].Some? && !Skipped(limit, k) {
      SelectedStep(limit, hits, k);
      SelectedPrefix(limit, hits, k + 1);
      var all := Selected(limit, hits);
      var next := Selected(limit, hits[..k + 1]);
      assert all[|next| - 1] == next[|next| - 1];
    }
  }

  /** Data line k after the intended Update, over Update's own reading of
      the lines: rewritten when its record is selected and the gate admits
      it, written back byte for byte otherwise. */
  lemma UpdateLineAt(a: Action, content: Bytes, patch: Record, id: Bytes, split: Bytes, k: nat)
    requires |split| > 0 && a.err.None? && (|a.handlers| > 0 || a.limit.Some?)
    requires HookTable(content, split).Ok?
    requires HeaderSize + k < |LineFile.LinesOf(content)|
    ensures var lines := LineFile.LinesOf(content);
            var t := HookTable(content, split).value;
            var rest := lines[HeaderSize..];
            var hits := Hits(t, a.handlers, split, Unescaped(rest));
            var out := LineFile.LinesOf(Update(a, content, patch, id, split).1);
            var c := Change(t, a.handlers, patch, id, split, LineFile.Unescape(rest[k]));
            var admit := hits[k].Some? && IntendedGate(a.limit, k, |Selected(a.limit, hits[..k])|);
            && |out| == |lines| && out[..HeaderSize] == lines[..HeaderSize]
            && Rewritten(out, HeaderSize + k, admit, c, rest[k])
  {
    var lines := LineFile.LinesOf(content);
    var t := HookTable(content, split).value;
    var rest := lines[HeaderSize..];
    var hits := Hits(t, a.handlers, split, Unescaped(rest));
    var change := Changer(t, a.handlers, patch, id, split);
    UpdateLines(a, content, patch, id, split, IntendedGate);
    UpdatedLine(a.limit, IntendedGate, change, hits, rest, k);
    ChangerMarksHits(t, a.handlers, patch, id, split, rest);
  }

  /** The predicate Delete hands to File.DelBy: every handler runs on the
      row, and the line goes when none rejects it. */
  function DeleteIf(t: Table, hs: seq<Handler>, split: Bytes): (nat, Bytes) -> Result<bool>
    requires |split| > 0
  {
    (i: nat, u: Bytes) => Ok(RunEvery(hs, 0, DecodeData2(t, u, split)).0)
  }

  /** Action.Delete: the table check, the guard against a Delete with
      neither condition nor limit, then DelBy. The limit only passes the
      guard: DelBy never consults it. */
  function Delete(a: Action, content: Bytes, split: Bytes): (r: (Result<()>, Bytes))
    requires |split| > 0
    ensures a.err.Some? ==> r == (Err(a.err.value), content)
    ensures a.err.None? && |a.handlers| == 0 && a.limit.None? ==> r == (Err(DeleteWithoutCondition), content)
    ensures r.0.Err? ==> r.1 == content
  {
    if a.err.Some? then (Err(a.err.value), content)
    else if |a.handlers| == 0 && a.limit.None? then (Err(DeleteWithoutCondition), content)
    else
      match HookTable(content, split)
      case Err(e) => (Err(e), content)
      case Ok(t) =>
        var r := LineFile.DelBy(content, Some(HeaderHook(split)), DeleteIf(t, a.handlers, split));
        (if r.Ok? then Ok(()) else Err(r.error), LineFile.Commit(content, r))
  }

  /** The selection of Find's stop-at-first loop, as a predicate on the
      lines in Delete's own reading (unescaped, '\r' kept). */
  function SelectIf(t: Table, hs: seq<Handler>, split: Bytes): (nat, Bytes) -> Result<bool>
    requires |split| > 0
  {
    (i: nat, u: Bytes) => Ok(Selects(hs, DecodeData2(t, u, split)))
  }

  /** Two predicates that agree on the lines keep the same lines. */
  lemma {:induction false} KeptSame(lines: seq<Bytes>, i: nat, p: (nat, Bytes) -> Result<bool>, q: (nat, Bytes) -> Result<bool>)
    requires i <= |lines|
    requires forall j :: i <= j < |lines| ==> p(j, LineFile.Unescape(lines[j])).Ok?
    requires forall j :: i <= j < |lines| ==> q(j, LineFile.Unescape(lines[j])) == p(j, LineFile.Unescape(lines[j]))
    ensures LineFile.Kept(lines, i, p) == LineFile.Kept(lines, i, q)
    decreases |lines| - i
  {
    if i < |lines| {
      KeptSame(lines, i + 1, p, q);
    }
  }

  /** Delete removes exactly the data lines whose rows the conditions
      select, whatever the limit, and keeps the header and every other line
      byte for byte. */
  lemma DeleteRemovesSelected(a: Action, content: Bytes, split: Bytes)
    requires |split| > 0 && a.err.None? && (|a.handlers| > 0 || a.limit.Some?)
    requires HookTable(content, split).Ok?
    ensures var lines := LineFile.LinesOf(content);
            var t := HookTable(content, split).value;
            |lines| >= HeaderSize
            && Delete(a, content, split).0 == Ok(())
            && LineFile.LinesOf(Delete(a, content, split).1)
                 == lines[..HeaderSize] + LineFile.Kept(lines[HeaderSize..], 0, SelectIf(t, a.handlers, split))
  {
    DeleteKeeps(a, content, split);
    var lines := LineFile.LinesOf(content);
    DeleteIfSelects(HookTable(content, split).value, a.handlers, split, lines[HeaderSize..]);
  }

  /** Delete keeps the header and the lines its own predicate rejects. */
  lemma DeleteKeeps(a: Action, content: Bytes, split: Bytes)
    requires |split| > 0 && a.err.None? && (|a.handlers| > 0 || a.limit.Some?)
    requires HookTable(content, split).Ok?
    ensures var lines := LineFile.LinesOf(content);
            |lines| >= HeaderSize
            && Delete(a, content, split).0 == Ok(())
            && LineFile.LinesOf(Delete(a, content, split).1)
                 == lines[..HeaderSize] + LineFile.Kept(lines[HeaderSize..], 0, DeleteIf(HookTable(content, split).value, a.handlers, split))
  {
    HeaderHookOpens(content, split);
    LineFile.DelByHeader(content, HeaderHook(split), DeleteIf(HookTable(content, split).value, a.handlers, split), HeaderSize);
    DeleteCommits(a, content, split);
  }

  lemma DeleteCommits(a: Action, content: Bytes, split: Bytes)
    requires |split| > 0 && a.err.None? && (|a.handlers| > 0 || a.limit.Some?)
    requires HookTable(content, split).Ok?
    requires LineFile.DelBy(content, Some(HeaderHook(split)), DeleteIf(HookTable(content, split).value, a.handlers, split)).Ok?
    ensures Delete(a, content, split)
              == (Ok(()), LineFile.DelBy(content, Some(HeaderHook(split)), DeleteIf(HookTable(content, split).value, a.handlers, split)).value)
  {
  }

  /** Over Delete's own reading of the lines, running every handler deletes
      the lines that Find's stop-at-first loop selects. */
  lemma DeleteIfSelects(t: Table, hs: seq<Handler>, split: Bytes, rest: seq<Bytes>)
    requires |split| > 0
    ensures LineFile.Kept(rest, 0, DeleteIf(t, hs, split)) == LineFile.Kept(rest, 0, SelectIf(t, hs, split))
  {
    var p := DeleteIf(t, hs, split);
    var q := SelectIf(t, hs, split);
    forall j | 0 <= j < |rest|
      ensures q(j, LineFile.Unescape(rest[j])) == p(j, LineFile.Unescape(rest[j]))
    {
      RunEveryAgrees(hs, 0, DecodeData2(t, LineFile.Unescape(rest[j]), split));
    }
    KeptSame(rest, 0, p, q);
  }

  /** The lines from `i` on whose rows were not selected, in file order. */
  function Unselected(ls: seq<Bytes>, hits: seq<Option<Record>>, i: nat): (r: seq<Bytes>)
    requires i <= |ls| == |hits|
    ensures |r| <= |ls| - i
    ensures (forall k :: i <= k < |ls| ==> hits[k].None?) ==> r == ls[i..]
    ensures (forall k :: i <= k < |ls| ==> hits[k].Some?) ==> r == []
    decreases |ls| - i
  {
    if i == |ls| then []
    else (if hits[i].Some? then [] else [ls[i]]) + Unselected(ls, hits, i + 1)
  }

  /** Kept under the stop-at-first selection keeps exactly the lines whose
      unescaped reading gives no record. */
  lemma {:induction false} KeptUnselected(t: Table, hs: seq<Handler>, split: Bytes, rest: seq<Bytes>, i: nat)
    requires |split| > 0 && i <= |rest|
    ensures LineFile.Kept(rest, i, SelectIf(t, hs, split)) == Unselected(rest, Hits(t, hs, split, Unescaped(rest)), i)
    decreases |rest| - i
  {
    if i < |rest| {
      var p := SelectIf(t, hs, split);
      var hits := Hits(t, hs, split, Unescaped(rest));
      var u := LineFile.Unescape(rest[i]);
      assert hits[i] == Hit(t, hs, split, u);
      assert p(i, u).value == hits[i].Some?;
      KeptUnselected(t, hs, split, rest, i + 1);
      assert LineFile.Kept(rest, i, p) == (if p(i, u).value then [] else [rest[i]]) + LineFile.Kept(rest, i + 1, p);
    }
  }

  /** On a file whose lines carry no trailing '\r' and no escaped newline,
      Delete keeps the header and exactly the data lines for which find,
      reading the file its own way, returns no record. */
  lemma DeleteMatchesFind(a: Action, content: Bytes, split: Bytes)
    requires |split| > 0 && a.err.None? && (|a.handlers| > 0 || a.limit.Some?)
    requires PlainFile(content) && ReadTable(content, split).Ok?
    ensures var lines := LineFile.LinesOf(content);
            |lines| >= HeaderSize
            && Delete(a, content, split).0 == Ok(())
            && LineFile.LinesOf(Delete(a, content, split).1)
                 == lines[..HeaderSize] + Unselected(lines[HeaderSize..], FileHits(ReadTable(content, split).value, a.handlers, split, content), 0)
  {
    PlainReadsAgree(a.handlers, content, split);
    DeleteRemovesSelected(a, content, split);
    var lines := LineFile.LinesOf(content);
    KeptUnselected(HookTable(content, split).value, a.handlers, split, lines[HeaderSize..], 0);
  }

  /** Only the conditions pass a line to Kept as selected. */
  lemma {:induction false} KeptAll(lines: seq<Bytes>, i: nat, p: (nat, Bytes) -> Result<bool>)
    requires i <= |lines|
    requires forall j :: i <= j < |lines| ==> p(j, LineFile.Unescape(lines[j])) == Ok(true)
    ensures LineFile.Kept(lines, i, p) == []
    decreases |lines| - i
  {
    if i < |lines| {
      KeptAll(lines, i + 1, p);
    }
  }

  /** A limit without conditions passes Delete's guard and then deletes
      every data line. */
  lemma LimitAloneDeletesAll(a: Action, content: Bytes, split: Bytes)
    requires |split| > 0 && a.err.None? && |a.handlers| == 0 && a.limit.Some?
    requires HookTable(content, split).Ok?
    ensures LineFile.LinesOf(Delete(a, content, split).1) == LineFile.LinesOf(content)[..HeaderSize]
  {
    DeleteRemovesSelected(a, content, split);
    var lines := LineFile.LinesOf(content);
    KeptAll(lines[HeaderSize..], 0, SelectIf(HookTable(content, split).value, a.handlers, split));
    assert lines[..HeaderSize] + [] == lines[..HeaderSize];
  }

  /** The clock passes any value at or after any call: `now(t)` is the
      reading at the `t`th call. */
  ghost predicate Later(now: nat -> int, tick: nat, v: int) {
    exists t: nat :: tick <= t && now(t) > v
  }

  ghost predicate Unbounded(now: nat -> int) {
    forall tick: nat, v: int :: Later(now, tick, v)
  }

  /** The line withAppend writes for a row: the row with its key column set
      to the text of the issued key. */
  function Keyed(t: Table, row: Record, id: Bytes, key: int, split: Bytes): Bytes
    requires Positional(t.fields)
  {
    EncodeData(t, row[id := IntText(key)], split)
  }

  /** The lines withAppend writes for the rows, the `k`th keyed with ids[k]. */
  function KeyedAll(t: Table, rows: seq<Record>, id: Bytes, ids: seq<int>, split: Bytes): (r: seq<Bytes>)
    requires Positional(t.fields) && |ids| == |rows|
    ensures |r| == |rows|
    ensures forall k :: 0 <= k < |rows| ==> r[k] == Keyed(t, rows[k], id, ids[k], split)
  {
    seq(|rows|, k requires 0 <= k < |rows| => Keyed(t, rows[k], id, ids[k], split))
  }

  predicate Increasing(ids: seq<int>) {
    forall j, k :: 0 <= j < k < |ids| ==> ids[j] < ids[k]
  }

  /** Action.Insert: the table check, nothing for no rows, otherwise
      AppendWith, whose builder issues one key per row from the clock (the
      `tick`th reading onward, keys past `last`) and encodes the row with
      that key. On success the encoded lines are appended, escaped, at the
      end of the file; any error leaves the file as it was. */
  method Insert(a: Action, content: Bytes, rows: seq<Record>, id: Bytes, split: Bytes,
                now: nat -> int, tick: nat, last: int)
    returns (r: Result<()>, file: Bytes, ids: seq<int>, next: nat)
    requires |split| > 0 && Unbounded(now)
    ensures a.err.Some? ==> r == Err(a.err.value) && file == content && ids == [] && next == tick
    ensures a.err.None? && |rows| == 0 ==> r == Ok(()) && file == content && ids == [] && next == tick
    ensures a.err.None? && |rows| > 0 && HookTable(content, split).Err? ==>
              r == Err(HookTable(content, split).error) && file == content && ids == [] && next == tick
    ensures r.Err? || |rows| == 0 <==> file == content && ids == []
    ensures r.Ok? && |rows| > 0 ==>
              && HookTable(content, split).Ok?
              && |ids| == |rows| && Increasing(ids) && ids[0] > last && tick < next
              && file == content + Frame(LineFile.EscapeAll(KeyedAll(HookTable(content, split).value, rows, id, ids, split)), LineFile.NL)
  {
    ids := [];
    next := tick;
    file := content;
    if a.err.Some? {
      r := Err(a.err.value);
      return;
    }
    if |rows| == 0 {
      r := Ok(());
      return;
    }
    HeaderHookOpens(content, split);
    var table := HookTable(content, split);
    if table.Err? {
      r := Err(table.error);
      return;
    }
    var lines;
    lines, ids, next := IssueKeys(table.value, rows, id, split, now, tick, last);
    file := Appended(content, split, lines);
    r := Ok(());
  }

  /** The builder withAppend hands to AppendWith: one key per row from the
      clock, each past the one before, and the row encoded with its key. */
  method IssueKeys(t: Table, rows: seq<Record>, id: Bytes, split: Bytes, now: nat -> int, tick: nat, last: int)
    returns (lines: seq<Bytes>, ids: seq<int>, next: nat)
    requires Positional(t.fields) && Unbounded(now)
    ensures |ids| == |rows| && Increasing(ids)
    ensures |rows| > 0 ==> ids[0] > last && tick < next
    ensures |rows| == 0 ==> next == tick
    ensures lines == KeyedAll(t, rows, id, ids, split)
  {
    ids := [];
    next := tick;
    var prev := last;
    lines := [];
    while |ids| < |rows|
      invariant |lines| == |ids| <= |rows|
      invariant IssuedAfter(ids, last, prev)
      invariant |ids| > 0 ==> tick < next
      invariant |ids| == 0 ==> next == tick
      invariant lines == KeyedAll(t, rows[..|ids|], id, ids, split)
    {
      assert Later(now, next, prev);
      var key;
      key, next := GetId(now, next, prev);
      IssuedSnoc(ids, last, prev, key);
      KeyedAllSnoc(t, rows, id, ids, key, split);
      lines := lines + [Keyed(t, rows[|ids|], id, key, split)];
      ids := ids + [key];
      prev := key;
    }
    assert rows[..|ids|] == rows;
  }

  /** Keying one more row adds its line at the end. */
  lemma KeyedAllSnoc(t: Table, rows: seq<Record>, id: Bytes, ids: seq<int>, key: int, split: Bytes)
    requires Positional(t.fields) && |ids| < |rows|
    ensures KeyedAll(t, rows[..|ids| + 1], id, ids + [key], split)
            == KeyedAll(t, rows[..|ids|], id, ids, split) + [Keyed(t, rows[|ids|], id, key, split)]
  {
    var n := |ids|;
    var a := KeyedAll(t, rows[..n + 1], id, ids + [key], split);
    var front := KeyedAll(t, rows[..n], id, ids, split);
    var b := front + [Keyed(t, rows[n], id, key, split)];
    assert |a| == |b| == n + 1;
    forall k | 0 <= k < n + 1
      ensures a[k] == b[k]
    {
      assert rows[..n + 1][k] == rows[k];
      if k < n {
        assert rows[..n][k] == rows[k] && (ids + [key])[k] == ids[k];
        assert b[k] == front[k];
      } else {
        assert (ids + [key])[k] == key;
      }
    }
  }

  /** The keys issued so far increase, start past `last`, and end with `prev`
      (which is `last` while none has been issued). */
  predicate IssuedAfter(ids: seq<int>, last: int, prev: int) {
    && Increasing(ids)
    && (|ids| > 0 ==> ids[0] > last && prev == ids[|ids| - 1])
    && (|ids| == 0 ==> prev == last)
  }

  lemma IssuedSnoc(ids: seq<int>, last: int, prev: int, key: int)
    requires IssuedAfter(ids, last, prev) && key > prev
    ensures IssuedAfter(ids + [key], last, key)
  {
    IncreasingSnoc(ids, key);
  }

  lemma IncreasingSnoc(ids: seq<int>, key: int)
    requires Increasing(ids) && (|ids| > 0 ==> ids[|ids| - 1] < key)
    ensures Increasing(ids + [key])
  {
  }

  /** AppendWith with the header hook and a builder that hands back
      `lines`, once the hook accepts the file. */
  function Appended(content: Bytes, split: Bytes, lines: seq<Bytes>): (file: Bytes)
    requires |split| > 0 && HookTable(content, split).Ok?
    ensures file == content + Frame(LineFile.EscapeAll(lines), LineFile.NL)
    ensures |lines| > 0 ==> file != content
  {
    HeaderHookOpens(content, split);
    var appended := LineFile.AppendWith(content, Some(HeaderHook(split)), (o: LineFile.Opened) => Ok(lines));
    assert appended == Ok(content + Frame(LineFile.EscapeAll(lines), LineFile.NL));
    if |lines| > 0 then
      var es := LineFile.EscapeAll(lines);
      assert es == [es[0]] + es[1..];
      FrameAppend([es[0]], es[1..], LineFile.NL);
      FrameSingle(es[0], LineFile.NL);
      appended.value
    else appended.value
  }

  /** Reading an inserted line back gives, in the key column, the issued
      key, which conv.Int reads as that number, and in every other column
      the row's own value. */
  lemma InsertedKeyReadsBack(t: Table, row: Record, id: Bytes, key: int, split: Bytes)
    requires |split| > 0 && Positional(t.fields) && |t.fields| >= 1
    requires SplitSafe(Slots(t.fields, row[id := IntText(key)]), split)
    requires exists i :: 0 <= i < |t.fields| && t.fields[i].name == id
    ensures var back := DecodeData2(t, Keyed(t, row, id, key, split), split);
            && id in back && back[id].value == IntText(key) && ToInt(back[id].value) == key
            && forall k :: k in row && k in back && k != id ==> back[k].value == row[k]
  {
    SetColumnReadsBack(t, row, id, IntText(key), split);
    ParseIntText(key);
  }
}

=== FILE: base.dfy ===
/** Shared vocabulary: bytes, optional values, results and the error kinds the
    store reports. */
module Base {

  /** A Go byte. Byte strings are sequences of chars below 0x100, so string
      literals such as "start" denote the same bytes as in the Go source and
      ordering on chars is ordering on bytes. */
  type byte = c: char | c as int < 0x100

  /** A Go []byte or string. */
  type Bytes = seq<byte>

  datatype Option<+T> = None | Some(value: T)

  datatype Error =
    | InvalidFile                 // a header that does not have exactly 12 lines
    | BadStart                    // header line 0 is not "start"
    | BadEnd                      // header line 11 is not "end"
    | MissingArgument(clause: Bytes)  // a `?` with no argument left
    | UpdateWithoutCondition      // Update with neither handler nor limit
    | DeleteWithoutCondition      // Delete with neither handler nor limit
    | TableNotFound               // the table file does not exist
    | Failed(code: int)           // an error returned by a caller-supplied callback

  datatype Result<+T> = Ok(value: T) | Err(error: Error)

  function Min(a: int, b: int): int { if a <= b then a else b }
}

=== FILE: curd.dfy ===
/** The older line file of core/curd.go. It escapes lines exactly as the
    file of core/file.go does (LineFile.Escape / LineFile.Unescape) and its
    Range and Limit are the same as that file's (LineFile.FileRange,
    LineFile.FileLimit). What differs: every read, including the one inside
    Update, goes through the default bufio line scanner, so one trailing
    carriage return is dropped from each line; there is no open hook; and
    the callbacks cannot fail. */
module Curd {
  import opened Base
  import opened Seqs
  import opened Scanner
  import opened LineFile

  /** The raw lines bufio.ScanLines cuts from a file: '\n'-terminated, with
      one trailing '\r' removed. */
  function Stripped(content: Bytes): (r: seq<Bytes>)
    ensures |r| == |LinesOf(content)|
    ensures forall i :: 0 <= i < |r| ==> r[i] == DropCR(LinesOf(content)[i]) && '\n' !in r[i]
  {
    var ls := LinesOf(content);
    seq(|ls|, i requires 0 <= i < |ls| => DropCR(ls[i]))
  }

  /** File.Append of curd.go: the escaped line and a newline, written at the end. */
  function Append(content: Bytes, p: Bytes): (r: Bytes)
    ensures content <= r
    ensures r[|content|..] == Escape(p) + NL
  {
    content + Escape(p) + NL
  }

  /** The two Append methods agree when file.go's has no hook. */
  lemma AppendAgrees(content: Bytes, p: Bytes)
    ensures LineFile.Append(content, None, p) == Ok(Append(content, p))
  {
    assert EscapeAll([p]) == [Escape(p)];
    FrameSingle(Escape(p), NL);
    assert content + (Escape(p) + NL) == content + Escape(p) + NL;
  }

  /** Appending to a well-formed file adds exactly the escaped line. */
  lemma AppendAddsLine(ls: seq<Bytes>, p: Bytes)
    requires forall i :: 0 <= i < |ls| ==> '\n' !in ls[i]
    ensures LinesOf(Append(Frame(ls, NL), p)) == ls + [Escape(p)]
  {
    var e := Escape(p);
    EscapeAllSingle(p);
    FrameSingle(e, NL);
    ConcatAssoc(Frame(ls, NL), e, NL);
    AppendedLines(ls, [p]);
  }

  /** The loop of curd.go's Update from line `i` on: every line's
      replacement list, in order (a nil list writes nothing). */
  function Rewrite(lines: seq<Bytes>, i: nat, fn: (nat, Bytes) -> seq<Bytes>): seq<Bytes>
    requires i <= |lines|
    decreases |lines| - i
  {
    if i == |lines| then [] else fn(i, Unescape(lines[i])) + Rewrite(lines, i + 1, fn)
  }

  /** File.Update of curd.go: the contents of the temporary file renamed
      over the original. It cannot fail short of I/O. */
  function Update(content: Bytes, fn: (nat, Bytes) -> seq<Bytes>): Bytes {
    Frame(EscapeAll(Rewrite(Stripped(content), 0, fn)), NL)
  }

  /** The rewrite is file.go's stateless rewrite of the stripped lines with a
      callback that never fails. */
  lemma {:induction false} RewriteReplaced(lines: seq<Bytes>, i: nat, fn: (nat, Bytes) -> seq<Bytes>,
                                           f: (nat, Bytes) -> Result<seq<Bytes>>)
    requires forall j: nat, bs: Bytes :: f(j, bs) == Ok(fn(j, bs))
    requires i <= |lines|
    ensures Replaced(lines, i, f) == Ok(Rewrite(lines, i, fn))
    decreases |lines| - i
  {
    if i < |lines| {
      RewriteReplaced(lines, i + 1, fn, f);
      ReplacedStep(lines, i, f, fn(i, Unescape(lines[i])));
    }
  }

  /** Rewriting every line to itself keeps the file's lines, except that a
      trailing carriage return is removed from each. */
  lemma UpdateIdentityDropsCR(content: Bytes)
    ensures LinesOf(Update(content, (i: nat, bs: Bytes) => [bs])) == Stripped(content)
  {
    var lines := Stripped(content);
    var fn := (i: nat, bs: Bytes) => [bs];
    var f := (i: nat, bs: Bytes) => Ok([bs]);
    RewriteReplaced(lines, 0, fn, f);
    DeleteAtLines(lines, 0, -1, f);
    assert lines[0..] == lines;
    ReadBack(EscapeAll(Rewrite(lines, 0, fn)));
  }

  /** The callback of curd.go's Del. */
  function DeleteAt(k: int): (nat, Bytes) -> seq<Bytes> {
    (i: nat, bs: Bytes) => if k == i then [] else [bs]
  }

  /** File.Del of curd.go. */
  function Del(content: Bytes, k: int): Bytes {
    Update(content, DeleteAt(k))
  }

  /** Del drops line k of the stripped lines, and only it. */
  lemma DelRemovesLine(content: Bytes, k: int)
    ensures 0 <= k < |Stripped(content)| ==>
              LinesOf(Del(content, k)) == Stripped(content)[..k] + Stripped(content)[k + 1..]
    ensures !(0 <= k < |Stripped(content)|) ==> LinesOf(Del(content, k)) == Stripped(content)
  {
    var lines := Stripped(content);
    var f := (i: nat, bs: Bytes) => Ok(DeleteAt(k)(i, bs));
    RewriteReplaced(lines, 0, DeleteAt(k), f);
    DeleteAtLines(lines, 0, k, f);
    ReadBack(EscapeAll(Rewrite(lines, 0, DeleteAt(k))));
    assert lines[0..] == lines;
  }

  /** The callback of curd.go's Insert. */
  function InsertAt(k: int, data: Bytes): (nat, Bytes) -> seq<Bytes> {
    (i: nat, bs: Bytes) => if k != i then [bs] else [data, bs]
  }

  /** File.Insert of curd.go. */
  function Insert(content: Bytes, k: int, data: Bytes): Bytes {
    Update(content, InsertAt(k, data))
  }

  /** Insert places the escaped line before line k of the stripped lines,
      and is a no-op apart from stripping when k is not a line index. */
  lemma InsertPlacesLine(content: Bytes, k: int, data: Bytes)
    ensures 0 <= k < |Stripped(content)| ==>
              LinesOf(Insert(content, k, data)) == Stripped(content)[..k] + [Escape(data)] + Stripped(content)[k..]
    ensures !(0 <= k < |Stripped(content)|) ==> LinesOf(Insert(content, k, data)) == Stripped(content)
  {
    var lines := Stripped(content);
    var f := (i: nat, bs: Bytes) => Ok(InsertAt(k, data)(i, bs));
    RewriteReplaced(lines, 0, InsertAt(k, data), f);
    InsertAtLines(lines, 0, k, data, f);
    ReadBack(EscapeAll(Rewrite(lines, 0, InsertAt(k, data))));
    assert lines[0..] == lines;
  }

  /** The callback of curd.go's DelBy. */
  function DeleteWhere(p: (nat, Bytes) -> bool): (nat, Bytes) -> seq<Bytes> {
    (i: nat, bs: Bytes) => if p(i, bs) then [] else [bs]
  }

  /** File.DelBy of curd.go. */
  function DelBy(content: Bytes, p: (nat, Bytes) -> bool): Bytes {
    Update(content, DeleteWhere(p))
  }

  /** DelBy keeps exactly the stripped lines whose unescaped text the
      predicate rejects, in order. */
  lemma DelByKeepsUnselected(content: Bytes, p: (nat, Bytes) -> bool)
    ensures LinesOf(DelBy(content, p)) == Kept(Stripped(content), 0, (i: nat, bs: Bytes) => Ok(p(i, bs)))
  {
    var lines := Stripped(content);
    var q := (i: nat, bs: Bytes) => Ok(p(i, bs));
    var f := (i: nat, bs: Bytes) => Ok(DeleteWhere(p)(i, bs));
    RewriteReplaced(lines, 0, DeleteWhere(p), f);
    DeleteWhereLines(lines, 0, q, f);
    ReadBack(EscapeAll(Rewrite(lines, 0, DeleteWhere(p))));
  }
}

=== FILE: db.dfy ===
/** The table schema of db.go: the twelve header lines of a table file, how
    a data line is cut into named column values and how a row is written
    back, the comparison a condition performs on a column, and the
    primary-key generator. */
module Schema {
  import opened Base
  import opened Seqs
  import opened Numbers

  /** The column type names. */
  const StringType: Bytes := "string"
  const BoolType: Bytes := "bool"
  const IntType: Bytes := "int"
  const FloatType: Bytes := "float"

  /** The column delimiter New installs: a space, the byte 0xFF, a space. */
  const DefaultSplit: Bytes := [' ', 0xFF as char, ' ']

  const StartMark: Bytes := "start"
  const EndMark: Bytes := "end"

  /** The number of header lines that precede the data lines. */
  const HeaderSize: nat := 12

  /** The memo Sync gives the primary key column ("主键,时间戳" in UTF-8). */
  const IdMemo: Bytes := [0xE4 as char, 0xB8 as char, 0xBB as char, 0xE9 as char, 0x94 as char, 0xAE as char, ',',
                          0xE6 as char, 0x97 as char, 0xB6 as char, 0xE9 as char, 0x97 as char, 0xB4 as char,
                          0xE6 as char, 0x88 as char, 0xB3 as char]

  /** A column: its position in a data line, name, type name, memo, the
      value it holds in a decoded row, and its sort number. */
  datatype Field = Field(index: int, name: Bytes, typ: Bytes, memo: Bytes, value: Bytes, sort: int)

  datatype Table = Table(fields: seq<Field>)

  /** Every column sits at its own position, as DecodeTable numbers them. */
  predicate Positional(fs: seq<Field>) {
    forall i :: 0 <= i < |fs| ==> fs[i].index == i
  }

  /** Column `i` is the last one carrying its name. */
  predicate LastNamed(fs: seq<Field>, i: int)
    requires 0 <= i < |fs|
  {
    forall j :: i < j < |fs| ==> fs[j].name != fs[i].name
  }

  predicate DistinctNames(fs: seq<Field>) {
    forall i, j :: 0 <= i < j < |fs| ==> fs[i].name != fs[j].name
  }

  function Names(fs: seq<Field>): (r: seq<Bytes>)
    ensures |r| == |fs| && forall i :: 0 <= i < |fs| ==> r[i] == fs[i].name
  {
    seq(|fs|, i requires 0 <= i < |fs| => fs[i].name)
  }

  function Types(fs: seq<Field>): (r: seq<Bytes>)
    ensures |r| == |fs| && forall i :: 0 <= i < |fs| ==> r[i] == fs[i].typ
  {
    seq(|fs|, i requires 0 <= i < |fs| => fs[i].typ)
  }

  function Memos(fs: seq<Field>): (r: seq<Bytes>)
    ensures |r| == |fs| && forall i :: 0 <= i < |fs| ==> r[i] == fs[i].memo
  {
    seq(|fs|, i requires 0 <= i < |fs| => fs[i].memo)
  }

  /** The `n`th item of a header line's list, or the default when the line is shorter. */
  function ItemOr(items: seq<Bytes>, n: nat, default: Bytes): Bytes {
    if n < |items| then items[n] else default
  }

  /** DB.DecodeTable: the header must be exactly twelve lines, starting with
      "start" and ending with "end"; line 4 names the columns, and lines 5, 6
      and 7 give the type, sort number and memo of as many of them as they
      list. */
  function DecodeTable(ls: seq<Bytes>, split: Bytes): (r: Result<Table>)
    requires |split| > 0
    ensures |ls| != HeaderSize ==> r == Err(InvalidFile)
    ensures |ls| == HeaderSize && ls[0] != StartMark ==> r == Err(BadStart)
    ensures |ls| == HeaderSize && ls[0] == StartMark && ls[11] != EndMark ==> r == Err(BadEnd)
    ensures r.Ok? <==> |ls| == HeaderSize && ls[0] == StartMark && ls[11] == EndMark
    ensures r.Ok? ==> Positional(r.value.fields) && Names(r.value.fields) == Split(ls[3], split)
    ensures r.Ok? ==> forall i :: 0 <= i < |r.value.fields| ==>
                        r.value.fields[i].typ == ItemOr(Split(ls[4], split), i, StringType)
                        && r.value.fields[i].sort == ToInt(ItemOr(Split(ls[5], split), i, []))
                        && r.value.fields[i].memo == ItemOr(Split(ls[6], split), i, [])
                        && r.value.fields[i].value == []
  {
    if |ls| != HeaderSize then Err(InvalidFile)
    else if ls[0] != StartMark then Err(BadStart)
    else if ls[11] != EndMark then Err(BadEnd)
    else
      var names := Split(ls[3], split);
      var types := Split(ls[4], split);
      var sorts := Split(ls[5], split);
      var memos := Split(ls[6], split);
      var fs := seq(|names|, i requires 0 <= i < |names| =>
                 Field(i, names[i], ItemOr(types, i, StringType), ItemOr(memos, i, []), [], ToInt(ItemOr(sorts, i, []))));
      assert Names(fs) == names;
      Ok(Table(fs))
  }

  /** The twelve header lines Sync writes for a new table (without their
      newlines): the markers, the names, the types, an empty sort list and
      the memos. */
  function SyncHeader(fs: seq<Field>, split: Bytes): (r: seq<Bytes>)
    ensures |r| == HeaderSize && r[0] == StartMark && r[11] == EndMark
  {
    var empties := Empties(|fs|);
    [StartMark, [], [], Join(Names(fs), split), Join(Types(fs), split), Join(empties, split),
     Join(Memos(fs), split), [], [], [], [], EndMark]
  }

  function Empties(n: nat): (r: seq<Bytes>)
    ensures |r| == n && forall i :: 0 <= i < n ==> r[i] == []
  {
    seq(n, i => [])
  }

  /** The columns Sync declares: the primary key first, then the given
      columns, leaving out any that is named like the key. */
  function SyncColumns(id: Bytes, cols: seq<(Bytes, Bytes)>): (r: seq<Field>)
    ensures |r| >= 1 && r[0] == Field(0, id, IntType, IdMemo, [], 0)
    ensures forall i :: 1 <= i < |r| ==> r[i].name != id
  {
    [Field(0, id, IntType, IdMemo, [], 0)] + OtherColumns(id, cols, 0)
  }

  function OtherColumns(id: Bytes, cols: seq<(Bytes, Bytes)>, i: nat): (r: seq<Field>)
    requires i <= |cols|
    ensures forall k :: 0 <= k < |r| ==> r[k].name != id
    decreases |cols| - i
  {
    if i == |cols| then []
    else if cols[i].0 == id then OtherColumns(id, cols, i + 1)
    else [Field(i + 1, cols[i].0, cols[i].1, [], [], 0)] + OtherColumns(id, cols, i + 1)
  }

  /** A list of pieces comes back from Split after Join. */
  predicate SplitSafe(parts: seq<Bytes>, split: Bytes) {
    |parts| >= 1
    && (forall i :: 0 <= i < |parts| - 1 ==> Separable(parts[i], split))
    && !Contains(parts[|parts| - 1], split)
  }

  lemma SplitSafeJoin(parts: seq<Bytes>, split: Bytes)
    requires |split| > 0 && SplitSafe(parts, split)
    ensures Split(Join(parts, split), split) == parts
  {
    SplitJoin(parts, split);
  }

  lemma EmptiesSplitSafe(n: nat, split: Bytes)
    requires n >= 1 && |split| > 0
    ensures SplitSafe(Empties(n), split)
  {
    var e := Empties(n);
    forall i | 0 <= i < n - 1
      ensures Separable(e[i], split)
    {
      assert e[i] + split == split;
      assert MatchAt(split, split, 0);
      IndexOfIsFirst(split, split, 0);
    }
    assert !Contains(e[n - 1], split);
  }

  /** The header Sync writes decodes to the columns it was written from:
      same names, types and memos, sort number 0 and an empty value. This
      needs at least one column (Sync always has the key) and every name,
      type and memo list to survive Split after Join. */
  lemma HeaderRoundTrip(fs: seq<Field>, split: Bytes)
    requires |split| > 0 && |fs| >= 1
    requires SplitSafe(Names(fs), split) && SplitSafe(Types(fs), split) && SplitSafe(Memos(fs), split)
    ensures DecodeTable(SyncHeader(fs, split), split).Ok?
    ensures var got := DecodeTable(SyncHeader(fs, split), split).value.fields;
            |got| == |fs| && forall i :: 0 <= i < |fs| ==> got[i] == Field(i, fs[i].name, fs[i].typ, fs[i].memo, [], 0)
  {
    var h := SyncHeader(fs, split);
    var empties := Empties(|fs|);
    assert h[3] == Join(Names(fs), split) && h[4] == Join(Types(fs), split);
    assert h[5] == Join(empties, split) && h[6] == Join(Memos(fs), split);
    SplitSafeJoin(Names(fs), split);
    SplitSafeJoin(Types(fs), split);
    SplitSafeJoin(Memos(fs), split);
    EmptiesSplitSafe(|fs|, split);
    SplitSafeJoin(empties, split);
    var got := DecodeTable(h, split).value.fields;
    assert Names(got) == Names(fs);
    forall i | 0 <= i < |fs|
      ensures got[i] == Field(i, fs[i].name, fs[i].typ, fs[i].memo, [], 0)
    {
      assert got[i].name == Names(got)[i];
      assert ItemOr(Split(h[5], split), i, []) == [];
      assert ToInt([]) == 0;
    }
  }

  /** Sync writes the header lines unescaped; they read back as written when
      no name, type or memo holds a newline. */
  lemma SyncHeaderLines(fs: seq<Field>, split: Bytes)
    requires '\n' !in split
    requires forall i :: 0 <= i < |fs| ==> '\n' !in fs[i].name && '\n' !in fs[i].typ && '\n' !in fs[i].memo
    ensures forall line :: line in SyncHeader(fs, split) ==> '\n' !in line
  {
    var empties := Empties(|fs|);
    assert '\n' !in StartMark && '\n' !in EndMark;
    JoinAvoids<byte>(Names(fs), split, '\n');
    JoinAvoids<byte>(Types(fs), split, '\n');
    JoinAvoids<byte>(empties, split, '\n');
    JoinAvoids<byte>(Memos(fs), split, '\n');
  }

  /** With the default delimiter, whose first byte is also its last, a column
      name that ends in a space and 0xFF does not survive: the names
      [" \xFF", "x"] decode as ["", "\xFF x"]. */
  lemma BorderNameDoesNotRoundTrip()
    ensures var fs := [Field(0, [' ', 0xFF as char], StringType, [], [], 0), Field(1, ['x'], StringType, [], [], 0)];
            Split(Join(Names(fs), DefaultSplit), DefaultSplit) == [[], [0xFF as char, ' ', 'x']]
  {
    var a: Bytes := [' ', 0xFF as char];
    var b: Bytes := ['x'];
    var fs := [Field(0, a, StringType, [], [], 0), Field(1, b, StringType, [], [], 0)];
    assert Names(fs) == [a] + [b];
    JoinCons(a, [b], DefaultSplit);
    var s := Join(Names(fs), DefaultSplit);
    assert s == [' ', 0xFF as char, ' ', 0xFF as char, ' ', 'x'];
    assert MatchAt(s, DefaultSplit, 0);
    IndexOfIsFirst(s, DefaultSplit, 0);
    var rest := s[3..];
    assert rest == [0xFF as char, ' ', 'x'];
    assert !Contains(rest, DefaultSplit) by {
      forall k | 0 <= k <= |rest| - |DefaultSplit|
        ensures !MatchAt(rest, DefaultSplit, k)
      {
        assert k == 0;
        assert rest[0] != DefaultSplit[0];
      }
    }
    SplitStep(s, DefaultSplit, 0);
  }

  /** Fields.Map: each name to its column; a later column wins over an
      earlier one of the same name. */
  function NameMap(fs: seq<Field>): (m: map<Bytes, Field>)
    ensures m.Keys == set k | k in Names(fs)
    ensures forall i :: 0 <= i < |fs| && LastNamed(fs, i) ==> fs[i].name in m && m[fs[i].name] == fs[i]
    ensures forall k :: k in m ==> exists i :: 0 <= i < |fs| && m[k] == fs[i] && fs[i].name == k && LastNamed(fs, i)
  {
    var m := map k | k in Names(fs) :: fs[LastIndex(Names(fs), k).value];
    LastNamedIn(fs, m);
    NamedLast(fs, m);
    m
  }

  /** Every column that is the last of its name is what the map built by
      NameMap holds for that name. */
  lemma LastNamedIn(fs: seq<Field>, m: map<Bytes, Field>)
    requires m == map k | k in Names(fs) :: fs[LastIndex(Names(fs), k).value]
    ensures forall i :: 0 <= i < |fs| && LastNamed(fs, i) ==> fs[i].name in m && m[fs[i].name] == fs[i]
  {
    var names := Names(fs);
    forall i | 0 <= i < |fs| && LastNamed(fs, i)
      ensures fs[i].name in m && m[fs[i].name] == fs[i]
    {
      assert names[i] == fs[i].name;
      var j := LastIndex(names, fs[i].name).value;
      assert names[j] == fs[i].name;
    }
  }

  /** Every entry of the map built by NameMap is the last column of its name. */
  lemma NamedLast(fs: seq<Field>, m: map<Bytes, Field>)
    requires m == map k | k in Names(fs) :: fs[LastIndex(Names(fs), k).value]
    ensures forall k :: k in m ==> exists i :: 0 <= i < |fs| && m[k] == fs[i] && fs[i].name == k && LastNamed(fs, i)
  {
    var names := Names(fs);
    forall k | k in m
      ensures exists i :: 0 <= i < |fs| && m[k] == fs[i] && fs[i].name == k && LastNamed(fs, i)
    {
      var j := LastIndex(names, k).value;
      assert names[j] == k;
      assert LastNamed(fs, j) by {
        forall l | j < l < |fs|
          ensures fs[l].name != fs[j].name
        {
          assert names[l] != k;
        }
      }
    }
  }

  function Indices(fs: seq<Field>): (r: seq<int>)
    ensures |r| == |fs| && forall i :: 0 <= i < |fs| ==> r[i] == fs[i].index
  {
    seq(|fs|, i requires 0 <= i < |fs| => fs[i].index)
  }

  /** Fields.MapIndex: each position to its column, a later one winning. */
  function IndexMap(fs: seq<Field>): (m: map<int, Field>)
    ensures m.Keys == set x | x in Indices(fs)
    ensures forall x :: x in m ==> m[x].index == x
  {
    var xs := Indices(fs);
    map x | x in xs :: fs[LastIndex(xs, x).value]
  }

  /** Fields.MapIndex maps each index to a column of the table: the last
      one carrying that index. */
  lemma IndexMapLast(fs: seq<Field>)
    ensures forall x :: x in IndexMap(fs) ==>
              exists i :: 0 <= i < |fs| && IndexMap(fs)[x] == fs[i] && forall j :: i < j < |fs| ==> fs[j].index != x
  {
    var xs := Indices(fs);
    forall x | x in IndexMap(fs)
      ensures exists i :: 0 <= i < |fs| && IndexMap(fs)[x] == fs[i] && forall j :: i < j < |fs| ==> fs[j].index != x
    {
      var i := LastIndex(xs, x).value;
      assert xs[i] == x;
      forall j | i < j < |fs|
        ensures fs[j].index != x
      {
        assert xs[j] != x;
      }
    }
  }

  /** In a positional table, position i maps to column i and to nothing else. */
  lemma IndexMapPositional(fs: seq<Field>)
    requires Positional(fs)
    ensures forall x :: x in IndexMap(fs) <==> 0 <= x < |fs|
    ensures forall i :: 0 <= i < |fs| ==> IndexMap(fs)[i] == fs[i]
  {
    var xs := Indices(fs);
    forall x | x in IndexMap(fs)
      ensures 0 <= x < |fs|
    {
      var i :| 0 <= i < |xs| && xs[i] == x;
    }
    forall i | 0 <= i < |fs|
      ensures i in IndexMap(fs) && IndexMap(fs)[i] == fs[i]
    {
      assert xs[i] == i;
      var j := LastIndex(xs, i).value;
      assert xs[j] == j;
    }
  }

  /** The loop of DecodeData2 over the cells of a line: a cell whose
      position names a column gives that column, with the cell as its
      value; a later cell wins over an earlier one for the same name. */
  function DecodeCells(idx: map<int, Field>, cells: seq<Bytes>): map<Bytes, Field>
    decreases |cells|
  {
    if |cells| == 0 then map[]
    else
      var i := |cells| - 1;
      var m := DecodeCells(idx, cells[..i]);
      if i in idx then m[idx[i].name := idx[i].(value := cells[i])] else m
  }

  /** Table.DecodeData2: the row a data line holds, keyed by column name. */
  function DecodeData2(t: Table, data: Bytes, split: Bytes): map<Bytes, Field>
    requires |split| > 0
  {
    DecodeCells(IndexMap(t.fields), Split(data, split))
  }

  /** Column `i` is the last of the first `n` to carry its name. */
  predicate LastNamedWithin(fs: seq<Field>, n: nat, i: nat)
    requires i < n <= |fs|
  {
    forall j :: i < j < n ==> fs[j].name != fs[i].name
  }

  lemma DecodeCellsStep(fs: seq<Field>, cells: seq<Bytes>)
    requires Positional(fs) && 0 < |cells| <= |fs|
    ensures var n := |cells| - 1;
            DecodeCells(IndexMap(fs), cells) == DecodeCells(IndexMap(fs), cells[..n])[fs[n].name := fs[n].(value := cells[n])]
  {
    IndexMapPositional(fs);
  }

  lemma {:induction false} DecodeCellsKeys(fs: seq<Field>, cells: seq<Bytes>)
    requires Positional(fs) && |cells| <= |fs|
    ensures forall k :: k in DecodeCells(IndexMap(fs), cells) <==> exists i :: 0 <= i < |cells| && fs[i].name == k
    decreases |cells|
  {
    if |cells| > 0 {
      var n := |cells| - 1;
      DecodeCellsKeys(fs, cells[..n]);
      DecodeCellsStep(fs, cells);
    }
  }

  lemma {:induction false} DecodeCellsValues(fs: seq<Field>, cells: seq<Bytes>)
    requires Positional(fs) && |cells| <= |fs|
    ensures forall i :: 0 <= i < |cells| && LastNamedWithin(fs, |cells|, i) ==>
              fs[i].name in DecodeCells(IndexMap(fs), cells)
              && DecodeCells(IndexMap(fs), cells)[fs[i].name] == fs[i].(value := cells[i])
    decreases |cells|
  {
    if |cells| > 0 {
      var n := |cells| - 1;
      var init := cells[..n];
      DecodeCellsValues(fs, init);
      DecodeCellsStep(fs, cells);
      var prev := DecodeCells(IndexMap(fs), init);
      var d := DecodeCells(IndexMap(fs), cells);
      var key := fs[n].name;
      assert d == prev[key := fs[n].(value := cells[n])];
      forall i | 0 <= i < |cells| && LastNamedWithin(fs, |cells|, i)
        ensures fs[i].name in d && d[fs[i].name] == fs[i].(value := cells[i])
      {
        if i < n {
          assert LastNamedWithin(fs, n, i);
          assert init[i] == cells[i];
          assert key != fs[i].name;
          assert fs[i].name in prev && prev[fs[i].name] == fs[i].(value := init[i]);
        }
      }
    }
  }

  lemma DecodeCellsPositional(fs: seq<Field>, cells: seq<Bytes>)
    requires Positional(fs) && |cells| <= |fs|
    ensures forall k :: k in DecodeCells(IndexMap(fs), cells) <==> exists i :: 0 <= i < |cells| && fs[i].name == k
    ensures forall i :: 0 <= i < |cells| && LastNamedWithin(fs, |cells|, i) ==>
              DecodeCells(IndexMap(fs), cells)[fs[i].name] == fs[i].(value := cells[i])
  {
    DecodeCellsKeys(fs, cells);
    DecodeCellsValues(fs, cells);
  }

  /** Cells at positions no column has change nothing. */
  lemma {:induction false} DecodeCellsBeyond(idx: map<int, Field>, cells: seq<Bytes>, n: nat)
    requires n <= |cells|
    requires forall i :: n <= i < |cells| ==> i !in idx
    ensures DecodeCells(idx, cells) == DecodeCells(idx, cells[..n])
    decreases |cells|
  {
    if |cells| > n {
      var init := cells[..|cells| - 1];
      assert init[..n] == cells[..n];
      DecodeCellsBeyond(idx, init, n);
    } else {
      assert cells[..n] == cells;
    }
  }

  /** The cells of a line beyond the last column are dropped; each of the
      others becomes the value of the column at its position (the last of
      them when a name repeats). */
  lemma DecodeData2Columns(t: Table, data: Bytes, split: Bytes)
    requires |split| > 0 && Positional(t.fields)
    ensures var cells := Split(data, split);
            var n := Min(|cells|, |t.fields|);
            (forall k :: k in DecodeData2(t, data, split) <==> exists i :: 0 <= i < n && t.fields[i].name == k)
            && forall i :: 0 <= i < n && LastNamedWithin(t.fields, n, i) ==>
                 DecodeData2(t, data, split)[t.fields[i].name] == t.fields[i].(value := cells[i])
  {
    var fs := t.fields;
    var cells := Split(data, split);
    var n := Min(|cells|, |fs|);
    var head := cells[..n];
    IndexMapPositional(fs);
    DecodeCellsBeyond(IndexMap(fs), cells, n);
    var m := DecodeData2(t, data, split);
    assert m == DecodeCells(IndexMap(fs), head);
    DecodeCellsPositional(fs, head);
    assert forall i :: 0 <= i < n ==> head[i] == cells[i];
  }

  /** The text of each column of a decoded row. */
  function Values(row: map<Bytes, Field>): (m: map<Bytes, Bytes>)
    ensures m.Keys == row.Keys && forall k :: k in m ==> m[k] == row[k].value
  {
    map k | k in row :: row[k].value
  }

  /** The cells Table.EncodeData fills: one per column, holding the value of
      the column's name when that column is the one Fields.Map picks for
      it, and empty otherwise. */
  function Slots(fs: seq<Field>, values: map<Bytes, Bytes>): (r: seq<Bytes>)
    requires Positional(fs)
    ensures |r| == |fs|
    ensures forall j :: 0 <= j < |fs| ==>
              r[j] == if fs[j].name in values && LastNamed(fs, j) then values[fs[j].name] else []
  {
    var nm := NameMap(fs);
    var r := seq(|fs|, j requires 0 <= j < |fs| =>
      if fs[j].name in values && nm[fs[j].name].index == j then values[fs[j].name] else []);
    forall j | 0 <= j < |fs|
      ensures nm[fs[j].name].index == j <==> LastNamed(fs, j)
    {
      var i :| 0 <= i < |fs| && nm[fs[j].name] == fs[i] && fs[i].name == fs[j].name && LastNamed(fs, i);
    }
    r
  }

  /** Table.EncodeData, with one cell per column (see Findings in the README):
      the data line for a row of column values; keys that name no column are
      ignored. */
  function EncodeData(t: Table, values: map<Bytes, Bytes>, split: Bytes): Bytes
    requires Positional(t.fields)
  {
    Join(Slots(t.fields, values), split)
  }

  /** Some value's column sits at or past the number of cells the written
      EncodeData allocates, one per distinct name. */
  predicate OutOfRange(nm: map<Bytes, Field>, values: map<Bytes, Bytes>) {
    exists k :: k in values && k in nm && nm[k].index >= |nm|
  }

  /** Table.EncodeData as written: the line gets one cell per distinct column
      name, and a value whose column sits at or past that count is stored
      out of range, which panics (None here). */
  function EncodeDataAsWritten(t: Table, values: map<Bytes, Bytes>, split: Bytes): (r: Option<Bytes>)
    requires Positional(t.fields)
    ensures r.None? <==> OutOfRange(NameMap(t.fields), values)
  {
    var nm := NameMap(t.fields);
    DistinctCount(Names(t.fields));
    if OutOfRange(nm, values) then None
    else Some(Join(Slots(t.fields, values)[..|nm|], split))
  }

  /** Two columns named alike make the written EncodeData panic on a value
      for that name, where the corrected one writes it in the later
      column's cell. */
  lemma DuplicateNamePanics()
    ensures var t := Table([Field(0, "a", StringType, [], [], 0), Field(1, "a", StringType, [], [], 0)]);
            var values := map["a" := "v"];
            EncodeDataAsWritten(t, values, DefaultSplit).None?
            && EncodeData(t, values, DefaultSplit) == DefaultSplit + "v"
  {
    var a: Bytes := "a";
    var v: Bytes := "v";
    var fs := [Field(0, a, StringType, [], [], 0), Field(1, a, StringType, [], [], 0)];
    var values := map[a := v];
    var nm := NameMap(fs);
    assert Names(fs) == [a, a];
    assert nm.Keys == {a};
    assert LastNamed(fs, 1);
    assert nm[a] == fs[1];
    assert OutOfRange(nm, values);
    assert !LastNamed(fs, 0);
    var slots := Slots(fs, values);
    assert slots == [[]] + [v];
    JoinCons(slots[0], [v], DefaultSplit);
  }

  /** When column names are distinct the written EncodeData does not panic
      and agrees with the corrected one. */
  lemma EncodeDataAgrees(t: Table, values: map<Bytes, Bytes>, split: Bytes)
    requires Positional(t.fields) && DistinctNames(t.fields)
    ensures EncodeDataAsWritten(t, values, split) == Some(EncodeData(t, values, split))
  {
    var fs := t.fields;
    var nm := NameMap(fs);
    NameMapSize(fs);
    assert !OutOfRange(nm, values) by {
      forall k | k in values && k in nm
        ensures nm[k].index < |nm|
      {
        var i :| 0 <= i < |fs| && nm[k] == fs[i] && fs[i].name == k && LastNamed(fs, i);
      }
    }
    var slots := Slots(fs, values);
    assert slots[..|nm|] == slots;
  }

  /** Distinct names give one map entry per column. */
  lemma NameMapSize(fs: seq<Field>)
    requires DistinctNames(fs)
    ensures |NameMap(fs)| == |fs|
  {
    var names := Names(fs);
    DistinctCount(names);
    assert NameMap(fs).Keys == set k | k in names;
  }

  /** Writing a row and decoding the line gives back the value of every
      column whose name the row has, provided the cells survive Split after
      Join; every column is present in the decoded row. */
  lemma EncodeThenDecode(t: Table, values: map<Bytes, Bytes>, split: Bytes)
    requires |split| > 0 && Positional(t.fields) && |t.fields| >= 1
    requires SplitSafe(Slots(t.fields, values), split)
    ensures var row := DecodeData2(t, EncodeData(t, values, split), split);
            (forall k :: k in row <==> exists i :: 0 <= i < |t.fields| && t.fields[i].name == k)
            && forall k :: k in values && k in row ==> row[k].value == values[k]
  {
    var line := EncodeData(t, values, split);
    EncodedCells(t, values, split);
    DecodeData2Columns(t, line, split);
    var row := DecodeData2(t, line, split);
    forall k | k in values && k in row
      ensures row[k].value == values[k]
    {
      ReadBackValue(t, values, split, k);
    }
  }

  /** The cells of a written line, split again, are the slots it was
      written from, one per column. */
  lemma EncodedCells(t: Table, values: map<Bytes, Bytes>, split: Bytes)
    requires |split| > 0 && Positional(t.fields) && |t.fields| >= 1
    requires SplitSafe(Slots(t.fields, values), split)
    ensures Split(EncodeData(t, values, split), split) == Slots(t.fields, values)
    ensures |Slots(t.fields, values)| == |t.fields|
  {
    SplitSafeJoin(Slots(t.fields, values), split);
  }

  /** Every key of a decoded row is the name of a column. */
  lemma DecodedKeysNamed(t: Table, data: Bytes, split: Bytes)
    requires |split| > 0 && Positional(t.fields)
    ensures forall k :: k in DecodeData2(t, data, split) ==> exists i :: 0 <= i < |t.fields| && t.fields[i].name == k
  {
    DecodeData2Columns(t, data, split);
  }

  /** A row written with column `id` set to `text` reads back with `text`
      in that column and the row's own value in every other. */
  lemma SetColumnReadsBack(t: Table, row: map<Bytes, Bytes>, id: Bytes, text: Bytes, split: Bytes)
    requires |split| > 0 && Positional(t.fields) && |t.fields| >= 1
    requires SplitSafe(Slots(t.fields, row[id := text]), split)
    requires exists i :: 0 <= i < |t.fields| && t.fields[i].name == id
    ensures var back := DecodeData2(t, EncodeData(t, row[id := text], split), split);
            && id in back && back[id].value == text
            && forall k :: k in row && k in back && k != id ==> back[k].value == row[k]
  {
    var values := row[id := text];
    var back := DecodeData2(t, EncodeData(t, values, split), split);
    assert id in back && back[id].value == text by {
      EncodedValue(t, values, split, id);
    }
    forall k | k in row && k in back && k != id
      ensures back[k].value == row[k]
    {
      ReadBackValue(t, values, split, k);
    }
  }

  /** A value whose name some column carries reads back from the line. */
  lemma EncodedValue(t: Table, values: map<Bytes, Bytes>, split: Bytes, k: Bytes)
    requires |split| > 0 && Positional(t.fields) && |t.fields| >= 1
    requires SplitSafe(Slots(t.fields, values), split)
    requires k in values && exists i :: 0 <= i < |t.fields| && t.fields[i].name == k
    ensures var row := DecodeData2(t, EncodeData(t, values, split), split);
            k in row && row[k].value == values[k]
  {
    EncodeThenDecode(t, values, split);
  }

  /** A value present in the decoded row reads back as written. */
  lemma ReadBackValue(t: Table, values: map<Bytes, Bytes>, split: Bytes, k: Bytes)
    requires |split| > 0 && Positional(t.fields) && |t.fields| >= 1
    requires SplitSafe(Slots(t.fields, values), split)
    requires k in values && k in DecodeData2(t, EncodeData(t, values, split), split)
    ensures DecodeData2(t, EncodeData(t, values, split), split)[k].value == values[k]
  {
    var fs := t.fields;
    var slots := Slots(fs, values);
    var line := EncodeData(t, values, split);
    EncodedCells(t, values, split);
    DecodeData2Columns(t, line, split);
    var j := LastColumn(fs, k);
    assert LastNamedWithin(fs, |fs|, j);
    assert DecodeData2(t, line, split)[k] == fs[j].(value := slots[j]);
  }

  /** The last column carrying a name that some column carries. */
  lemma LastColumn(fs: seq<Field>, k: Bytes) returns (j: nat)
    requires exists i :: 0 <= i < |fs| && fs[i].name == k
    ensures j < |fs| && fs[j].name == k && LastNamed(fs, j)
  {
    var names := Names(fs);
    var i :| 0 <= i < |fs| && fs[i].name == k;
    assert names[i] == k;
    j := LastIndex(names, k).value;
    forall l | j < l < |fs|
      ensures fs[l].name != fs[j].name
    {
      assert names[l] != k;
    }
  }

  /** Decoding a line with one cell per column and writing the row back
      gives the same line, when column names are distinct. */
  lemma DecodeThenEncode(t: Table, data: Bytes, split: Bytes)
    requires |split| > 0 && Positional(t.fields) && DistinctNames(t.fields)
    requires |Split(data, split)| == |t.fields|
    ensures EncodeData(t, Values(DecodeData2(t, data, split)), split) == data
  {
    DecodedSlots(t, data, split);
    JoinSplit(data, split);
  }

  /** With distinct names and one cell per column, the cells EncodeData
      fills from a decoded row are the line's own cells. */
  lemma DecodedSlots(t: Table, data: Bytes, split: Bytes)
    requires |split| > 0 && Positional(t.fields) && DistinctNames(t.fields)
    requires |Split(data, split)| == |t.fields|
    ensures Slots(t.fields, Values(DecodeData2(t, data, split))) == Split(data, split)
  {
    var fs := t.fields;
    var cells := Split(data, split);
    DecodeData2Columns(t, data, split);
    var row := DecodeData2(t, data, split);
    var slots := Slots(fs, Values(row));
    forall j | 0 <= j < |fs|
      ensures slots[j] == cells[j]
    {
      assert LastNamed(fs, j) && LastNamedWithin(fs, |fs|, j);
      assert fs[j].name in row;
    }
  }

  /** Go's string order: bytewise lexicographic, a proper prefix first. */
  predicate LexLess(a: Bytes, b: Bytes)
    decreases |a|
  {
    |b| > 0 && (|a| == 0 || a[0] < b[0] || (a[0] == b[0] && LexLess(a[1..], b[1..])))
  }

  lemma {:induction false} LexTotal(a: Bytes, b: Bytes)
    ensures a == b || LexLess(a, b) || LexLess(b, a)
    ensures !(LexLess(a, b) && LexLess(b, a))
    decreases |a|
  {
    if |a| > 0 && |b| > 0 && a[0] == b[0] {
      LexTotal(a[1..], b[1..]);
      if a[1..] == b[1..] {
        assert a == [a[0]] + a[1..] && b == [b[0]] + b[1..];
      }
    }
  }

  /** How a column's text stands to the argument under the column's type:
      -1, 0 or 1. Integer and float columns compare the numbers the texts
      spell; every other type compares the texts. */
  function Order(typ: Bytes, a: Bytes, b: Bytes): (c: int)
    ensures -1 <= c <= 1
    ensures typ == IntType ==> (c < 0 <==> ToInt(a) < ToInt(b)) && (c == 0 <==> ToInt(a) == ToInt(b))
    ensures typ == FloatType ==> (c < 0 <==> ToReal(a) < ToReal(b)) && (c == 0 <==> ToReal(a) == ToReal(b))
    ensures typ != IntType && typ != FloatType ==> (c < 0 <==> LexLess(a, b)) && (c == 0 <==> a == b)
  {
    if typ == IntType then (if ToInt(a) < ToInt(b) then -1 else if ToInt(a) == ToInt(b) then 0 else 1)
    else if typ == FloatType then (if ToReal(a) < ToReal(b) then -1 else if ToReal(a) == ToReal(b) then 0 else 1)
    else
      LexTotal(a, b);
      if LexLess(a, b) then -1 else if a == b then 0 else 1
  }

  const Like: Bytes := "like"
  const SpacedLike: Bytes := " like "
  const Eq: Bytes := "="
  const Gt: Bytes := ">"
  const Ge: Bytes := ">="
  const Lt: Bytes := "<"
  const Le: Bytes := "<="

  /** Field.compare: a missing column matches nothing; "like" is substring
      search on the text; the order operators compare under the column's
      type; any other operator matches nothing. */
  function Compare(f: Option<Field>, op: Bytes, arg: Bytes): (r: bool)
    ensures f.None? ==> !r
    ensures f.Some? && (op == Like || op == SpacedLike) ==> (r <==> Contains(f.value.value, arg))
    ensures op !in {Like, SpacedLike, Eq, Gt, Ge, Lt, Le} ==> !r
  {
    match f
    case None => false
    case Some(fd) =>
      if op == Like || op == SpacedLike then Contains(fd.value, arg)
      else
        var c := Order(fd.typ, fd.value, arg);
        if op == Eq then c == 0
        else if op == Gt then c > 0
        else if op == Ge then c >= 0
        else if op == Lt then c < 0
        else if op == Le then c <= 0
        else false
  }

  /** The order operators of a present column are complementary pairs and
      "=" holds exactly when neither strict order does. */
  lemma CompareComplements(fd: Field, arg: Bytes)
    ensures Compare(Some(fd), Gt, arg) <==> !Compare(Some(fd), Le, arg)
    ensures Compare(Some(fd), Lt, arg) <==> !Compare(Some(fd), Ge, arg)
    ensures Compare(Some(fd), Eq, arg) <==> !Compare(Some(fd), Lt, arg) && !Compare(Some(fd), Gt, arg)
  {
  }

  /** Integer columns compare numerically: "10" is above "9". */
  lemma IntColumnsCompareNumerically(fd: Field, arg: Bytes)
    requires fd.typ == IntType
    ensures Compare(Some(fd), Lt, arg) <==> ToInt(fd.value) < ToInt(arg)
    ensures Compare(Some(fd), Eq, arg) <==> ToInt(fd.value) == ToInt(arg)
  {
  }

  /** Columns of every type other than int and float compare their texts
      in Go's string order: bytewise, a proper prefix first. */
  lemma TextColumnsCompareLex(fd: Field, arg: Bytes)
    requires fd.typ != IntType && fd.typ != FloatType
    ensures Compare(Some(fd), Lt, arg) <==> LexLess(fd.value, arg)
    ensures Compare(Some(fd), Eq, arg) <==> fd.value == arg
    ensures Compare(Some(fd), Gt, arg) <==> LexLess(arg, fd.value)
    ensures Compare(Some(fd), Le, arg) <==> !LexLess(arg, fd.value)
    ensures Compare(Some(fd), Ge, arg) <==> !LexLess(fd.value, arg)
  {
    LexTotal(fd.value, arg);
  }

  /** String columns compare bytewise: "10" is below "9". */
  lemma StringColumnsCompareBytewise()
    ensures Compare(Some(Field(0, [], StringType, [], "10", 0)), Lt, "9")
    ensures !Compare(Some(Field(0, [], IntType, [], "10", 0)), Lt, "9")
  {
    assert LexLess("10", "9");
    ParseIntText(10);
    ParseIntText(9);
    assert IntText(10) == "10" && IntText(9) == "9";
  }

  /** DB.getID: reads the clock (`now(tick)` is the reading at the `tick`th
      call) until it is past the last issued key, and issues that reading. */
  method GetId(now: nat -> int, tick: nat, last: int) returns (id: int, next: nat)
    requires exists t: nat :: tick <= t && now(t) > last
    ensures id > last && tick < next && id == now(next - 1)
    ensures forall t :: tick <= t < next - 1 ==> now(t) <= last
  {
    ghost var w: nat :| tick <= w && now(w) > last;
    next := tick;
    while now(next) <= last
      invariant tick <= next <= w
      invariant forall t :: tick <= t < next ==> now(t) <= last
      decreases w - next
    {
      next := next + 1;
    }
    id := now(next);
    next := next + 1;
  }
}

=== FILE: file.dfy ===
/** core/file.go: a table file as a list of '\n'-terminated lines, with
    newline escaping, paginated reading, appending, and the atomic rewrite
    (Update) that Del, DelBy and Insert are built on. File contents are byte
    strings; the lines of a file are the tokens its scanner cuts from them. A
    rewrite returns the new contents, or an error in which case the temporary
    file is never renamed and the old contents stay (Commit). */
module LineFile {
  import opened Base
  import opened Seqs
  import opened Scanner

  /** The line separator (File.split). */
  const NL: Bytes := ['\n']

  /** What a newline inside a line is written as (File.escapeSplit): the three
      bytes of the Go raw string `\\n`. */
  const EscapedNL: Bytes := ['\\', '\\', 'n']

  /** File.escape: every newline replaced, so the result is a single line. */
  function Escape(bs: Bytes): (r: Bytes)
    ensures '\n' !in r
  {
    EscapeHasNoNewline(bs);
    ReplaceAll(bs, NL, EscapedNL)
  }

  lemma EscapeHasNoNewline(bs: Bytes)
    ensures '\n' !in ReplaceAll(bs, NL, EscapedNL)
  {
    ReplaceAllIsJoinSplit(bs, NL, EscapedNL);
    var parts := Split(bs, NL);
    forall i | 0 <= i < |parts|
      ensures '\n' !in parts[i]
    {
      ContainsSingle<byte>(parts[i], '\n');
    }
    JoinAvoids(parts, EscapedNL, '\n');
  }

  /** File.unescape. */
  function Unescape(bs: Bytes): Bytes
  {
    ReplaceAll(bs, EscapedNL, NL)
  }

  lemma EscapedNLBorderFree()
    ensures BorderFree(EscapedNL)
  {
    assert EscapedNL[1..] != EscapedNL[..2] by { assert EscapedNL[1..][1] == 'n'; }
    assert EscapedNL[2..] != EscapedNL[..1] by { assert EscapedNL[2..][0] == 'n'; }
  }

  /** Escaping round trip: what was escaped unescapes to itself, provided it
      did not already hold the escape sequence `\\n`. */
  lemma UnescapeEscape(bs: Bytes)
    requires !Contains(bs, EscapedNL)
    ensures Unescape(Escape(bs)) == bs
  {
    var parts := Split(bs, NL);
    ReplaceAllIsJoinSplit(bs, NL, EscapedNL);
    ReplaceAllIsJoinSplit(Join(parts, EscapedNL), EscapedNL, NL);
    SplitPiecesAvoid(bs, NL, EscapedNL);
    EscapedNLBorderFree();
    forall i | 0 <= i < |parts|
      ensures Separable(parts[i], EscapedNL)
    {
      BorderFreeSeparable(parts[i], EscapedNL);
    }
    SplitJoin(parts, EscapedNL);
    JoinSplit(bs, NL);
  }

  /** The other direction: a line read from the file (so without a newline)
      comes back byte for byte when unescaped and escaped again. */
  lemma EscapeUnescape(t: Bytes)
    requires '\n' !in t
    ensures Escape(Unescape(t)) == t
  {
    var parts := Split(t, EscapedNL);
    ReplaceAllIsJoinSplit(t, EscapedNL, NL);
    ReplaceAllIsJoinSplit(Join(parts, NL), NL, EscapedNL);
    ContainsSingle<byte>(t, '\n');
    SplitPiecesAvoid(t, EscapedNL, NL);
    forall i | 0 <= i < |parts|
      ensures Separable(parts[i], NL)
    {
      ContainsSingle<byte>(parts[i], '\n');
      SingleSeparable<byte>(parts[i], '\n');
    }
    SplitJoin(parts, NL);
    JoinSplit(t, EscapedNL);
  }

  /** A line without newline is written unchanged. */
  lemma EscapeKeepsPlainLine(t: Bytes)
    requires '\n' !in t
    ensures Escape(t) == t
  {
    ContainsSingle<byte>(t, '\n');
  }

  function EscapeAll(ls: seq<Bytes>): (r: seq<Bytes>)
    ensures |r| == |ls|
    ensures forall i :: 0 <= i < |r| ==> r[i] == Escape(ls[i])
  {
    seq(|ls|, i requires 0 <= i < |ls| => Escape(ls[i]))
  }

  lemma EscapeAllSingle(p: Bytes)
    ensures EscapeAll([p]) == [Escape(p)]
  {
  }

  /** The lines the custom scanner (NewScanner with '\n') cuts from a file. */
  function LinesOf(content: Bytes): (r: seq<Bytes>)
    ensures forall i :: 0 <= i < |r| ==> '\n' !in r[i]
  {
    var r := Tokens(content, NL);
    forall i | 0 <= i < |r|
      ensures '\n' !in r[i]
    {
      ContainsSingle<byte>(r[i], '\n');
    }
    r
  }

  /** Writing lines without newline and reading them back gives the same lines. */
  lemma ReadBack(ls: seq<Bytes>)
    requires forall i :: 0 <= i < |ls| ==> '\n' !in ls[i]
    ensures LinesOf(Frame(ls, NL)) == ls
  {
    forall i | 0 <= i < |ls|
      ensures Separable(ls[i], NL)
    {
      SingleSeparable<byte>(ls[i], '\n');
    }
    TokensOfFrame(ls, NL);
  }

  /** bufio.ScanLines, used by Range: one trailing carriage return is dropped. */
  function DropCR(t: Bytes): Bytes {
    if |t| > 0 && t[|t| - 1] == '\r' then t[..|t| - 1] else t
  }

  /** The lines File.Range shows its callback: the default bufio line scanner
      (lines cut at '\n', one trailing '\r' dropped), each unescaped. */
  function View(content: Bytes): (r: seq<Bytes>)
    ensures |r| == |LinesOf(content)|
    ensures forall i :: 0 <= i < |r| ==> r[i] == Unescape(DropCR(LinesOf(content)[i]))
  {
    var ls := LinesOf(content);
    seq(|ls|, i requires 0 <= i < |ls| => Unescape(DropCR(ls[i])))
  }

  /** File.Range: how many lines the callback saw; it stops after the first
      `false`. The file is assumed to exist; the Range error is always nil then. */
  function FileRange(content: Bytes, fn: (nat, Bytes) -> bool): (visited: nat)
    ensures visited <= |View(content)|
    ensures forall j :: 0 <= j < visited - 1 ==> fn(j, View(content)[j])
    ensures visited < |View(content)| ==> visited > 0 && !fn(visited - 1, View(content)[visited - 1])
  {
    Range(View(content), (i: nat, bs: Bytes) => Visit(fn(i, bs), None)).visited
  }

  /** File.Limit: Scanner.Limit's pagination over the lines File.Range shows. */
  method FileLimit<V>(content: Bytes, fn: (nat, Bytes) -> Option<V>, size: int, offset: Option<int>)
    returns (result: seq<V>)
    ensures result == Page(Found(View(content), fn, |View(content)|), size, offset)
  {
    var consumed;
    result, consumed := Limit(View(content), fn, size, offset);
  }

  /** What the open hook hands back: the header lines to re-emit, and the
      lines the scanner has not consumed yet. */
  datatype Opened = Opened(header: seq<Bytes>, rest: seq<Bytes>)

  /** The open hook (File.OnOpen), run on the scanner before any other work. */
  type Hook = seq<Bytes> -> Result<Opened>

  function Open(hook: Option<Hook>, lines: seq<Bytes>): Result<Opened> {
    match hook
    case None => Ok(Opened([], lines))
    case Some(h) => h(lines)
  }

  /** The loop of File.Update from line `i` on. The callback sees the
      unescaped line with its index among the lines after the hook; a state
      `S` stands for what its Go closure captures and mutates. */
  function Rewrite<S>(lines: seq<Bytes>, i: nat, st: S, fn: (S, nat, Bytes) -> Result<(S, seq<Bytes>)>)
    : Result<seq<Bytes>>
    requires i <= |lines|
    decreases |lines| - i
  {
    if i == |lines| then Ok([])
    else match fn(st, i, Unescape(lines[i]))
      case Err(e) => Err(e)
      case Ok(step) =>
        match Rewrite(lines, i + 1, step.0, fn)
        case Err(e) => Err(e)
        case Ok(tail) => Ok(step.1 + tail)
  }

  /** File.Update: on success, the new file contents (the temporary file that
      is renamed over the original): the hook's header lines, then each line's
      replacements in order, every one escaped and newline-terminated. */
  function Update<S>(content: Bytes, hook: Option<Hook>, st: S, fn: (S, nat, Bytes) -> Result<(S, seq<Bytes>)>)
    : (r: Result<Bytes>)
    ensures r.Ok? ==> exists o: Opened, out: seq<Bytes> ::
                        Open(hook, LinesOf(content)) == Ok(o)
                        && Rewrite(o.rest, 0, st, fn) == Ok(out)
                        && r.value == Frame(EscapeAll(o.header + out), NL)
    ensures Open(hook, LinesOf(content)).Err? ==> r == Err(Open(hook, LinesOf(content)).error)
  {
    match Open(hook, LinesOf(content))
    case Err(e) => Err(e)
    case Ok(o) =>
      match Rewrite(o.rest, 0, st, fn)
      case Err(e) => Err(e)
      case Ok(out) => Ok(Frame(EscapeAll(o.header + out), NL))
  }

  /** The deferred rename: only a successful rewrite replaces the file. */
  function Commit(content: Bytes, r: Result<Bytes>): Bytes {
    if r.Ok? then r.value else content
  }

  /** A callback that keeps no state, as Del, DelBy and Insert pass. */
  function Lift(f: (nat, Bytes) -> Result<seq<Bytes>>): ((), nat, Bytes) -> Result<((), seq<Bytes>)> {
    (u: (), i: nat, bs: Bytes) =>
      match f(i, bs)
      case Ok(v) => Ok(((), v))
      case Err(e) => Err(e)
  }

  /** Reference meaning of a rewrite with a stateless callback: every
      callback succeeds and the output is their replacement lists in order,
      or the first failing callback's error. */
  function Replaced(lines: seq<Bytes>, i: nat, f: (nat, Bytes) -> Result<seq<Bytes>>): (r: Result<seq<Bytes>>)
    requires i <= |lines|
    ensures r.Ok? <==> forall j :: i <= j < |lines| ==> f(j, Unescape(lines[j])).Ok?
    decreases |lines| - i
  {
    if i == |lines| then Ok([])
    else match f(i, Unescape(lines[i]))
      case Err(e) => Err(e)
      case Ok(v) =>
        match Replaced(lines, i + 1, f)
        case Err(e) => Err(e)
        case Ok(tail) => Ok(v + tail)
  }

  lemma ReplacedStep(lines: seq<Bytes>, i: nat, f: (nat, Bytes) -> Result<seq<Bytes>>, v: seq<Bytes>)
    requires i < |lines|
    requires f(i, Unescape(lines[i])) == Ok(v)
    requires Replaced(lines, i + 1, f).Ok?
    ensures Replaced(lines, i, f) == Ok(v + Replaced(lines, i + 1, f).value)
  {
  }

  /** The rewrite fails with the error of the first failing callback. */
  lemma {:induction false} ReplacedFirstError(lines: seq<Bytes>, i: nat, f: (nat, Bytes) -> Result<seq<Bytes>>, k: nat)
    requires i <= k < |lines|
    requires f(k, Unescape(lines[k])).Err?
    requires forall j :: i <= j < k ==> f(j, Unescape(lines[j])).Ok?
    ensures Replaced(lines, i, f) == Err(f(k, Unescape(lines[k])).error)
    decreases k - i
  {
    if i < k {
      ReplacedFirstError(lines, i + 1, f, k);
    }
  }

  lemma {:induction false} RewriteLift(lines: seq<Bytes>, i: nat, f: (nat, Bytes) -> Result<seq<Bytes>>)
    requires i <= |lines|
    ensures Rewrite(lines, i, (), Lift(f)) == Replaced(lines, i, f)
    decreases |lines| - i
  {
    if i < |lines| {
      RewriteLift(lines, i + 1, f);
    }
  }

  /** If the hook or a callback fails, Update fails with that first error
      and the file is left as it was: the rename happens only on success. */
  lemma UpdateFailsOnFirstError(content: Bytes, hook: Option<Hook>, f: (nat, Bytes) -> Result<seq<Bytes>>)
    ensures Open(hook, LinesOf(content)).Err? ==>
              Update(content, hook, (), Lift(f)) == Err(Open(hook, LinesOf(content)).error)
    ensures Open(hook, LinesOf(content)).Ok? ==>
              var rest := Open(hook, LinesOf(content)).value.rest;
              forall k :: 0 <= k < |rest| && f(k, Unescape(rest[k])).Err?
                          && (forall j :: 0 <= j < k ==> f(j, Unescape(rest[j])).Ok?) ==>
                Update(content, hook, (), Lift(f)) == Err(f(k, Unescape(rest[k])).error)
    ensures Update(content, hook, (), Lift(f)).Err? ==> Commit(content, Update(content, hook, (), Lift(f))) == content
  {
    if Open(hook, LinesOf(content)).Ok? {
      var rest := Open(hook, LinesOf(content)).value.rest;
      RewriteLift(rest, 0, f);
      forall k | 0 <= k < |rest| && f(k, Unescape(rest[k])).Err?
                 && (forall j :: 0 <= j < k ==> f(j, Unescape(rest[j])).Ok?)
        ensures Update(content, hook, (), Lift(f)) == Err(f(k, Unescape(rest[k])).error)
      {
        ReplacedFirstError(rest, 0, f, k);
      }
    }
  }

  /** The line callback of File.Del. */
  function DeleteAt(k: int): (nat, Bytes) -> Result<seq<Bytes>> {
    (i: nat, bs: Bytes) => if k == i then Ok([]) else Ok([bs])
  }

  /** File.Del: rewrite dropping line `k`. */
  function Del(content: Bytes, hook: Option<Hook>, k: int): Result<Bytes> {
    Update(content, hook, (), Lift(DeleteAt(k)))
  }

  /** The line callback of File.Insert. */
  function InsertAt(k: int, data: Bytes): (nat, Bytes) -> Result<seq<Bytes>> {
    (i: nat, bs: Bytes) => if k != i then Ok([bs]) else Ok([data, bs])
  }

  /** File.Insert: rewrite with `data` placed before line `k`. */
  function Insert(content: Bytes, hook: Option<Hook>, k: int, data: Bytes): Result<Bytes> {
    Update(content, hook, (), Lift(InsertAt(k, data)))
  }

  /** The line callback of File.DelBy. */
  function DeleteWhere(p: (nat, Bytes) -> Result<bool>): (nat, Bytes) -> Result<seq<Bytes>> {
    (i: nat, bs: Bytes) =>
      match p(i, bs)
      case Err(e) => Err(e)
      case Ok(del) => if del then Ok([]) else Ok([bs])
  }

  /** File.DelBy: rewrite dropping the lines the predicate selects. */
  function DelBy(content: Bytes, hook: Option<Hook>, p: (nat, Bytes) -> Result<bool>): Result<Bytes> {
    Update(content, hook, (), Lift(DeleteWhere(p)))
  }

  lemma EscapeAllAppend(a: seq<Bytes>, b: seq<Bytes>)
    ensures EscapeAll(a + b) == EscapeAll(a) + EscapeAll(b)
  {
  }

  /** The lines from `i` on, without line `k`. */
  function Without<T>(lines: seq<T>, i: nat, k: int): seq<T>
    requires i <= |lines|
  {
    if i <= k < |lines| then lines[i..k] + lines[k + 1..] else lines[i..]
  }

  lemma {:induction false} DeleteAtLines(lines: seq<Bytes>, i: nat, k: int, f: (nat, Bytes) -> Result<seq<Bytes>>)
    requires forall j: nat, bs: Bytes :: f(j, bs) == DeleteAt(k)(j, bs)
    requires i <= |lines|
    requires forall j :: 0 <= j < |lines| ==> '\n' !in lines[j]
    ensures Replaced(lines, i, f).Ok?
    ensures EscapeAll(Replaced(lines, i, f).value) == Without(lines, i, k)
    decreases |lines| - i
  {
    if i < |lines| {
      DeleteAtLines(lines, i + 1, k, f);
      var tail := Replaced(lines, i + 1, f).value;
      var u := Unescape(lines[i]);
      if i == k {
        assert f(i, u) == Ok([]);
        ReplacedStep(lines, i, f, []);
        assert [] + tail == tail;
        assert lines[i..k] == [];
      } else {
        assert f(i, u) == Ok([u]);
        ReplacedStep(lines, i, f, [u]);
        EscapeAllAppend([u], tail);
        EscapeUnescape(lines[i]);
        assert EscapeAll([u]) == [lines[i]];
        WithoutStep(lines, i, k);
      }
    }
  }

  lemma WithoutStep<T>(lines: seq<T>, i: nat, k: int)
    requires i < |lines| && i != k
    ensures Without(lines, i, k) == [lines[i]] + Without(lines, i + 1, k)
  {
    if i < k < |lines| {
      assert lines[i..k] == [lines[i]] + lines[i + 1..k];
      assert Without(lines, i + 1, k) == lines[i + 1..k] + lines[k + 1..];
    } else {
      assert lines[i..] == [lines[i]] + lines[i + 1..];
      assert Without(lines, i + 1, k) == lines[i + 1..];
    }
  }

  /** Del(k) removes exactly line k and keeps all others, byte for byte and in
      order; an index outside the file changes nothing. */
  lemma DelRemovesLine(content: Bytes, k: int)
    ensures Del(content, None, k).Ok?
    ensures 0 <= k < |LinesOf(content)| ==>
              LinesOf(Del(content, None, k).value) == LinesOf(content)[..k] + LinesOf(content)[k + 1..]
    ensures !(0 <= k < |LinesOf(content)|) ==> LinesOf(Del(content, None, k).value) == LinesOf(content)
  {
    var lines := LinesOf(content);
    RewriteLift(lines, 0, DeleteAt(k));
    DeleteAtLines(lines, 0, k, DeleteAt(k));
    var out := EscapeAll(Replaced(lines, 0, DeleteAt(k)).value);
    assert Del(content, None, k).value == Frame(out, NL) by {
      assert [] + Replaced(lines, 0, DeleteAt(k)).value == Replaced(lines, 0, DeleteAt(k)).value;
    }
    ReadBack(out);
    assert lines[0..] == lines;
  }

  /** The lines from `i` on, with `x` placed before line `k`. */
  function With<T>(lines: seq<T>, i: nat, k: int, x: T): seq<T>
    requires i <= |lines|
  {
    if i <= k < |lines| then lines[i..k] + [x] + lines[k..] else lines[i..]
  }

  lemma WithStep<T>(lines: seq<T>, i: nat, k: int, x: T)
    requires i < |lines| && i != k
    ensures With(lines, i, k, x) == [lines[i]] + With(lines, i + 1, k, x)
  {
    if i < k < |lines| {
      assert lines[i..k] == [lines[i]] + lines[i + 1..k];
      assert With(lines, i + 1, k, x) == lines[i + 1..k] + [x] + lines[k..];
    } else {
      assert lines[i..] == [lines[i]] + lines[i + 1..];
      assert With(lines, i + 1, k, x) == lines[i + 1..];
    }
  }

  lemma WithAt<T>(lines: seq<T>, k: nat, x: T)
    requires k < |lines|
    ensures With(lines, k, k, x) == [x, lines[k]] + With(lines, k + 1, k, x)
  {
    assert lines[k..] == [lines[k]] + lines[k + 1..];
    assert lines[k..k] == [];
  }

  /** One line of the Insert rewrite. */
  lemma InsertAtStep(lines: seq<Bytes>, i: nat, k: int, data: Bytes, f: (nat, Bytes) -> Result<seq<Bytes>>)
    requires forall j: nat, bs: Bytes :: f(j, bs) == InsertAt(k, data)(j, bs)
    requires i < |lines| && '\n' !in lines[i]
    requires Replaced(lines, i + 1, f).Ok?
    ensures Replaced(lines, i, f).Ok?
    ensures EscapeAll(Replaced(lines, i, f).value)
              == (if i == k then [Escape(data), lines[i]] else [lines[i]]) + EscapeAll(Replaced(lines, i + 1, f).value)
  {
    var tail := Replaced(lines, i + 1, f).value;
    var u := Unescape(lines[i]);
    var v: seq<Bytes> := if i == k then [data, u] else [u];
    assert f(i, u) == Ok(v) by {
      assert InsertAt(k, data)(i, u) == Ok(v);
    }
    ReplacedStep(lines, i, f, v);
    var ev: seq<Bytes> := if i == k then [Escape(data), lines[i]] else [lines[i]];
    assert EscapeAll(v) == ev by {
      EscapeUnescape(lines[i]);
    }
    EscapeAllAppend(v, tail);
  }

  lemma {:induction false} InsertAtLines(lines: seq<Bytes>, i: nat, k: int, data: Bytes, f: (nat, Bytes) -> Result<seq<Bytes>>)
    requires forall j: nat, bs: Bytes :: f(j, bs) == InsertAt(k, data)(j, bs)
    requires i <= |lines|
    requires forall j :: 0 <= j < |lines| ==> '\n' !in lines[j]
    ensures Replaced(lines, i, f).Ok?
    ensures EscapeAll(Replaced(lines, i, f).value) == With(lines, i, k, Escape(data))
    decreases |lines| - i
  {
    if i < |lines| {
      InsertAtLines(lines, i + 1, k, data, f);
      InsertAtStep(lines, i, k, data, f);
      if i == k {
        WithAt(lines, k, Escape(data));
      } else {
        WithStep(lines, i, k, Escape(data));
      }
    }
  }

  /** Insert(k, d) places the escaped `d` immediately before line k and is a
      no-op when k is not a line index. */
  lemma InsertPlacesLine(content: Bytes, k: int, data: Bytes)
    ensures Insert(content, None, k, data).Ok?
    ensures 0 <= k < |LinesOf(content)| ==>
              LinesOf(Insert(content, None, k, data).value)
              == LinesOf(content)[..k] + [Escape(data)] + LinesOf(content)[k..]
    ensures !(0 <= k < |LinesOf(content)|) ==> LinesOf(Insert(content, None, k, data).value) == LinesOf(content)
  {
    var lines := LinesOf(content);
    RewriteLift(lines, 0, InsertAt(k, data));
    InsertAtLines(lines, 0, k, data, InsertAt(k, data));
    var out := EscapeAll(Replaced(lines, 0, InsertAt(k, data)).value);
    assert Insert(content, None, k, data).value == Frame(out, NL) by {
      assert [] + Replaced(lines, 0, InsertAt(k, data)).value == Replaced(lines, 0, InsertAt(k, data)).value;
    }
    ReadBack(out);
    assert lines[0..] == lines;
  }

  /** The lines from `i` on for which the predicate answers false. */
  function Kept(lines: seq<Bytes>, i: nat, p: (nat, Bytes) -> Result<bool>): seq<Bytes>
    requires i <= |lines|
    requires forall j :: i <= j < |lines| ==> p(j, Unescape(lines[j])).Ok?
    decreases |lines| - i
  {
    if i == |lines| then []
    else (if p(i, Unescape(lines[i])).value then [] else [lines[i]]) + Kept(lines, i + 1, p)
  }

  /** One line of the DelBy rewrite. */
  lemma DeleteWhereStep(lines: seq<Bytes>, i: nat, p: (nat, Bytes) -> Result<bool>, f: (nat, Bytes) -> Result<seq<Bytes>>)
    requires forall j: nat, bs: Bytes :: f(j, bs) == DeleteWhere(p)(j, bs)
    requires i < |lines| && '\n' !in lines[i]
    requires p(i, Unescape(lines[i])).Ok?
    requires Replaced(lines, i + 1, f).Ok?
    ensures Replaced(lines, i, f).Ok?
    ensures EscapeAll(Replaced(lines, i, f).value)
              == (if p(i, Unescape(lines[i])).value then [] else [lines[i]]) + EscapeAll(Replaced(lines, i + 1, f).value)
  {
    var tail := Replaced(lines, i + 1, f).value;
    var u := Unescape(lines[i]);
    var v: seq<Bytes> := if p(i, u).value then [] else [u];
    assert f(i, u) == Ok(v) by {
      assert DeleteWhere(p)(i, u) == Ok(v);
    }
    ReplacedStep(lines, i, f, v);
    var ev: seq<Bytes> := if p(i, u).value then [] else [lines[i]];
    assert EscapeAll(v) == ev by {
      EscapeUnescape(lines[i]);
    }
    EscapeAllAppend(v, tail);
  }

  lemma {:induction false} DeleteWhereLines(lines: seq<Bytes>, i: nat, p: (nat, Bytes) -> Result<bool>, f: (nat, Bytes) -> Result<seq<Bytes>>)
    requires forall j: nat, bs: Bytes :: f(j, bs) == DeleteWhere(p)(j, bs)
    requires i <= |lines|
    requires forall j :: 0 <= j < |lines| ==> '\n' !in lines[j]
    requires forall j :: i <= j < |lines| ==> p(j, Unescape(lines[j])).Ok?
    ensures Replaced(lines, i, f).Ok?
    ensures EscapeAll(Replaced(lines, i, f).value) == Kept(lines, i, p)
    decreases |lines| - i
  {
    if i < |lines| {
      DeleteWhereLines(lines, i + 1, p, f);
      DeleteWhereStep(lines, i, p, f);
    }
  }

  /** With a hook that hands back raw lines of the file as its header,
      DelBy re-emits that header unchanged and then the lines after it
      that the predicate rejects. */
  lemma DelByOpened(content: Bytes, hook: Hook, p: (nat, Bytes) -> Result<bool>, header: seq<Bytes>, rest: seq<Bytes>)
    requires hook(LinesOf(content)) == Ok(Opened(header, rest))
    requires forall j :: 0 <= j < |header| ==> '\n' !in header[j]
    requires forall j :: 0 <= j < |rest| ==> '\n' !in rest[j]
    requires forall j :: 0 <= j < |rest| ==> p(j, Unescape(rest[j])).Ok?
    ensures DelBy(content, Some(hook), p).Ok?
    ensures LinesOf(DelBy(content, Some(hook), p).value) == header + Kept(rest, 0, p)
  {
    RewriteLift(rest, 0, DeleteWhere(p));
    DeleteWhereLines(rest, 0, p, DeleteWhere(p));
    UpdateOpened(content, hook, (), Lift(DeleteWhere(p)), header, rest, Replaced(rest, 0, DeleteWhere(p)).value);
  }

  /** DelBy behind a hook that hands back the first `n` lines of the file
      as its header. */
  lemma DelByHeader(content: Bytes, hook: Hook, p: (nat, Bytes) -> Result<bool>, n: nat)
    requires n <= |LinesOf(content)|
    requires hook(LinesOf(content)) == Ok(Opened(LinesOf(content)[..n], LinesOf(content)[n..]))
    requires forall j: nat, bs: Bytes :: p(j, bs).Ok?
    ensures DelBy(content, Some(hook), p).Ok?
    ensures LinesOf(DelBy(content, Some(hook), p).value) == LinesOf(content)[..n] + Kept(LinesOf(content)[n..], 0, p)
  {
    var lines := LinesOf(content);
    DelByOpened(content, hook, p, lines[..n], lines[n..]);
  }

  /** Update behind a hook that hands back the first `n` lines of the file
      as its header, with a rewrite of the others that succeeds. */
  lemma UpdateHeader<S>(content: Bytes, hook: Hook, st: S, fn: (S, nat, Bytes) -> Result<(S, seq<Bytes>)>,
                        n: nat, out: seq<Bytes>)
    requires n <= |LinesOf(content)|
    requires hook(LinesOf(content)) == Ok(Opened(LinesOf(content)[..n], LinesOf(content)[n..]))
    requires Rewrite(LinesOf(content)[n..], 0, st, fn) == Ok(out)
    ensures Update(content, Some(hook), st, fn).Ok?
    ensures LinesOf(Update(content, Some(hook), st, fn).value) == LinesOf(content)[..n] + EscapeAll(out)
  {
    var lines := LinesOf(content);
    UpdateOpened(content, hook, st, fn, lines[..n], lines[n..], out);
  }

  /** With a hook that hands back raw lines of the file as its header and a
      rewrite that succeeds, Update writes the header unchanged and then the
      rewrite's lines, escaped. */
  lemma UpdateOpened<S>(content: Bytes, hook: Hook, st: S, fn: (S, nat, Bytes) -> Result<(S, seq<Bytes>)>,
                        header: seq<Bytes>, rest: seq<Bytes>, out: seq<Bytes>)
    requires hook(LinesOf(content)) == Ok(Opened(header, rest))
    requires forall j :: 0 <= j < |header| ==> '\n' !in header[j]
    requires Rewrite(rest, 0, st, fn) == Ok(out)
    ensures Update(content, Some(hook), st, fn) == Ok(Frame(EscapeAll(header + out), NL))
    ensures LinesOf(Update(content, Some(hook), st, fn).value) == header + EscapeAll(out)
  {
    assert Open(Some(hook), LinesOf(content)) == Ok(Opened(header, rest));
    WriteBack(header, out);
  }

  /** A rewrite that re-emits raw header lines reads back as those lines
      followed by the escaped output. */
  lemma WriteBack(header: seq<Bytes>, out: seq<Bytes>)
    requires forall j :: 0 <= j < |header| ==> '\n' !in header[j]
    ensures LinesOf(Frame(EscapeAll(header + out), NL)) == header + EscapeAll(out)
  {
    EscapeAllAppend(header, out);
    forall k | 0 <= k < |header|
      ensures EscapeAll(header)[k] == header[k]
    {
      EscapeKeepsPlainLine(header[k]);
    }
    assert EscapeAll(header) == header;
    ReadBack(header + EscapeAll(out));
  }

  /** DelBy keeps exactly the lines for which the predicate is false, in
      order and byte for byte. */
  lemma DelByKeepsUnselected(content: Bytes, p: (nat, Bytes) -> Result<bool>)
    requires forall j :: 0 <= j < |LinesOf(content)| ==> p(j, Unescape(LinesOf(content)[j])).Ok?
    ensures DelBy(content, None, p).Ok?
    ensures LinesOf(DelBy(content, None, p).value) == Kept(LinesOf(content), 0, p)
  {
    var lines := LinesOf(content);
    RewriteLift(lines, 0, DeleteWhere(p));
    DeleteWhereLines(lines, 0, p, DeleteWhere(p));
    var r := Replaced(lines, 0, DeleteWhere(p));
    var out := EscapeAll(r.value);
    assert DelBy(content, None, p).value == Frame(out, NL) by {
      assert [] + r.value == r.value;
    }
    ReadBack(out);
  }

  /** A predicate error aborts DelBy with the first error, so nothing is committed. */
  lemma DelByFailsOnFirstError(content: Bytes, p: (nat, Bytes) -> Result<bool>, k: nat)
    requires k < |LinesOf(content)|
    requires p(k, Unescape(LinesOf(content)[k])).Err?
    requires forall j :: 0 <= j < k ==> p(j, Unescape(LinesOf(content)[j])).Ok?
    ensures DelBy(content, None, p) == Err(p(k, Unescape(LinesOf(content)[k])).error)
    ensures Commit(content, DelBy(content, None, p)) == content
  {
    var lines := LinesOf(content);
    var f := DeleteWhere(p);
    RewriteLift(lines, 0, f);
    assert f(k, Unescape(lines[k])).Err?;
    ReplacedFirstError(lines, 0, f, k);
  }

  /** File.AppendWith: after the hook, the builder's lines are escaped and
      written at the end; an error from either writes nothing. */
  function AppendWith(content: Bytes, hook: Option<Hook>, build: Opened -> Result<seq<Bytes>>): (r: Result<Bytes>)
    ensures r.Ok? ==> content <= r.value
    ensures Open(hook, LinesOf(content)).Err? ==> r.Err?
  {
    match Open(hook, LinesOf(content))
    case Err(e) => Err(e)
    case Ok(o) =>
      match build(o)
      case Err(e) => Err(e)
      case Ok(data) => Ok(content + Frame(EscapeAll(data), NL))
  }

  /** File.Append: AppendWith for one line. */
  function Append(content: Bytes, hook: Option<Hook>, p: Bytes): Result<Bytes> {
    AppendWith(content, hook, (o: Opened) => Ok([p]))
  }

  /** Escaped lines appended to a file of whole lines read back after them. */
  lemma AppendedLines(ls: seq<Bytes>, added: seq<Bytes>)
    requires forall i :: 0 <= i < |ls| ==> '\n' !in ls[i]
    ensures LinesOf(Frame(ls, NL) + Frame(EscapeAll(added), NL)) == ls + EscapeAll(added)
  {
    FrameAppend(ls, EscapeAll(added), NL);
    var all := ls + EscapeAll(added);
    forall j | 0 <= j < |all|
      ensures '\n' !in all[j]
    {
      if j >= |ls| {
        assert all[j] == Escape(added[j - |ls|]);
      }
    }
    ReadBack(all);
  }

  /** AppendWith on a well-formed file (every line newline-terminated)
      succeeds exactly when the hook and the builder do, and then leaves the
      file's lines intact and adds the builder's lines, escaped, after them. */
  lemma AppendAddsLines(ls: seq<Bytes>, hook: Option<Hook>, build: Opened -> Result<seq<Bytes>>)
    requires forall i :: 0 <= i < |ls| ==> '\n' !in ls[i]
    ensures AppendWith(Frame(ls, NL), hook, build).Ok?
            <==> Open(hook, LinesOf(Frame(ls, NL))).Ok? && build(Open(hook, LinesOf(Frame(ls, NL))).value).Ok?
    ensures AppendWith(Frame(ls, NL), hook, build).Ok? ==>
              LinesOf(AppendWith(Frame(ls, NL), hook, build).value)
              == ls + EscapeAll(build(Open(hook, LinesOf(Frame(ls, NL))).value).value)
  {
    if AppendWith(Frame(ls, NL), hook, build).Ok? {
      var o := Open(hook, LinesOf(Frame(ls, NL))).value;
      var data := build(o).value;
      assert AppendWith(Frame(ls, NL), hook, build).value == Frame(ls, NL) + Frame(EscapeAll(data), NL);
      AppendedLines(ls, data);
    }
  }
}

=== FILE: numbers.dfy ===
/** Decimal text and the numbers it denotes: the readings conv.Int and
    conv.Float64 give the text of a column, and the text conv.String gives an
    integer. Only plain decimal notation is modelled. */
module Numbers {
  import opened Base

  predicate IsDigit(c: byte) {
    '0' <= c <= '9'
  }

  predicate AllDigits(s: Bytes) {
    forall i :: 0 <= i < |s| ==> IsDigit(s[i])
  }

  /** The number a run of decimal digits denotes, most significant first. */
  function DigitsValue(s: Bytes): nat
    requires AllDigits(s)
    decreases |s|
  {
    if |s| == 0 then 0 else DigitsValue(s[..|s| - 1]) * 10 + (s[|s| - 1] as int - '0' as int)
  }

  function Digit(d: nat): (c: byte)
    requires d < 10
    ensures IsDigit(c) && c as int - '0' as int == d
  {
    ('0' as int + d) as char
  }

  /** The shortest decimal digits of `n`. */
  function Digits(n: nat): (r: Bytes)
    ensures |r| >= 1 && AllDigits(r)
    ensures DigitsValue(r) == n
    ensures r[0] == '0' ==> n == 0
    decreases n
  {
    if n < 10 then [Digit(n)]
    else
      var r := Digits(n / 10) + [Digit(n % 10)];
      assert r[..|r| - 1] == Digits(n / 10);
      r
  }

  /** Decimal text of an integer, as conv.String writes an int64. */
  function IntText(n: int): (r: Bytes)
    ensures |r| >= 1
  {
    if n < 0 then ['-'] + Digits(-n) else Digits(n)
  }

  /** Signed decimal integer text: an optional '+' or '-', then at least one digit. */
  function ParseInt(s: Bytes): (r: Option<int>)
    ensures r.Some? <==> (|s| > 0 && AllDigits(s)) || (|s| > 1 && (s[0] == '-' || s[0] == '+') && AllDigits(s[1..]))
  {
    if |s| > 0 && AllDigits(s) then Some(DigitsValue(s))
    else if |s| > 1 && (s[0] == '-' || s[0] == '+') && AllDigits(s[1..]) then
      var v: int := DigitsValue(s[1..]);
      Some(if s[0] == '-' then -v else v)
    else None
  }

  /** conv.Int of a column text: the integer it spells, 0 when it spells none. */
  function ToInt(s: Bytes): int {
    match ParseInt(s)
    case Some(n) => n
    case None => 0
  }

  /** Reading back the text of an integer gives that integer. */
  lemma ParseIntText(n: int)
    ensures ParseInt(IntText(n)) == Some(n)
    ensures ToInt(IntText(n)) == n
  {
    if n < 0 {
      var t := IntText(n);
      assert t[1..] == Digits(-n);
      assert !IsDigit(t[0]);
    }
  }

  function Pow10(k: nat): (r: nat)
    ensures r >= 1
  {
    if k == 0 then 1 else 10 * Pow10(k - 1)
  }

  /** The value of unsigned decimal text: digits, optionally a point and
      more digits. */
  function UnsignedDecimal(s: Bytes): Option<real> {
    if |s| > 0 && AllDigits(s) then Some(DigitsValue(s) as real)
    else if exists p :: 0 < p < |s| - 1 && s[p] == '.' && AllDigits(s[..p]) && AllDigits(s[p + 1..]) then
      var p :| 0 < p < |s| - 1 && s[p] == '.' && AllDigits(s[..p]) && AllDigits(s[p + 1..]);
      Some(DigitsValue(s[..p]) as real + DigitsValue(s[p + 1..]) as real / Pow10(|s| - p - 1) as real)
    else None
  }

  /** Signed decimal text, read exactly. */
  function ParseDecimal(s: Bytes): Option<real> {
    if |s| > 1 && s[0] == '-' then
      match UnsignedDecimal(s[1..])
      case Some(x) => Some(-x)
      case None => None
    else if |s| > 1 && s[0] == '+' then UnsignedDecimal(s[1..])
    else UnsignedDecimal(s)
  }

  /** conv.Float64 of a column text, without float64 rounding. */
  function ToReal(s: Bytes): real {
    match ParseDecimal(s)
    case Some(x) => x
    case None => 0.0
  }

  /** Integer text reads as the same number whether read as an integer or
      as a decimal, so the "int" and "float" column types agree on it. */
  lemma IntTextAsDecimal(s: Bytes)
    requires ParseInt(s).Some?
    ensures ParseDecimal(s) == Some(ParseInt(s).value as real)
    ensures ToReal(s) == ToInt(s) as real
  {
    if |s| > 0 && AllDigits(s) {
      if |s| > 1 {
        assert !(s[0] == '-' || s[0] == '+') by { assert IsDigit(s[0]); }
      }
    } else {
      assert AllDigits(s[1..]) && |s[1..]| > 0;
    }
  }
}

=== FILE: scanner.dfy ===
/** The delimiter-framed tokenizer of core/scanner.go: the split function
    handed to bufio.Scanner, Range, and Limit / LimitBytes pagination. A
    scanner over a stream is modelled by the list of tokens the split function
    cuts from it; the number of tokens a pass consumed is returned so that a
    later pass can continue where it stopped. */
module Scanner {
  import opened Base
  import opened Seqs

  /** What the split function tells bufio.Scanner: how many bytes to advance
      and the token, if any. `advance == 0` with no token asks for more data. */
  datatype Cut = Cut(advance: nat, token: Option<Bytes>)

  /** The split function installed by NewScanner. */
  function SplitFunc(data: Bytes, atEOF: bool, delim: Bytes): (r: Cut)
    requires |delim| > 0
    ensures atEOF && |data| == 0 ==> r == Cut(0, None)
    ensures r.token.None? ==> r.advance == 0 && (atEOF ==> |data| == 0)
    ensures r.token.None? && |data| > 0 ==> !Contains(data, delim)
    ensures r.token.Some? ==> 0 < r.advance <= |data|
    ensures r.token.Some? ==> |r.token.value| <= |data| && r.token.value == data[..|r.token.value|]
    ensures r.token.Some? ==> !Contains(r.token.value, delim)
    // the token ends at the first delimiter, which is consumed with it ...
    ensures r.token.Some? && Contains(data, delim) ==>
              IndexOf(data, delim) == Some(|r.token.value|)
              && r.advance == |r.token.value| + |delim|
    // ... or, at end of input without a delimiter, it is all that is left
    ensures r.token.Some? && !Contains(data, delim) ==> atEOF && r.token.value == data && r.advance == |data|
  {
    if atEOF && |data| == 0 then Cut(0, None)
    else match IndexOf(data, delim)
      case Some(n) =>
        FirstPieceAvoids(data, delim, n);
        Cut(n + |delim|, Some(data[..n]))
      case None =>
        if atEOF then Cut(|data|, Some(data)) else Cut(0, None)
  }

  /** All tokens of a complete stream, in order: the split function applied
      until it yields nothing. */
  function Tokens(data: Bytes, delim: Bytes): (r: seq<Bytes>)
    requires |delim| > 0
    ensures |data| == 0 <==> |r| == 0
    ensures forall i :: 0 <= i < |r| ==> !Contains(r[i], delim)
    decreases |data|
  {
    var cut := SplitFunc(data, true, delim);
    if cut.token.None? then [] else [cut.token.value] + Tokens(data[cut.advance..], delim)
  }

  /** The bytes a writer produces for a list of lines: each line followed by the delimiter. */
  function Frame(lines: seq<Bytes>, delim: Bytes): Bytes
    decreases |lines|
  {
    if |lines| == 0 then [] else lines[0] + delim + Frame(lines[1..], delim)
  }

  lemma FrameSingle(x: Bytes, delim: Bytes)
    ensures Frame([x], delim) == x + delim
  {
    assert [x][1..] == [];
  }

  lemma {:induction false} FrameAppend(a: seq<Bytes>, b: seq<Bytes>, delim: Bytes)
    ensures Frame(a + b, delim) == Frame(a, delim) + Frame(b, delim)
    decreases |a|
  {
    if |a| == 0 {
      assert a + b == b;
    } else {
      assert (a + b)[1..] == a[1..] + b;
      FrameAppend(a[1..], b, delim);
    }
  }

  /** A separable token followed by the delimiter is cut off as the first token. */
  lemma TokensCons(t: Bytes, delim: Bytes, rest: Bytes)
    requires |delim| > 0 && Separable(t, delim)
    ensures Tokens(t + delim + rest, delim) == [t] + Tokens(rest, delim)
  {
    var data := t + delim + rest;
    FirstMatchExtends(t, delim, rest);
    assert data[..|t|] == t;
    assert data[|t| + |delim|..] == rest;
  }

  /** Framing round trip: scanning framed lines yields exactly those lines
      when each is separable from the delimiter (for a one-byte delimiter:
      does not contain it). */
  lemma {:induction false} TokensOfFrame(lines: seq<Bytes>, delim: Bytes)
    requires |delim| > 0
    requires forall i :: 0 <= i < |lines| ==> Separable(lines[i], delim)
    ensures Tokens(Frame(lines, delim), delim) == lines
    decreases |lines|
  {
    if |lines| > 0 {
      var t := lines[0];
      var rest := Frame(lines[1..], delim);
      assert Frame(lines, delim) == t + delim + rest;
      TokensCons(t, delim, rest);
      forall i | 0 <= i < |lines[1..]|
        ensures Separable(lines[1..][i], delim)
      {
        assert lines[1..][i] == lines[i + 1];
      }
      TokensOfFrame(lines[1..], delim);
      assert lines == [t] + lines[1..];
    }
  }

  /** The answer of a Range callback: go on or not, and an optional error. */
  datatype Visit = Visit(more: bool, err: Option<Error>)

  /** Where a Range pass ended: how many tokens were handed to the callback
      and the error it returns. */
  datatype Ranged = Ranged(visited: nat, err: Option<Error>)

  /** Scanner.Range from token `i` on: the callback sees each token with its
      index; an error is returned at once, `false` ends the pass. */
  function RangeFrom(tokens: seq<Bytes>, i: nat, fn: (nat, Bytes) -> Visit): (r: Ranged)
    requires i <= |tokens|
    ensures i <= r.visited <= |tokens|
    ensures forall j :: i <= j < r.visited - 1 ==> fn(j, tokens[j]) == Visit(true, None)
    ensures r.visited < |tokens| ==>
              r.visited > i && (fn(r.visited - 1, tokens[r.visited - 1]).err.Some?
                                || !fn(r.visited - 1, tokens[r.visited - 1]).more)
    ensures r.err.Some? ==> r.visited > i && r.err == fn(r.visited - 1, tokens[r.visited - 1]).err
    ensures r.err.None? && r.visited > i ==> fn(r.visited - 1, tokens[r.visited - 1]).err.None?
    decreases |tokens| - i
  {
    if i == |tokens| then Ranged(i, None)
    else
      var v := fn(i, tokens[i]);
      if v.err.Some? then Ranged(i + 1, v.err)
      else if !v.more then Ranged(i + 1, None)
      else RangeFrom(tokens, i + 1, fn)
  }

  function Range(tokens: seq<Bytes>, fn: (nat, Bytes) -> Visit): (r: Ranged)
  {
    RangeFrom(tokens, 0, fn)
  }

  /** Range visits the tokens in order and stops right after the first callback
      that answers `false` or fails, returning the first error. */
  lemma RangeStopsAtFirst(tokens: seq<Bytes>, fn: (nat, Bytes) -> Visit, k: nat)
    requires k < |tokens|
    requires forall j :: 0 <= j < k ==> fn(j, tokens[j]) == Visit(true, None)
    requires fn(k, tokens[k]) != Visit(true, None)
    ensures Range(tokens, fn).visited == k + 1
    ensures Range(tokens, fn).err == fn(k, tokens[k]).err
  {
  }

  /** The values `search` accepts among the first `n` tokens, in order. */
  function Found<V>(tokens: seq<Bytes>, search: (nat, Bytes) -> Option<V>, n: nat): seq<V>
    requires n <= |tokens|
  {
    if n == 0 then []
    else
      var v := search(n - 1, tokens[n - 1]);
      Found(tokens, search, n - 1) + (if v.Some? then [v.value] else [])
  }

  lemma {:induction false} FoundPrefix<V>(tokens: seq<Bytes>, search: (nat, Bytes) -> Option<V>, n: nat, m: nat)
    requires n <= m <= |tokens|
    ensures |Found(tokens, search, n)| <= |Found(tokens, search, m)|
    ensures Found(tokens, search, n) == Found(tokens, search, m)[..|Found(tokens, search, n)|]
    decreases m - n
  {
    if n < m {
      FoundPrefix(tokens, search, n, m - 1);
    }
  }

  /** Matches skipped because of the offset (a missing or negative offset skips none). */
  function Skip(offset: Option<int>): nat {
    if offset.Some? && offset.value > 0 then offset.value else 0
  }

  /** Number of matches after which a pass with `size >= 0` stops: when
      `size == 0` the first match past the offset still ends the pass. */
  function Target(size: int, offset: Option<int>): nat
    requires size >= 0
  {
    Skip(offset) + (if size == 0 then 1 else size)
  }

  /** The page of `found` Limit returns: everything past the offset when
      `size < 0`, otherwise at most `size` matches past the offset. */
  function Page<V>(found: seq<V>, size: int, offset: Option<int>): seq<V> {
    var o := Skip(offset);
    if o >= |found| then []
    else if size < 0 then found[o..]
    else found[o..Min(o + size, |found|)]
  }

  lemma PageSkipped<V>(f: seq<V>, v: V, size: int, offset: Option<int>)
    requires |f| + 1 <= Skip(offset)
    ensures Page(f + [v], size, offset) == Page(f, size, offset) == []
  {
  }

  lemma PageExtend<V>(f: seq<V>, v: V, size: int, offset: Option<int>)
    requires |f| >= Skip(offset)
    requires size < 0 || |f| < Skip(offset) + size
    ensures Page(f + [v], size, offset) == Page(f, size, offset) + [v]
  {
    var o := Skip(offset);
    if o == |f| {
      assert (f + [v])[o..] == [v];
    } else if size < 0 {
      assert (f + [v])[o..] == f[o..] + [v];
    } else {
      assert (f + [v])[o..|f| + 1] == f[o..|f|] + [v];
    }
  }

  /** Once a prefix holds `size` matches past the offset, later matches do not change the page. */
  lemma PageSaturated<V>(f: seq<V>, g: seq<V>, size: int, offset: Option<int>)
    requires size >= 0
    requires |f| <= |g| && f == g[..|f|]
    requires |f| >= Skip(offset) + size
    ensures Page(g, size, offset) == Page(f, size, offset)
  {
    var o := Skip(offset);
    if o < |f| {
      assert g[o..o + size] == f[o..o + size];
    }
  }

  /** A pass that stops once the page is full returns what the whole stream would give. */
  lemma StoppedPage<V>(tokens: seq<Bytes>, search: (nat, Bytes) -> Option<V>, i: nat, size: int, offset: Option<int>)
    requires i <= |tokens| && size >= 0
    requires |Found(tokens, search, i)| >= Skip(offset) + size
    ensures Page(Found(tokens, search, |tokens|), size, offset) == Page(Found(tokens, search, i), size, offset)
  {
    FoundPrefix(tokens, search, i, |tokens|);
    PageSaturated(Found(tokens, search, i), Found(tokens, search, |tokens|), size, offset);
  }

  /** Fewer than `bound` matches among the first `j` tokens means fewer
      among every shorter prefix too. */
  lemma FoundBelow<V>(tokens: seq<Bytes>, search: (nat, Bytes) -> Option<V>, j: nat, bound: nat)
    requires j <= |tokens| && |Found(tokens, search, j)| < bound
    ensures forall n :: 0 <= n <= j ==> |Found(tokens, search, n)| < bound
  {
    forall n | 0 <= n <= j
      ensures |Found(tokens, search, n)| < bound
    {
      FoundPrefix(tokens, search, n, j);
    }
  }

  /** Scanner.Limit: the loop of the Go closure run by Range. Returns the page
      and the number of tokens consumed from the stream. */
  method Limit<V>(tokens: seq<Bytes>, search: (nat, Bytes) -> Option<V>, size: int, offset: Option<int>)
    returns (result: seq<V>, consumed: nat)
    ensures consumed <= |tokens|
    ensures result == Page(Found(tokens, search, |tokens|), size, offset)
    ensures size < 0 ==> consumed == |tokens|
    ensures size >= 0 ==> forall n :: 0 <= n < consumed ==> |Found(tokens, search, n)| < Target(size, offset)
    ensures size >= 0 && consumed < |tokens| ==> |Found(tokens, search, consumed)| == Target(size, offset)
  {
    result := [];
    var index := 0;
    var i := 0;
    ghost var full := false;
    while i < |tokens|
      invariant i <= |tokens| && !full
      invariant index == |Found(tokens, search, i)|
      invariant result == Page(Found(tokens, search, i), size, offset)
      invariant |result| == if index > Skip(offset) then index - Skip(offset) else 0
      invariant size >= 0 ==> index < Target(size, offset)
    {
      ghost var before := Found(tokens, search, i);
      var v := search(i, tokens[i]);
      i := i + 1;
      if v.Some? {
        assert Found(tokens, search, i) == before + [v.value];
        var stop;
        index, result, stop := Accept(before, v.value, index, result, size, offset);
        if stop {
          StoppedPage(tokens, search, i, size, offset);
          FoundBelow(tokens, search, i - 1, Target(size, offset));
          full := true;
          break;
        }
      } else {
        assert Found(tokens, search, i) == before;
      }
    }
    if !full && size >= 0 {
      FoundBelow(tokens, search, i, Target(size, offset));
    }
    consumed := i;
  }

  /** One match of Limit's closure, after the `index`th: skipped while within
      the offset, otherwise added to the page while it has room. `stop` is
      the closure's answer that the page is full, given once `size` matches
      past the offset have been seen (or the first one, for size 0). */
  method Accept<V>(ghost found: seq<V>, v: V, index: nat, result: seq<V>, size: int, offset: Option<int>)
    returns (index': nat, result': seq<V>, stop: bool)
    requires index == |found| && result == Page(found, size, offset)
    requires |result| == if index > Skip(offset) then index - Skip(offset) else 0
    requires size >= 0 ==> index < Target(size, offset)
    ensures index' == |found| + 1
    ensures result' == Page(found + [v], size, offset)
    ensures !stop ==> |result'| == if index' > Skip(offset) then index' - Skip(offset) else 0
    ensures stop <==> size >= 0 && index' == Target(size, offset)
  {
    index' := index + 1;
    if offset.Some? && index' <= offset.value {
      PageSkipped(found, v, size, offset);
      return index', result, false;
    }
    if size < 0 {
      PageExtend(found, v, size, offset);
      return index', result + [v], false;
    } else if |result| < size {
      PageExtend(found, v, size, offset);
      result' := result + [v];
      stop := |result'| == size;
    } else {
      result' := result;
      stop := true;
    }
  }

  /** When every token is accepted as itself, the found values are the tokens. */
  lemma {:induction false} FoundEverything(tokens: seq<Bytes>, search: (nat, Bytes) -> Option<Bytes>, n: nat)
    requires forall i: nat, bs: Bytes :: search(i, bs) == Some(bs)
    requires n <= |tokens|
    ensures Found(tokens, search, n) == tokens[..n]
  {
    if n > 0 {
      FoundEverything(tokens, search, n - 1);
      assert tokens[..n] == tokens[..n - 1] + [tokens[n - 1]];
    }
  }

  /** Scanner.Limit with a nil search: every token matches and is its own value. */
  method LimitAll(tokens: seq<Bytes>, size: int, offset: Option<int>) returns (result: seq<Bytes>, consumed: nat)
    ensures result == Page(tokens, size, offset)
    ensures size > 0 && offset.None? ==> result == tokens[..Min(size, |tokens|)]
    ensures size == 0 ==> result == []
  {
    var all := (i: nat, bs: Bytes) => Some(bs);
    result, consumed := Limit(tokens, all, size, offset);
    FoundEverything(tokens, all, |tokens|);
    assert tokens[..|tokens|] == tokens;
  }

  /** Scanner.LimitBytes: its search closure appends every token it is shown,
      before the offset and size checks, so the result is exactly the consumed
      prefix of the stream, and a later pass continues after it. */
  method LimitBytes(tokens: seq<Bytes>, size: int, offset: Option<int>) returns (ls: seq<Bytes>, rest: seq<Bytes>)
    ensures ls + rest == tokens
    ensures size < 0 ==> ls == tokens
    ensures size >= 0 ==> ls == tokens[..Min(Target(size, offset), |tokens|)]
  {
    var seen := (i: nat, bs: Bytes) => Some(bs);
    var _, consumed := Limit(tokens, seen, size, offset);
    forall n | 0 <= n <= |tokens|
      ensures |Found(tokens, seen, n)| == n
    {
      FoundEverything(tokens, seen, n);
    }
    ls := tokens[..consumed];
    rest := tokens[consumed..];
  }
}

=== FILE: seqs.dfy ===
/** Searching, splitting, joining and replacing in sequences, with the
    semantics of Go's bytes.Index, bytes.Split, bytes.Join and bytes.ReplaceAll
    for a non-empty separator. */
module Seqs {
  import opened Base

  /** `pat` occurs in `s` starting at position `k`. */
  predicate MatchAt<T(==)>(s: seq<T>, pat: seq<T>, k: int) {
    0 <= k && k + |pat| <= |s| && s[k..k + |pat|] == pat
  }

  predicate Contains<T(==)>(s: seq<T>, pat: seq<T>) {
    exists k :: 0 <= k <= |s| && MatchAt(s, pat, k)
  }

  /** First occurrence of `pat` in `s` at or after `i`. */
  function FindFrom<T(==)>(s: seq<T>, pat: seq<T>, i: nat): (r: Option<nat>)
    ensures r.Some? ==> i <= r.value && MatchAt(s, pat, r.value)
    ensures r.Some? ==> forall k :: i <= k < r.value ==> !MatchAt(s, pat, k)
    ensures r.None? ==> forall k :: i <= k ==> !MatchAt(s, pat, k)
    decreases |s| - i
  {
    if i + |pat| > |s| then None
    else if s[i..i + |pat|] == pat then Some(i)
    else FindFrom(s, pat, i + 1)
  }

  /** bytes.Index: the position of the first occurrence of `pat`. */
  function IndexOf<T(==)>(s: seq<T>, pat: seq<T>): (r: Option<nat>)
    ensures r.Some? ==> MatchAt(s, pat, r.value)
    ensures r.Some? ==> forall k :: 0 <= k < r.value ==> !MatchAt(s, pat, k)
    ensures r.None? <==> !Contains(s, pat)
  {
    FindFrom(s, pat, 0)
  }

  /** The first match is the only position that is a match with no match before it. */
  lemma IndexOfIsFirst<T>(s: seq<T>, pat: seq<T>, n: nat)
    requires MatchAt(s, pat, n)
    requires forall k :: 0 <= k < n ==> !MatchAt(s, pat, k)
    ensures IndexOf(s, pat) == Some(n)
  {
    assert Contains(s, pat);
  }

  /** A match inside a slice is a match in the whole sequence. */
  lemma MatchInSlice<T>(s: seq<T>, lo: nat, hi: nat, pat: seq<T>, k: int)
    requires lo <= hi <= |s|
    requires MatchAt(s[lo..hi], pat, k)
    ensures MatchAt(s, pat, lo + k)
  {
    forall t | 0 <= t < |pat|
      ensures s[lo + k..lo + k + |pat|][t] == pat[t]
    {
      assert s[lo..hi][k..k + |pat|][t] == pat[t];
    }
    assert s[lo + k..lo + k + |pat|] == pat;
  }

  lemma SliceAvoids<T>(s: seq<T>, lo: nat, hi: nat, pat: seq<T>)
    requires lo <= hi <= |s|
    requires !Contains(s, pat)
    ensures !Contains(s[lo..hi], pat)
  {
    if Contains(s[lo..hi], pat) {
      var k :| MatchAt(s[lo..hi], pat, k);
      MatchInSlice(s, lo, hi, pat, k);
    }
  }

  /** A one-element pattern occurs exactly when the element does. */
  lemma ContainsSingle<T>(s: seq<T>, x: T)
    ensures Contains(s, [x]) <==> x in s
  {
    if x in s {
      var k :| 0 <= k < |s| && s[k] == x;
      assert MatchAt(s, [x], k);
    }
    if Contains(s, [x]) {
      var k :| 0 <= k <= |s| && MatchAt(s, [x], k);
      assert s[k..k + 1][0] == x;
    }
  }

  /** bytes.Split: the pieces between the occurrences of `sep`, found left to right. */
  function Split<T(==)>(s: seq<T>, sep: seq<T>): (r: seq<seq<T>>)
    requires |sep| > 0
    ensures |r| >= 1
    ensures forall i :: 0 <= i < |r| ==> !Contains(r[i], sep)
    decreases |s|
  {
    match IndexOf(s, sep)
    case None => [s]
    case Some(n) =>
      FirstPieceAvoids(s, sep, n);
      [s[..n]] + Split(s[n + |sep|..], sep)
  }

  lemma FirstPieceAvoids<T>(s: seq<T>, sep: seq<T>, n: nat)
    requires |sep| > 0
    requires IndexOf(s, sep) == Some(n)
    ensures !Contains(s[..n], sep)
  {
    if Contains(s[..n], sep) {
      var k :| MatchAt(s[..n], sep, k);
      MatchInSlice(s, 0, n, sep, k);
    }
  }

  lemma {:induction false} SplitStep<T>(s: seq<T>, sep: seq<T>, n: nat)
    requires |sep| > 0
    requires IndexOf(s, sep) == Some(n)
    ensures n + |sep| <= |s|
    ensures Split(s, sep) == [s[..n]] + Split(s[n + |sep|..], sep)
  {
  }

  lemma ConcatAssoc<T>(a: seq<T>, b: seq<T>, c: seq<T>)
    ensures a + b + c == a + (b + c)
  {
  }

  /** bytes.Join: the pieces with `sep` between consecutive ones. */
  function Join<T>(parts: seq<seq<T>>, sep: seq<T>): seq<T>
    decreases |parts|
  {
    if |parts| == 0 then []
    else if |parts| == 1 then parts[0]
    else parts[0] + sep + Join(parts[1..], sep)
  }

  lemma JoinCons<T>(p: seq<T>, rest: seq<seq<T>>, sep: seq<T>)
    requires |rest| >= 1
    ensures Join([p] + rest, sep) == p + sep + Join(rest, sep)
  {
    assert ([p] + rest)[1..] == rest;
  }

  /** Joining the pieces of a split gives back the original sequence. */
  lemma {:induction false} JoinSplit<T>(s: seq<T>, sep: seq<T>)
    requires |sep| > 0
    ensures Join(Split(s, sep), sep) == s
    decreases |s|
  {
    match IndexOf(s, sep)
    case None =>
    case Some(n) =>
      var rest := s[n + |sep|..];
      assert Split(s, sep) == [s[..n]] + Split(rest, sep);
      JoinSplit(rest, sep);
      JoinCons(s[..n], Split(rest, sep), sep);
      assert s[n..n + |sep|] == sep;
      assert s == s[..n] + s[n..n + |sep|] + rest;
  }

  /** `p` followed by `sep` first matches `sep` right after `p`: this is what
      a piece must satisfy to come back unchanged from Split after Join. For a
      one-element separator it is the same as `p` not containing it
      (SingleSeparable); for a longer one whose prefix is also a suffix, it is
      stronger. */
  predicate Separable<T(==)>(p: seq<T>, sep: seq<T>) {
    IndexOf(p + sep, sep) == Some(|p|)
  }

  lemma SeparableAvoids<T>(p: seq<T>, sep: seq<T>)
    requires |sep| > 0
    requires Separable(p, sep)
    ensures !Contains(p, sep)
  {
    if Contains(p, sep) {
      var k :| 0 <= k <= |p| && MatchAt(p, sep, k);
      assert (p + sep)[k..k + |sep|] == p[k..k + |sep|];
      assert MatchAt(p + sep, sep, k);
    }
  }

  lemma SingleSeparable<T>(p: seq<T>, x: T)
    requires x !in p
    ensures Separable(p, [x])
  {
    assert MatchAt(p + [x], [x], |p|);
    forall k | 0 <= k < |p|
      ensures !MatchAt(p + [x], [x], k)
    {
      assert (p + [x])[k] == p[k];
    }
    IndexOfIsFirst(p + [x], [x], |p|);
  }

  /** `sep` has no proper prefix that is also its suffix. */
  predicate BorderFree<T(==)>(sep: seq<T>) {
    forall j :: 0 < j < |sep| ==> sep[j..] != sep[..|sep| - j]
  }

  /** For a border-free separator, not containing it is enough to be separable. */
  lemma BorderFreeSeparable<T>(p: seq<T>, sep: seq<T>)
    requires |sep| > 0 && BorderFree(sep)
    requires !Contains(p, sep)
    ensures Separable(p, sep)
  {
    var s := p + sep;
    assert s[|p|..|p| + |sep|] == sep;
    forall k | 0 <= k < |p|
      ensures !MatchAt(s, sep, k)
    {
      if k + |sep| <= |p| {
        assert s[k..k + |sep|] == p[k..k + |sep|];
        assert !MatchAt(p, sep, k);
      } else {
        var j := |p| - k;
        assert sep[j..] != sep[..|sep| - j];
        assert !(forall t :: 0 <= t < |sep| - j ==> sep[j..][t] == sep[..|sep| - j][t]);
        var t :| 0 <= t < |sep| - j && sep[j..][t] != sep[..|sep| - j][t];
        assert s[k + j + t] == sep[t];
      }
    }
    IndexOfIsFirst(s, sep, |p|);
  }

  /** Splitting a join gives back the pieces when each piece but the last is
      separable and the last does not contain the separator. */
  lemma {:induction false} SplitJoin<T>(parts: seq<seq<T>>, sep: seq<T>)
    requires |sep| > 0 && |parts| >= 1
    requires forall i :: 0 <= i < |parts| - 1 ==> Separable(parts[i], sep)
    requires !Contains(parts[|parts| - 1], sep)
    ensures Split(Join(parts, sep), sep) == parts
    decreases |parts|
  {
    if |parts| == 1 {
      assert IndexOf(parts[0], sep).None?;
      assert Join(parts, sep) == parts[0];
    } else {
      var p := parts[0];
      var rest := parts[1..];
      var tail := Join(rest, sep);
      var s := p + sep + tail;
      assert Join(parts, sep) == s;
      FirstMatchExtends(p, sep, tail);
      SplitStep(s, sep, |p|);
      assert s[..|p|] == p;
      assert s[|p| + |sep|..] == tail;
      forall i | 0 <= i < |rest| - 1
        ensures Separable(rest[i], sep)
      {
        assert rest[i] == parts[i + 1];
      }
      assert rest[|rest| - 1] == parts[|parts| - 1];
      SplitJoin(rest, sep);
      assert parts == [p] + rest;
    }
  }

  lemma FirstMatchExtends<T>(p: seq<T>, sep: seq<T>, tail: seq<T>)
    requires Separable(p, sep)
    ensures IndexOf(p + sep + tail, sep) == Some(|p|)
  {
    var s := p + sep + tail;
    assert s[|p|..|p| + |sep|] == sep;
    forall k | 0 <= k < |p|
      ensures !MatchAt(s, sep, k)
    {
      if MatchAt(s, sep, k) {
        assert s[k..k + |sep|] == (p + sep)[k..k + |sep|];
        assert MatchAt(p + sep, sep, k);
      }
    }
    IndexOfIsFirst(s, sep, |p|);
  }

  /** Joining pieces that avoid `x` with a separator that avoids `x` avoids `x`. */
  lemma {:induction false} JoinAvoids<T>(parts: seq<seq<T>>, sep: seq<T>, x: T)
    requires x !in sep
    requires forall i :: 0 <= i < |parts| ==> x !in parts[i]
    ensures x !in Join(parts, sep)
    decreases |parts|
  {
    if |parts| > 1 {
      JoinAvoids(parts[1..], sep, x);
    }
  }

  /** The position of the last occurrence of `x` in `s`. */
  function LastIndex<T(==)>(s: seq<T>, x: T): (r: Option<nat>)
    ensures r.None? <==> x !in s
    ensures r.Some? ==> r.value < |s| && s[r.value] == x && forall j :: r.value < j < |s| ==> s[j] != x
    decreases |s|
  {
    if |s| == 0 then None
    else if s[|s| - 1] == x then Some(|s| - 1)
    else
      assert s == s[..|s| - 1] + [s[|s| - 1]];
      LastIndex(s[..|s| - 1], x)
  }

  /** A sequence has at most as many distinct elements as positions, and
      exactly as many when no element repeats. */
  lemma {:induction false} DistinctCount<T>(s: seq<T>)
    ensures |set x | x in s| <= |s|
    ensures (forall i, j :: 0 <= i < j < |s| ==> s[i] != s[j]) ==> |set x | x in s| == |s|
    decreases |s|
  {
    if |s| > 0 {
      var init := s[..|s| - 1];
      DistinctCount(init);
      assert s == init + [s[|s| - 1]];
      assert (set x | x in s) == (set x | x in init) + {s[|s| - 1]};
      if forall i, j :: 0 <= i < j < |s| ==> s[i] != s[j] {
        assert s[|s| - 1] !in init;
      }
    }
  }

  /** bytes.ReplaceAll: every occurrence of `pat`, found left to right without
      overlap, replaced by `rep`. */
  function ReplaceAll<T(==)>(s: seq<T>, pat: seq<T>, rep: seq<T>): seq<T>
    requires |pat| > 0
    decreases |s|
  {
    match IndexOf(s, pat)
    case None => s
    case Some(n) => s[..n] + rep + ReplaceAll(s[n + |pat|..], pat, rep)
  }

  /** Replacing is splitting at `pat` and joining with `rep`. */
  lemma {:induction false} ReplaceAllIsJoinSplit<T>(s: seq<T>, pat: seq<T>, rep: seq<T>)
    requires |pat| > 0
    ensures ReplaceAll(s, pat, rep) == Join(Split(s, pat), rep)
    decreases |s|
  {
    match IndexOf(s, pat)
    case None =>
    case Some(n) =>
      var rest := s[n + |pat|..];
      assert Split(s, pat) == [s[..n]] + Split(rest, pat);
      assert ReplaceAll(s, pat, rep) == s[..n] + rep + ReplaceAll(rest, pat, rep);
      ReplaceAllIsJoinSplit(rest, pat, rep);
      JoinCons(s[..n], Split(rest, pat), rep);
  }

  /** Pieces of a split of a sequence that avoids `pat` avoid `pat`. */
  lemma {:induction false} SplitPiecesAvoid<T>(s: seq<T>, sep: seq<T>, pat: seq<T>)
    requires |sep| > 0
    requires !Contains(s, pat)
    ensures forall i :: 0 <= i < |Split(s, sep)| ==> !Contains(Split(s, sep)[i], pat)
    decreases |s|
  {
    match IndexOf(s, sep)
    case None =>
    case Some(n) =>
      SliceAvoids(s, 0, n, pat);
      SliceAvoids(s, n + |sep|, |s|, pat);
      assert s[n + |sep|..|s|] == s[n + |sep|..];
      SplitPiecesAvoid(s[n + |sep|..], sep, pat);
  }

  /** Concatenation of a sequence of sequences. */
  function Flatten<T>(xss: seq<seq<T>>): seq<T>
    decreases |xss|
  {
    if |xss| == 0 then [] else xss[0] + Flatten(xss[1..])
  }

  lemma {:induction false} FlattenAppend<T>(a: seq<seq<T>>, b: seq<seq<T>>)
    ensures Flatten(a + b) == Flatten(a) + Flatten(b)
    decreases |a|
  {
    if |a| > 0 {
      assert (a + b)[1..] == a[1..] + b;
      FlattenAppend(a[1..], b);
    } else {
      assert a + b == b;
    }
  }
}
